=== FILE: README.md ===
# BarnBoss admin: a Dafny model

BarnBoss admin is the administrators' web application of a horse-management business. It runs
over a hosted Postgres/auth service (Supabase). This project models its core:

- **Business-setup API routes** (`POST /api/business-setup/service-pricing`, `…/consumables`,
  `…/horses`). Each one validates a batch, collects one message per failed check in item and
  check order, normalises the rows and inserts them.
- **Read routes**: `GET /api/business-setup/horses/existing`, `/api/users-with-organizations`,
  `/api/profiles` and `/api/dashboard`, which select, join and count.
- **Setup wizards**: `OrganizationSetup` and `TrainerSetup`, multi-step sequences of writes to the
  auth service and four tables.
- **User management**: create a user, and assign a user to an organization (update the membership
  or insert it).
- **Editable row lists** of the service-pricing, consumable and horse screens: add, template,
  remove, the number coercions of their submit, and the horse search.
- **The two user pickers**: loading, search, selection, counts and the dropdown menu.

How the model is laid out:

- The backend is the class `Backend.Database`, holding one `seq` per table.
  - Each write receives its outcome (`Verdict`) as a parameter; a rejected write changes nothing.
  - A read's failure is a `QueryError`. Its message reaches the client only when the thrown value
    is an `Error` instance.
- JavaScript values are modelled explicitly:
  - an optional string is `Option<string>`, and it is truthy when present and non-empty;
  - a number input is `Option<real>`, with `None` for an empty or unreadable input;
  - `x || d`, `Number(x) || d` and `Boolean(x)` are functions in `Wrappers`;
  - a flag is `Option<bool>`, so `Boolean(x)` is true only for a given `true`.
- React component state (`useState`, `useFieldArray`) becomes a class whose methods update its
  fields.
- Each route's validation loop is a method, proved equal to a specification function over
  structured `(item index, check)` errors.

## Model

| member | source | states |
|---|---|---|
| Wrappers.OrElse | src/components/HorseManagement.tsx:191-192 | `s \|\| d`: the value when it is a non-empty string, otherwise the default |
| Wrappers.NumberOr | src/components/ConsumableManagement.tsx:182-187 | `Number(x) \|\| k` is `k` exactly when the input is absent, NaN, 0 or `k` itself; otherwise it is the input |
| Wrappers.NumberOrNull | src/app/api/business-setup/service-pricing/route.ts:82-83 | `x \|\| null` on a number is null exactly for an absent or zero input; otherwise it is the input, which is non-zero |
| Wrappers.ToBool | src/app/api/business-setup/service-pricing/route.ts:87-91 | `Boolean(x)` on an optional boolean is true only for a given `true` |
| Wrappers.JoinedOr | src/app/api/users-with-organizations/route.ts:51-54 | `(join)?.field \|\| default`: the joined field when the join matched and the field is non-empty, else the default |
| Wrappers.EitherOrNull | src/components/UserSelector.tsx:118 | `a \|\| b \|\| null`: the first truthy of the two, else null |
| Backend.ErrorMessage | src/app/api/dashboard/route.ts:50-53 | a route's 500 message is the error's own message for an `Error` instance and the route's fallback otherwise |
| Roles.RoleRowFor | src/components/OrganizationSetup.tsx:141-152 | a role row copies the template's name, permissions and colour; each capability flag is set exactly when its permission is listed |
| Roles.FindNamed | src/components/OrganizationSetup.tsx:171-177 | `find`: none exactly when no row has one of the names, otherwise the first row that has one |
| Forms.Required | src/components/OrganizationSetup.tsx:328 | a `required` rule refuses exactly the empty value |
| Forms.RequiredThen | src/components/OrganizationSetup.tsx:439-444 | a required field with one more rule passes exactly when it is filled and the rule holds, and reports at most one message |
| Forms.Range | src/components/HorseManagement.tsx:569-589 | a number field with `min`/`max` passes exactly when it is empty or inside the bounds, and reports at most one message |
| ServicePricingRoute.FailedChecksIff | src/app/api/business-setup/service-pricing/route.ts:33-61 | a check is reported for an item exactly when the item fails it: missing name, category, unit or billing frequency; a rate missing or below 0; a bound below 0; min above max |
| ServicePricingRoute.FailedChecksRanked | src/app/api/business-setup/service-pricing/route.ts:35-60 | an item's failures are listed in the order the checks are written |
| ServicePricingRoute.CollectErrors | src/app/api/business-setup/service-pricing/route.ts:33-61 | the validation loop yields exactly the specified error list |
| ServicePricingRoute.ValidationErrorsEmptyIff | src/app/api/business-setup/service-pricing/route.ts:63-72 | there are no errors exactly when every item passes every check |
| ServicePricingRoute.ValidationErrorsInOrder | src/app/api/business-setup/service-pricing/route.ts:33-61 | errors come item by item, and within an item in check order |
| ServicePricingRoute.ReportedIffFails | src/app/api/business-setup/service-pricing/route.ts:33-61 | an error (position, check) is reported exactly when the item at that 1-based position fails that check |
| ServicePricingRoute.MessageTagged | src/app/api/business-setup/service-pricing/route.ts:35-60 | each message is "Transaction type N: …" for a position N that exists and a check that failed there |
| ServicePricingRoute.NormaliseFields | src/app/api/business-setup/service-pricing/route.ts:75-92 | each row gets the request's organization and the timestamps; a bound of 0 or none becomes null; cycle and task counts default to 0; flags are true only when given as true |
| ServicePricingRoute.ValidatedRowsWellFormed | src/app/api/business-setup/service-pricing/route.ts:63-92 | a batch without errors normalises into rows that are named, categorised, rated at 0 or more and have ordered positive bounds |
| ServicePricingRoute.Post | src/app/api/business-setup/service-pricing/route.ts:10-118 | the 400 for no organization, for an empty list and for validation errors; the 500 for a refused insert; otherwise 200, with exactly the normalised rows stored and counted |
| ConsumablesRoute.FailedChecksIff | src/app/api/business-setup/consumables/route.ts:33-59 | a check is reported exactly when the item fails it: missing name, type, category or unit; a quantity of 0 or less; a stock, minimum or reorder point below 0 |
| ConsumablesRoute.FailedChecksRanked | src/app/api/business-setup/consumables/route.ts:35-58 | an item's failures are listed in the order the checks are written |
| ConsumablesRoute.CollectErrors | src/app/api/business-setup/consumables/route.ts:33-59 | the validation loop yields exactly the specified error list |
| ConsumablesRoute.ValidationErrorsEmptyIff | src/app/api/business-setup/consumables/route.ts:61-70 | there are no errors exactly when every item passes every check |
| ConsumablesRoute.ValidationErrorsInOrder | src/app/api/business-setup/consumables/route.ts:33-59 | errors come item by item, and within an item in check order |
| ConsumablesRoute.ReportedIffFails | src/app/api/business-setup/consumables/route.ts:33-59 | an error is reported exactly when the item at that position fails that check |
| ConsumablesRoute.MessageTagged | src/app/api/business-setup/consumables/route.ts:35-58 | each message is "Consumable N: …" for a position that exists and a check that failed there |
| ConsumablesRoute.NormaliseFields | src/app/api/business-setup/consumables/route.ts:73-92 | rows get the owner ids or null and the timestamps; the numeric and flag defaults apply |
| ConsumablesRoute.ValidatedRowsWellFormed | src/app/api/business-setup/consumables/route.ts:61-92 | a batch without errors normalises into well-formed rows |
| ConsumablesRoute.Post | src/app/api/business-setup/consumables/route.ts:10-118 | the 400 for no owner, for an empty list and for validation errors; the 500 for a refused insert; otherwise 200, with exactly the normalised rows stored |
| HorsesRoute.FailedChecksIff | src/app/api/business-setup/horses/route.ts:36-47 | a check is reported exactly when the horse fails it: missing name, breed or gender |
| HorsesRoute.FailedChecksRanked | src/app/api/business-setup/horses/route.ts:38-46 | a horse's failures are listed in the order the checks are written |
| HorsesRoute.CollectErrors | src/app/api/business-setup/horses/route.ts:36-47 | the validation loop yields exactly the specified error list |
| HorsesRoute.ValidationErrorsEmptyIff | src/app/api/business-setup/horses/route.ts:49-58 | there are no errors exactly when every horse passes every check |
| HorsesRoute.ValidationErrorsInOrder | src/app/api/business-setup/horses/route.ts:36-47 | errors come horse by horse, and within a horse in check order |
| HorsesRoute.ReportedIffFails | src/app/api/business-setup/horses/route.ts:36-47 | an error is reported exactly when the horse at that position fails that check |
| HorsesRoute.MessageTagged | src/app/api/business-setup/horses/route.ts:38-46 | each message is "Horse N: …" for a position that exists and a check that failed there |
| HorsesRoute.NormaliseFields | src/app/api/business-setup/horses/route.ts:61-75 | rows get the owner ids or null; a height or weight of 0 or none becomes null; the list defaults apply |
| HorsesRoute.ValidatedRowsWellFormed | src/app/api/business-setup/horses/route.ts:49-75 | a batch without errors normalises into named rows with a breed and a gender |
| HorsesRoute.Post | src/app/api/business-setup/horses/route.ts:13-101 | the 400 for no owner, for an empty list and for validation errors; the 500 for a refused insert; otherwise 200, with exactly the normalised rows stored |
| ExistingHorsesRoute.OwnerOf | src/app/api/business-setup/horses/existing/route.ts:11-28 | the organization is the owner when it is given; otherwise the user; none when neither is |
| ExistingHorsesRoute.Query | src/app/api/business-setup/horses/existing/route.ts:18-28 | the query returns only active horses of the owner |
| ExistingHorsesRoute.QueryIff | src/app/api/business-setup/horses/existing/route.ts:18-28 | a horse is returned exactly when it is stored, active and the owner's |
| ExistingHorsesRoute.QueryCountsSelected | src/app/api/business-setup/horses/existing/route.ts:18-28 | every selected horse is returned as often as it is stored |
| ExistingHorsesRoute.Get | src/app/api/business-setup/horses/existing/route.ts:11-47 | the 400 without an owner; the 500 for a failed query; otherwise the list and its count |
| ExistingHorsesRoute.GetListsOwned | src/app/api/business-setup/horses/existing/route.ts:18-40 | the listed horses are exactly the owner's active stored horses |
| ExistingHorsesRoute.OrganizationTakesPriority | src/app/api/business-setup/horses/existing/route.ts:23-28 | with an organization given, the user id does not change the answer |
| UsersWithOrganizationsRoute.Summarise | src/app/api/users-with-organizations/route.ts:49-57 | a membership becomes an entry with its organization id and join date; a matched join gives its name, type and role name (each falling back to its "Unknown …" default when empty), its description and role colour; a missing join gives "Unknown Organization", "unknown" and "Unknown Role" |
| UsersWithOrganizationsRoute.UserEntry | src/app/api/users-with-organizations/route.ts:45-67 | a user carries its profile columns, one entry per membership in order, the e-mail as display name, and `has_organizations` exactly when it has an entry |
| UsersWithOrganizationsRoute.Get | src/app/api/users-with-organizations/route.ts:4-77 | the 500 for either failed select (the first failure wins); otherwise one entry per profile |
| UsersWithOrganizationsRoute.MembershipsOfIff | src/app/api/users-with-organizations/route.ts:40-47 | a membership is listed for a user exactly when it is stored, active and the user's |
| UsersWithOrganizationsRoute.MembershipsInTableOrder | src/app/api/users-with-organizations/route.ts:40-47 | the listed memberships keep the table's order |
| UsersWithOrganizationsRoute.HasOrganizationsIff | src/app/api/users-with-organizations/route.ts:65 | a user has organizations exactly when one of its memberships is active |
| ProfilesRoute.Flatten | src/app/api/profiles/route.ts:34-41 | a membership entry carries the organization's columns, the role id as `member_role`, the join date and the active flag |
| ProfilesRoute.FlattenProfile | src/app/api/profiles/route.ts:28-43 | a flattened profile has five profile columns and one entry per membership in order, or none without the array |
| ProfilesRoute.Get | src/app/api/profiles/route.ts:4-64 | the 500 for a failed select; otherwise the flattened profiles when asked for organizations, and the stored rows when not |
| ProfilesRoute.OnlyTrueFlattens | src/app/api/profiles/route.ts:8-10 | only the exact parameter value "true" flattens |
| ProfilesRoute.MemberRoleIsRoleId | src/app/api/profiles/route.ts:34-42 | each flattened membership reports its role id and organization, in membership order |
| DashboardRoute.MemberCount | src/app/api/dashboard/route.ts:42 | the member count is the aggregate's first count, or 0 without one |
| DashboardRoute.ComputeStats | src/app/api/dashboard/route.ts:34-45 | the totals are the list lengths; the three type counts count their type; each organization carries its member count |
| DashboardRoute.Get | src/app/api/dashboard/route.ts:4-55 | the 500 for either failed select; otherwise the statistics over the active organizations |
| DashboardRoute.TypeCountsWithinTotal | src/app/api/dashboard/route.ts:35-38 | the trainer, stable and enterprise counts together never exceed the total |
| DashboardRoute.CountOfTypeExact | src/app/api/dashboard/route.ts:20-38 | a type count counts each active organization of that type as often as it is stored |
| DashboardRoute.OnlyActiveListed | src/app/api/dashboard/route.ts:20-43 | only active organizations are listed, in table order |
| OrganizationSetup.Template | src/components/OrganizationSetup.tsx:139 | an organization type without a template takes the organization template |
| OrganizationSetup.TemplateShape | src/components/OrganizationSetup.tsx:27-52 | every template has four roles; only the first may manage the organization |
| OrganizationSetup.RoleRows | src/components/OrganizationSetup.tsx:139-152 | one role row per template entry |
| OrganizationSetup.RoleRowsFollowTemplate | src/components/OrganizationSetup.tsx:141-152 | the rows follow the template in order, belong to the organization, carry "<name> role for <type>" and the flags of their permissions |
| OrganizationSetup.AdminIsFirstRole | src/components/OrganizationSetup.tsx:171-177 | the admin lookup finds the first role, the only one that may manage the organization |
| OrganizationSetup.AdminFound | src/components/OrganizationSetup.tsx:171-181 | "Admin role not found" cannot happen for the rows the wizard builds |
| OrganizationSetup.AccountType | src/components/OrganizationSetup.tsx:198 | the owner's account type is "trainer" exactly for a trainer organization, and "organization" otherwise |
| OrganizationSetup.OrganizationRowFor | src/components/OrganizationSetup.tsx:98-135 | the organization row is the form's name, type and tier, active, with one member and the owner; only a trainer organization gets trainer settings |
| OrganizationSetup.OwnerProfile | src/components/OrganizationSetup.tsx:196-216 | the owner's profile has the account type, the owner's name and the bio "<name> - <type> owner" |
| OrganizationSetup.StepsDone | src/components/OrganizationSetup.tsx:218-246 | the five writes run in order and stop at the first refusal; all five are done exactly when all are accepted |
| OrganizationSetup.FieldErrorsEmptyIff | src/components/OrganizationSetup.tsx:328-463 | the react-hook-form rules pass exactly when the required fields are filled, the e-mail matches and the password has at least 8 characters |
| OrganizationSetup.OrganizationWizard.constructor | src/components/OrganizationSetup.tsx:55-66 | the wizard starts at step 1, not loading, with nothing created |
| OrganizationSetup.OrganizationWizard.CreateOwnerAccount | src/components/OrganizationSetup.tsx:75-96 | the account is added exactly when accepted, and remembered; no table changes |
| OrganizationSetup.OrganizationWizard.CreateOrganization | src/components/OrganizationSetup.tsx:98-135 | the organization row is added exactly when accepted; nothing else changes |
| OrganizationSetup.OrganizationWizard.CreateRoles | src/components/OrganizationSetup.tsx:137-166 | the template's role rows are added exactly when accepted, and returned |
| OrganizationSetup.OrganizationWizard.AddOwnerToOrganization | src/components/OrganizationSetup.tsx:168-194 | the owner joins in the admin role when there is one and the insert is accepted; without an admin role nothing is written |
| OrganizationSetup.OrganizationWizard.CreateUserProfile | src/components/OrganizationSetup.tsx:196-216 | the owner profile is added exactly when accepted |
| OrganizationSetup.OrganizationWizard.OnSubmit | src/components/OrganizationSetup.tsx:218-246 | each table grows by exactly the writes done before the first refusal; step 2 only when all five are done; loading ends |
| OrganizationSetup.SubmitsIff | src/components/OrganizationSetup.tsx:317-499 | a click on the submit button reaches the handler exactly when the browser accepts the `type="email"` and `type="url"` inputs and every form rule holds |
| OrganizationSetup.OrganizationWizard.Submit | src/components/OrganizationSetup.tsx:317-499 | a submit the browser or a form rule stops writes nothing and changes no state; otherwise every table, the remembered account and organization, the step and the loading flag are exactly as after the submit handler |
| TrainerSetup.TrainerRoleRows | src/components/TrainerSetup.tsx:78-95 | one role row per trainer role |
| TrainerSetup.TrainerRoleRowsShape | src/components/TrainerSetup.tsx:25-30 | four rows in order, all of the organization, with their permissions' flags; none may view all horses |
| TrainerSetup.HeadTrainerIsFirstRole | src/components/TrainerSetup.tsx:98 | the "Head Trainer" lookup finds the first role, which manages the organization |
| TrainerSetup.TrainerOrganizationRow | src/components/TrainerSetup.tsx:54-75 | a trainer organization row: premium, active, one member, accepting training requests |
| TrainerSetup.SetupWritesDone | src/components/TrainerSetup.tsx:39-95 | the three checked writes stop at the first refusal; all three are done exactly when all are accepted |
| TrainerSetup.TrainerFieldErrorsEmptyIff | src/components/TrainerSetup.tsx:155-215 | the react-hook-form rules pass exactly when the names and e-mail are filled and the password has at least 8 characters |
| TrainerSetup.TrainerWizard.constructor | src/components/TrainerSetup.tsx:34-37 | the wizard starts at step 1, not loading, with nothing created |
| TrainerSetup.TrainerWizard.CreateTrainerOrganization | src/components/TrainerSetup.tsx:44-95 | account, organization and roles are written in order up to the first refusal |
| TrainerSetup.TrainerWizard.OnSubmit | src/components/TrainerSetup.tsx:39-119 | as written: after the three checked writes the membership insert's outcome is ignored and step 2 follows |
| TrainerSetup.TrainerWizard.OnSubmitChecked | src/components/TrainerSetup.tsx:96-110 | corrected: step 2 is reached only with the head-trainer membership stored |
| TrainerSetup.TrainerSubmitsIff | src/components/TrainerSetup.tsx:147-225 | a click on the submit button reaches the handler exactly when the browser accepts both `type="email"` inputs and every form rule holds |
| TrainerSetup.TrainerWizard.Submit | src/components/TrainerSetup.tsx:147-225 | a submit the browser or a form rule stops writes nothing and changes no state; otherwise every table, `created`, the step and the loading flag are exactly as after the submit handler |
| TrainerSetup.SuccessWithoutMembership | src/components/TrainerSetup.tsx:99-110 | a refused membership insert still reaches step 2 with no membership stored |
| UserManagement.AssignUserToOrg | src/components/UserManagement.tsx:112-155 | an existing membership is updated and a missing one inserted, exactly when the write is accepted; other tables are unchanged |
| UserManagement.AssignedUpdatesInPlace | src/components/UserManagement.tsx:124-132 | the update rewrites only the pair's row, with the role, made active |
| UserManagement.AssignedInserts | src/components/UserManagement.tsx:133-146 | without a membership exactly one active row with the role is appended |
| UserManagement.AssignedIdempotent | src/components/UserManagement.tsx:112-155 | assigning the same role twice gives the same memberships as once |
| UserManagement.AssignedMembership | src/components/UserManagement.tsx:112-155 | afterwards the pair has exactly one membership, with the role, active |
| UserManagement.FindOrganizationName | src/components/UserManagement.tsx:88-97 | the lookup finds a name exactly when an organization has the id, and the name is that organization's |
| UserManagement.MemberBio | src/components/UserManagement.tsx:88-97 | the bio is "Member of <name>", or "Member of undefined" when the organization is unknown |
| UserManagement.CreateWritesDone | src/components/UserManagement.tsx:57-110 | the three writes stop at the first refusal |
| UserManagement.CreateUser | src/components/UserManagement.tsx:57-110 | account, membership and profile are written in order up to the first refusal; success exactly when all three are accepted |
| UserManagement.UserFormErrorsEmptyIff | src/components/UserManagement.tsx:201-261 | the form submits exactly when every field is filled, the e-mail matches and the password has at least 8 characters |
| UserManagement.SubmitCreateUser | src/components/UserManagement.tsx:57-261 | a broken rule writes nothing; otherwise accounts, memberships and profiles grow by the writes done, organizations and roles are unchanged, and a success stores the new membership with the chosen organization and role |
| ServicePricingForm.CategoryName | src/components/ServicePricing.tsx:86-131 | every category has a non-empty name |
| ServicePricingForm.TemplatesWellFormed | src/components/ServicePricing.tsx:86-131 | every category has templates, each named, with a unit, a billing frequency and a rate of at least 0 |
| ServicePricingForm.FromTemplate | src/components/ServicePricing.tsx:184-190 | a templated service is the template's fields over the defaults |
| ServicePricingForm.TemplateRows | src/components/ServicePricing.tsx:192-203 | one row per template of the category |
| ServicePricingForm.PricingForm.constructor | src/components/ServicePricing.tsx:143-152 | the form starts with one default service for the selected organization, so the list is non-empty |
| ServicePricingForm.PricingForm.AddNewService | src/components/ServicePricing.tsx:184-190 | one default service for the selection is appended; the list stays non-empty |
| ServicePricingForm.PricingForm.AddTemplateServices | src/components/ServicePricing.tsx:192-203 | the category's templates are appended in order, and their number reported; the list stays non-empty |
| ServicePricingForm.PricingForm.RemoveService | src/components/ServicePricing.tsx:431-434 | offered only while there is more than one service: the service at the index leaves, the others keep their order, and at least one remains |
| ServicePricingForm.TemplateRowsAppended | src/components/ServicePricing.tsx:192-203 | templating keeps the existing rows and appends exactly the templates |
| ServicePricingForm.Coerce | src/components/ServicePricing.tsx:221-229 | numbers post as `Number(x) \|\| 0`; the organization is the selection |
| ServicePricingForm.SubmitRequest | src/components/ServicePricing.tsx:205-229 | without a selected organization nothing is posted; otherwise one coerced service per row |
| ServicePricingForm.CoercedRateAccepted | src/components/ServicePricing.tsx:221-229 | after the coercion the route never refuses a rate that was absent or at least 0 |
| ServicePricingForm.TemplateRowsPassRoute | src/components/ServicePricing.tsx:192-229 | a templated service passes every check of the route |
| ConsumableForm.CategoriesForType | src/components/ConsumableManagement.tsx:141-150 | each type's category list, and none for an unknown type |
| ConsumableForm.CategoriesEndWithOther | src/components/ConsumableManagement.tsx:59-80 | every known type's list is non-empty and ends with its "Other …" category |
| ConsumableForm.ConsumableList.constructor | src/components/ConsumableManagement.tsx:95-105 | the list starts with one default consumable for the selection, so it is non-empty |
| ConsumableForm.ConsumableList.AddNewConsumable | src/components/ConsumableManagement.tsx:152-159 | one default consumable of the given type, or feed, is appended; the list stays non-empty |
| ConsumableForm.ConsumableList.RemoveConsumable | src/components/ConsumableManagement.tsx:379-382 | offered only while there is more than one consumable: the consumable at the index leaves, the others keep their order, and at least one remains |
| ConsumableForm.Coerce | src/components/ConsumableManagement.tsx:178-189 | numbers post as `Number(x) \|\| default` with defaults 0, 1, 0, 10, 20 and 0; the owner ids are the selection or '' |
| ConsumableForm.SubmitRequest | src/components/ConsumableManagement.tsx:161-190 | with neither a user nor an organization nothing is posted; otherwise one coerced consumable per row |
| ConsumableForm.ZeroReplacedByDefault | src/components/ConsumableManagement.tsx:183-186 | a typed 0 for quantity, minimum or reorder point posts as the default, and a 0 stock stays 0 |
| ConsumableForm.CoercedNumbersAccepted | src/components/ConsumableManagement.tsx:182-187 | after the coercion no numeric check of the route fails for inputs that are absent or not negative |
| ConsumableForm.DefaultConsumableStartsLow | src/components/ConsumableManagement.tsx:329 | a default consumable is stored with the low-stock marker |
| HorseForm.HorseFieldErrorsEmptyIff | src/components/HorseManagement.tsx:569-589 | a horse passes the react-hook-form rules exactly when named, with breed and gender, and measurements inside 8–20 hands and 100–1500 kg |
| HorseForm.HorseSubmitsIff | src/components/HorseManagement.tsx:565-592 | a horse lets the submit through exactly when it passes the rules, its height is a whole number of tenths (`step="0.1"`) and its weight a whole number of kilograms (the default step 1) |
| HorseForm.FractionalWeightBlocked | src/components/HorseManagement.tsx:583-592 | a weight of 500.5 kg passes the rules, but the browser's step check stops the submit |
| HorseForm.DefaultHorseNeedsNameAndBreed | src/components/HorseManagement.tsx:20-45 | a fresh default horse is held back for its name and breed only |
| HorseForm.HorseList.constructor | src/components/HorseManagement.tsx:110-116 | the list starts with one default horse for the selection, so it is non-empty |
| HorseForm.HorseList.AddNewHorse | src/components/HorseManagement.tsx:164-170 | one default horse for the selection is appended; the list stays non-empty |
| HorseForm.HorseList.RemoveHorse | src/components/HorseManagement.tsx:435-438 | offered only while there is more than one horse: the horse at the index leaves, the others keep their order, and at least one remains |
| HorseForm.Coerce | src/components/HorseManagement.tsx:189-195 | a horse posts with the selected ids or '' and missing lists as `[]` |
| HorseForm.SubmitRequest | src/components/HorseManagement.tsx:172-196 | with neither a user nor an organization nothing is posted; otherwise one coerced horse per row |
| HorseForm.FormValidHorseAccepted | src/components/HorseManagement.tsx:189-195 | a horse the form lets through passes the route and keeps its measurements |
| HorseForm.FilteredHorsesIff | src/components/HorseManagement.tsx:228-234 | a stored horse is listed exactly when the lower-cased term occurs in one of its five searched fields; order kept |
| HorseForm.EmptyTermKeepsAll | src/components/HorseManagement.tsx:228-234 | an empty search lists every horse |
| HorseForm.SearchIgnoresTermCase | src/components/HorseManagement.tsx:228-234 | the search ignores the case of the term |
| UserSelector.OrganizationOf | src/components/UserSelector.tsx:93-99 | a membership becomes an organization with its id and active flag; a matched join gives its name, type and role name, each falling back to "Unknown Organization", "Unknown" or "Unknown Role" when empty; a missing join gives those defaults |
| UserSelector.LoadUser | src/components/UserSelector.tsx:67-104 | a failed membership select gives no organizations; otherwise one per active membership, in order |
| UserSelector.LoadUsers | src/components/UserSelector.tsx:43-115 | a failed profile select keeps the list; otherwise one loaded user per profile |
| UserSelector.LoadedOrganizationsIff | src/components/UserSelector.tsx:82-99 | each active membership of the user appears, every listed organization comes from one of the user's active memberships, and every listed organization is active |
| UserSelector.FilteredUsersIff | src/components/UserSelector.tsx:33-40 | a user is listed exactly when the term occurs in its name, e-mail or an organization's name; order kept |
| UserSelector.EmptySearchKeepsAll | src/components/UserSelector.tsx:33-40 | an empty search lists every user |
| UserSelector.FirstOrganizationId | src/components/UserSelector.tsx:118 | the first organization's id, present exactly when the user has one |
| UserSelector.SelectedOrganization | src/components/UserSelector.tsx:117-121 | the selected organization is null or a non-empty id |
| UserSelector.SelectedOrganizationFallback | src/components/UserSelector.tsx:117-121 | the clicked organization wins; otherwise the first organization; null without organizations |
| UserSelector.UsersWithOrganizationsCount | src/components/UserSelector.tsx:192-194 | the count of users with organizations never exceeds the total |
| UserSelector.CountsPartitionUsers | src/components/UserSelector.tsx:187-194 | users with and without organizations together make up the total |
| UserSelector.FailedMembershipLoadsCountNone | src/components/UserSelector.tsx:85-91 | when every membership select fails, no user counts as having organizations |
| UserDropdownSelector.FirstOrganization | src/components/UserDropdownSelector.tsx:137-156 | the first organization, present exactly when the user has one |
| UserDropdownSelector.SelectionFor | src/components/UserDropdownSelector.tsx:72-80 | a selection carries the user's id and e-mail; the organization id is the chosen organization's when non-empty, else the first organization's when non-empty, else null; the same for the name |
| UserDropdownSelector.FormatUserDisplay | src/components/UserDropdownSelector.tsx:82-90 | the display is the e-mail with "(No organization)", the one organization's name, or "(N organizations)" |
| UserDropdownSelector.FormatUserDisplayDistinguishesCounts | src/components/UserDropdownSelector.tsx:82-90 | the display starts with the e-mail, and different counts of two or more give different displays |
| UserDropdownSelector.CurrentSelection | src/components/UserDropdownSelector.tsx:92-98 | the label is never empty: "Select a user..." without a selected user; "<e-mail> (<organization>)" when both are non-empty; otherwise the e-mail, or "Unknown user" without one |
| UserDropdownSelector.SelectionShownInLabel | src/components/UserDropdownSelector.tsx:72-98 | after a choice the label shows the e-mail with the chosen organization's name, or with the first organization's name when none was chosen; the e-mail alone without organizations; "Unknown user" without an e-mail |
| UserDropdownSelector.AloneEntries | src/components/UserDropdownSelector.tsx:137-156 | one entry per user without organizations |
| UserDropdownSelector.OrganizationEntriesCount | src/components/UserDropdownSelector.tsx:159-187 | one entry per (user, organization) pair |
| UserDropdownSelector.OrganizationEntriesIff | src/components/UserDropdownSelector.tsx:159-187 | an organization entry exists exactly for a listed user and one of its organizations |
| UserDropdownSelector.MenuShape | src/components/UserDropdownSelector.tsx:130-187 | the menu's size, and exactly which alone and organization entries it holds |
| UserDropdownSelector.EveryUserSelectable | src/components/UserDropdownSelector.tsx:130-187 | every user the route reports can be chosen from the menu |
| UserDropdownSelector.RouteUsersFlagOrganizations | src/app/api/users-with-organizations/route.ts:63-65 | the route's flag agrees with its organization list |
| UserDropdownSelector.EntrySelection | src/components/UserDropdownSelector.tsx:137-187 | an entry selects its user, and its organization when it has one |
| UserDropdownSelector.Dropdown.constructor | src/components/UserDropdownSelector.tsx:41-43 | the dropdown starts empty, loading and closed |
| UserDropdownSelector.Dropdown.LoadUsers | src/components/UserDropdownSelector.tsx:49-70 | a successful load replaces the users, a failed one keeps them; loading ends |
| UserDropdownSelector.Dropdown.Toggle | src/components/UserDropdownSelector.tsx:115 | the button flips the menu |
| UserDropdownSelector.Dropdown.ClickOutside | src/components/UserDropdownSelector.tsx:194-199 | a click outside closes the open menu |
| UserDropdownSelector.Dropdown.Choose | src/components/UserDropdownSelector.tsx:72-80 | choosing an entry yields its selection and closes the menu |

## Left out

- Calls to the hosted service (auth admin, table selects and inserts) are not executed. Each becomes a table in `Backend.Database` plus an outcome parameter (`Verdict`, `QueryError`).
- The database's row order (`order('created_at', …)`) is not modelled. Reads return rows in table order.
- `.single()` lookups are modelled as "the one matching row". Two matching memberships are excluded by the lemmas' `AtMostOneMembership`/`UniqueIds` preconditions, not by the database.
- Rows returned by an insert followed by `select()` are taken to be the rows inserted.
- Generated UUIDs and timestamps (`uuidv4()`, `new Date().toISOString()`) are parameters. One instant stands for every timestamp call of a request, so a row's `created_at` and `updated_at` are equal in the model; the source's two calls may differ by a millisecond.
- `Promise.all` concurrency is not modelled. The per-user membership selects of `UserSelector` are independent reads, so each one's outcome is given by index (`failedLoads`).
- Rendering, toasts, `console` output and CSS are not modelled. Only the state they display is modelled (labels, counts, list contents).
- JSON `null` is not distinguished from an absent field. Both are `None`. The routes' `=== undefined` tests let a `null` through where an absent field is refused, and this difference is lost:
  - a `null` `default_rate` passes the service-pricing check (`null < 0` is false) and is stored as `Number(null)`, which is 0. The model reports `RateInvalid` instead.
  - a `null` `current_stock`, `minimum_stock` or `reorder_point` passes the consumables checks and is stored as 0. The model reports the matching `…Invalid` check instead.
  - a `null` `price_range_max` with a positive `price_range_min` fails the min-above-max test in the source (`min > null` compares with 0). The model skips the test for an absent bound.
- Request flags are typed `Option<bool>`. A JSON string or number in a flag (`"false"`, `1`), which `Boolean(x)` turns into `true`, cannot be expressed in the model.
- Lower-casing is ASCII-only (`Text.ToLower`). JavaScript's `toLowerCase` also folds non-ASCII letters.
- Numbers are reals. NaN and an unreadable input are `None`, and floating-point rounding is not modelled.
- The e-mail pattern of the forms (`/^[A-Z0-9._%+-]+@[A-Z0-9.-]+\.[A-Z]{2,}$/i`) is a boolean parameter (`emailMatches`). It also stands for the browser's `type="email"` check of the same field (UserManagement.tsx:218, OrganizationSetup.tsx:446), which accepts the strings the pattern matches except a domain with an empty or hyphen-edged label (such as `a@b..com`); that exception is not modelled. Regular expressions are not modelled.
- The browser's own constraint validation of the other inputs, which runs before `handleSubmit`, is a boolean parameter (`inputsValid`) for the two setup wizards: the `type="email"` and `type="url"` inputs of `OrganizationSetup` and the two `type="email"` inputs of `TrainerSetup`. The number steps of the horse form are modelled (`MeasurementsOnStep`), on exact reals.
- A `request.json()` that throws, and the routes' catch-all 500, are not modelled. A request is a parsed value.
- `insurance_details`, `specifications` and `user_metadata` are `map<string, string>`. Nested JSON is not modelled.
- `DEFAULT_ROLES[type]` for a key such as `constructor` or `toString` would find an inherited property. The model treats every unknown type as missing and falls back to the organization template.
- ProfilesRoute.Flatten: a membership whose joined organization is null makes the source throw (`member.organizations.id`). The model always has the organization record.
- The fallback `serviceTemplates[category] || []` in `ServicePricing.tsx` cannot be reached, because the category is one of the template keys. The model's `Category` datatype has only those keys.
- The `loadExisting*` loaders of the three business-setup screens are not modelled. They are single selects with the same shape as `GET /api/business-setup/horses/existing`, which is modelled.
- The per-row field rules of the service-pricing and consumable screens (react-hook-form `register` options) are not modelled, and neither is the browser's step check of their number inputs, which also stops the submit (`step="0.01"` at ServicePricing.tsx:512, 561, 576 and ConsumableManagement.tsx:474, 508; the default step 1 on the other number inputs). The route's own checks on the posted rows are modelled.
- `UserManagement.tsx` loads an organization's roles from a callback passed to `useState` (lines 51-55), which runs once at mount, not on each change of organization. This role loading (`loadOrgRoles`) and the tab switching are not modelled.
- The thin CRUD routes (`/api/organizations`, `/api/roles`, `/api/users`, `/api/organization-members`, login) are not part of this model.
- UserSelector.UsersWithOrganizationsCount: states only the bound and the partition with `UsersWithoutOrganizations`, not the count itself.
- UserSelector.SelectedOrganization: its own contract states only the null-or-non-empty shape. The fallback order is stated by `SelectedOrganizationFallback`.

## Findings

| source | as written | input that shows it | evidently intended | confidence | as-written member | corrected member |
|---|---|---|---|---|---|---|
| src/components/TrainerSetup.tsx:99-110 | the head-trainer membership insert's error is not checked; the wizard reports success and moves to step 2 | the account, organization and roles writes accepted, the membership insert refused | step 2 only when the membership is stored, as in `OrganizationSetup.tsx`, which checks every write | not executed | TrainerSetup.SuccessWithoutMembership | TrainerSetup.TrainerWizard.OnSubmitChecked |

=== FILE: backend.dfy ===
/**
 * The hosted database and auth service the admin app writes to, as in-memory tables. Every
 * write is given its outcome (`Verdict`) from outside: a rejected write changes nothing.
 */
module Backend {
  import opened Wrappers

  /** The service's answer to one write. */
  datatype Verdict = Accepted | Rejected(message: string)

  /** A failed read: its message, and whether the thrown value is an `Error` instance. */
  datatype QueryError = QueryError(message: string, isErrorInstance: bool)

  /** The message a route reports for a thrown error: `error instanceof Error ? error.message : fallback`. */
  function ErrorMessage(e: QueryError, fallback: string): (m: string)
    ensures e.isErrorInstance ==> m == e.message
    ensures !e.isErrorInstance ==> m == fallback
  {
    if e.isErrorInstance then e.message else fallback
  }

  /** An account of the auth service; `id` is assigned by the service. */
  datatype AuthUser = AuthUser(id: string, email: string, password: string, emailConfirmed: bool, fullName: string, role: string)

  /** The `settings` object of an organization; all fields absent is `{}`. */
  datatype Settings = Settings(isTrainer: Option<bool>, acceptsTrainingRequests: Option<bool>, trainingSpecializations: Option<seq<string>>)

  const EmptySettings := Settings(None, None, None)

  datatype OrganizationRow = OrganizationRow(
    id: string,
    name: string,
    orgType: string,
    description: string,
    ownerId: string,
    address: string,
    phone: string,
    email: string,
    website: string,
    settings: Settings,
    subscriptionTier: string,
    isActive: bool,
    memberCount: nat)

  datatype RoleRow = RoleRow(
    id: string,
    organizationId: string,
    name: string,
    description: Option<string>,
    permissions: seq<string>,
    canAssignTasks: bool,
    canManageHorses: bool,
    canViewAllHorses: bool,
    canManageOrganization: bool,
    color: string)

  /** A row of `organization_members`; `roleId` is absent when the role could not be found. */
  datatype MemberRow = MemberRow(id: string, organizationId: string, userId: string, roleId: Option<string>, isActive: bool)

  /** A row of `user_account_profiles`. */
  datatype ProfileRow = ProfileRow(id: string, userId: string, accountType: string, displayName: string, bio: string, isActive: bool)

  /** The member rows of one (user, organization) pair, in table order. */
  function Matching(members: seq<MemberRow>, userId: string, organizationId: string): (r: seq<MemberRow>)
    ensures |r| <= |members|
    ensures forall k :: 0 <= k < |r| ==> r[k].userId == userId && r[k].organizationId == organizationId
  {
    if members == [] then []
    else
      var rest := Matching(members[1..], userId, organizationId);
      if members[0].userId == userId && members[0].organizationId == organizationId then [members[0]] + rest else rest
  }

  /** The answer of `select ... .single()`: the matching row when there is exactly one, and nothing otherwise. */
  function SingleMember(members: seq<MemberRow>, userId: string, organizationId: string): (r: Option<MemberRow>)
    ensures r.Some? <==> |Matching(members, userId, organizationId)| == 1
    ensures r.Some? ==> r.value in members && r.value.userId == userId && r.value.organizationId == organizationId
  {
    var m := Matching(members, userId, organizationId);
    MatchingIn(members, userId, organizationId);
    if |m| == 1 then Some(m[0]) else None
  }

  /** A matching row is a row of the table. */
  lemma {:induction false} MatchingIn(members: seq<MemberRow>, userId: string, organizationId: string)
    ensures forall x :: x in Matching(members, userId, organizationId) <==>
                          x in members && x.userId == userId && x.organizationId == organizationId
  {
    if members != [] {
      MatchingIn(members[1..], userId, organizationId);
      assert members == [members[0]] + members[1..];
    }
  }

  /** Member ids are distinct. */
  predicate UniqueIds(members: seq<MemberRow>) {
    forall p, q :: 0 <= p < q < |members| ==> members[p].id != members[q].id
  }

  /** `update({ role_id, is_active: true }).eq('id', id)`. */
  function UpdatedMembers(members: seq<MemberRow>, id: string, roleId: string): (r: seq<MemberRow>)
    ensures |r| == |members|
  {
    seq(|members|, k requires 0 <= k < |members| =>
      if members[k].id == id then members[k].(roleId := Some(roleId), isActive := true) else members[k])
  }

  /** The update touches only the rows with that id, and in them only the role and the active flag. */
  lemma UpdatedMembersFrame(members: seq<MemberRow>, id: string, roleId: string)
    ensures forall k :: 0 <= k < |members| && members[k].id != id ==> UpdatedMembers(members, id, roleId)[k] == members[k]
    ensures forall k :: 0 <= k < |members| && members[k].id == id ==>
              UpdatedMembers(members, id, roleId)[k] == MemberRow(id, members[k].organizationId, members[k].userId, Some(roleId), true)
  {
  }

  /** The tables, and the auth service's accounts. */
  class Database {
    var users: seq<AuthUser>
    var organizations: seq<OrganizationRow>
    var roles: seq<RoleRow>
    var members: seq<MemberRow>
    var profiles: seq<ProfileRow>

    constructor (users: seq<AuthUser>, organizations: seq<OrganizationRow>, roles: seq<RoleRow>, members: seq<MemberRow>, profiles: seq<ProfileRow>)
      ensures this.users == users && this.organizations == organizations && this.roles == roles
      ensures this.members == members && this.profiles == profiles
    {
      this.users := users;
      this.organizations := organizations;
      this.roles := roles;
      this.members := members;
      this.profiles := profiles;
    }

    /** `auth.admin.createUser`. */
    method CreateUser(u: AuthUser, v: Verdict) returns (ok: bool)
      modifies this
      ensures ok <==> v.Accepted?
      ensures users == old(users) + (if ok then [u] else [])
      ensures organizations == old(organizations) && roles == old(roles)
      ensures members == old(members) && profiles == old(profiles)
    {
      ok := v.Accepted?;
      if ok {
        users := users + [u];
      }
    }

    /** `from('organizations').insert(row)`. */
    method InsertOrganization(row: OrganizationRow, v: Verdict) returns (ok: bool)
      modifies this
      ensures ok <==> v.Accepted?
      ensures organizations == old(organizations) + (if ok then [row] else [])
      ensures users == old(users) && roles == old(roles)
      ensures members == old(members) && profiles == old(profiles)
    {
      ok := v.Accepted?;
      if ok {
        organizations := organizations + [row];
      }
    }

    /** `from('roles').insert(rows)`: all rows or none. */
    method InsertRoles(rows: seq<RoleRow>, v: Verdict) returns (ok: bool)
      modifies this
      ensures ok <==> v.Accepted?
      ensures roles == old(roles) + (if ok then rows else [])
      ensures users == old(users) && organizations == old(organizations)
      ensures members == old(members) && profiles == old(profiles)
    {
      ok := v.Accepted?;
      if ok {
        roles := roles + rows;
      }
    }

    /** `from('organization_members').insert(row)`. */
    method InsertMember(row: MemberRow, v: Verdict) returns (ok: bool)
      modifies this
      ensures ok <==> v.Accepted?
      ensures members == old(members) + (if ok then [row] else [])
      ensures users == old(users) && organizations == old(organizations)
      ensures roles == old(roles) && profiles == old(profiles)
    {
      ok := v.Accepted?;
      if ok {
        members := members + [row];
      }
    }

    /** `from('user_account_profiles').insert(row)`. */
    method InsertProfile(row: ProfileRow, v: Verdict) returns (ok: bool)
      modifies this
      ensures ok <==> v.Accepted?
      ensures profiles == old(profiles) + (if ok then [row] else [])
      ensures users == old(users) && organizations == old(organizations)
      ensures roles == old(roles) && members == old(members)
    {
      ok := v.Accepted?;
      if ok {
        profiles := profiles + [row];
      }
    }

    /** `from('organization_members').update({ role_id, is_active: true }).eq('id', id)`. */
    method UpdateMember(id: string, roleId: string, v: Verdict) returns (ok: bool)
      modifies this
      ensures ok <==> v.Accepted?
      ensures members == if ok then UpdatedMembers(old(members), id, roleId) else old(members)
      ensures users == old(users) && organizations == old(organizations)
      ensures roles == old(roles) && profiles == old(profiles)
    {
      ok := v.Accepted?;
      if ok {
        members := UpdatedMembers(members, id, roleId);
      }
    }

    /** `select('*').eq('user_id', u).eq('organization_id', o).single()`, scanning the table. */
    method SelectSingleMember(userId: string, organizationId: string) returns (found: Option<MemberRow>)
      ensures found == SingleMember(members, userId, organizationId)
    {
      var count := 0;
      found := None;
      var k := |members|;
      while k > 0
        invariant 0 <= k <= |members|
        invariant count == |Matching(members[k..], userId, organizationId)|
        invariant count >= 1 ==> found == Some(Matching(members[k..], userId, organizationId)[0])
      {
        k := k - 1;
        assert members[k..][1..] == members[k + 1..];
        if members[k].userId == userId && members[k].organizationId == organizationId {
          count := count + 1;
          found := Some(members[k]);
        }
      }
      assert members[0..] == members;
      if count != 1 {
        found := None;
      }
    }
  }
}

=== FILE: batch.dfy ===
/**
 * The shape shared by the three business-setup routes (horses, consumables, service pricing):
 * every item of the posted list is checked in order, each failed check becomes one message
 * tagged with the item's 1-based position, and the route answers with that list or with the
 * rows it inserts.
 */
module Batch {

  /** One failed check of one item; `index` is the item's 1-based position in the request. */
  datatype ItemError<C> = ItemError(index: nat, check: C)

  /** The JSON body every business-setup route answers with, and its HTTP status. */
  datatype SetupResponse = SetupResponse(status: nat, success: bool, message: string, errors: seq<string>, created: nat)

  function Tagged<C>(index: nat, checks: seq<C>): seq<ItemError<C>> {
    seq(|checks|, k requires 0 <= k < |checks| => ItemError(index, checks[k]))
  }

  /** The failed checks of the whole batch: item by item, and within an item in check order. */
  function Errors<T, C>(items: seq<T>, failed: T -> seq<C>): seq<ItemError<C>> {
    if items == [] then []
    else Errors(items[..|items| - 1], failed) + Tagged(|items|, failed(items[|items| - 1]))
  }

  /** The messages sent back, one per failed check, in the same order. */
  function Rendered<C>(errors: seq<ItemError<C>>, render: ItemError<C> -> string): (r: seq<string>)
    ensures |r| == |errors|
  {
    seq(|errors|, k requires 0 <= k < |errors| => render(errors[k]))
  }

  /** Checks are listed in a fixed order, and an item's failed checks keep that order. */
  ghost predicate Ranked<C>(checks: seq<C>, rank: C -> nat) {
    forall p, q :: 0 <= p < q < |checks| ==> rank(checks[p]) < rank(checks[q])
  }

  /** Item order first, then check order. */
  ghost predicate InReportOrder<C>(errors: seq<ItemError<C>>, rank: C -> nat) {
    forall p, q :: 0 <= p < q < |errors| ==>
      errors[p].index < errors[q].index ||
      (errors[p].index == errors[q].index && rank(errors[p].check) < rank(errors[q].check))
  }

  /** Appending the next item to the batch appends its tagged failures to the report. */
  lemma ErrorsSnoc<T, C>(items: seq<T>, x: T, failed: T -> seq<C>)
    ensures Errors(items + [x], failed) == Errors(items, failed) + Tagged(|items| + 1, failed(x))
  {
    assert (items + [x])[..|items|] == items;
  }

  /** The report is empty exactly when every item passes every check. */
  lemma {:induction false} ErrorsEmptyIff<T, C>(items: seq<T>, failed: T -> seq<C>)
    ensures Errors(items, failed) == [] <==> forall i :: 0 <= i < |items| ==> failed(items[i]) == []
  {
    if items != [] {
      var n := |items| - 1;
      ErrorsEmptyIff(items[..n], failed);
      assert forall i :: 0 <= i < n ==> items[..n][i] == items[i];
    }
  }

  /** A failure is reported exactly when it is a failed check of the item at that 1-based position. */
  lemma {:induction false} ErrorsIndexed<T, C>(items: seq<T>, failed: T -> seq<C>, e: ItemError<C>)
    ensures e in Errors(items, failed) <==> 1 <= e.index <= |items| && e.check in failed(items[e.index - 1])
  {
    if items != [] {
      var n := |items| - 1;
      ErrorsIndexed(items[..n], failed, e);
      var tail := Tagged(|items|, failed(items[n]));
      if e in tail {
        var k :| 0 <= k < |tail| && tail[k] == e;
        assert e.check == failed(items[n])[k];
      }
      if e.index == |items| && e.check in failed(items[n]) {
        var k :| 0 <= k < |failed(items[n])| && failed(items[n])[k] == e.check;
        assert tail[k] == e;
      }
    }
  }

  /** Every reported index lies between 1 and the number of items. */
  lemma {:induction false} ErrorsIndexBounds<T, C>(items: seq<T>, failed: T -> seq<C>)
    ensures forall p :: 0 <= p < |Errors(items, failed)| ==> 1 <= Errors(items, failed)[p].index <= |items|
  {
    if items != [] {
      ErrorsIndexBounds(items[..|items| - 1], failed);
    }
  }

  /** When each item's failures are in check order, the whole report is in item-then-check order. */
  lemma {:induction false} ErrorsInReportOrder<T, C>(items: seq<T>, failed: T -> seq<C>, rank: C -> nat)
    requires forall i :: 0 <= i < |items| ==> Ranked(failed(items[i]), rank)
    ensures InReportOrder(Errors(items, failed), rank)
  {
    if items != [] {
      var n := |items| - 1;
      var front := items[..n];
      assert forall i :: 0 <= i < |front| ==> front[i] == items[i];
      ErrorsInReportOrder(front, failed, rank);
      ErrorsIndexBounds(front, failed);
      var head := Errors(front, failed);
      var tail := Tagged(|items|, failed(items[n]));
      var all := head + tail;
      forall p, q | 0 <= p < q < |all|
        ensures all[p].index < all[q].index ||
                (all[p].index == all[q].index && rank(all[p].check) < rank(all[q].check))
      {
        if q < |head| {
          assert all[p] == head[p] && all[q] == head[q];
        } else if p < |head| {
          assert all[p] == head[p] && all[q] == tail[q - |head|];
        } else {
          assert all[p] == tail[p - |head|] && all[q] == tail[q - |head|];
        }
      }
    }
  }

  /** One check of a validation pass: `[x]` when the check fails, nothing otherwise. */
  function Flag<X>(failing: bool, x: X): seq<X> {
    if failing then [x] else []
  }

  /** `if (failing) errors.push(message)`: how a validation pass records one check. */
  method Push(errors: seq<string>, failing: bool, message: string) returns (r: seq<string>)
    ensures r == errors + Flag(failing, message)
  {
    r := errors;
    if failing {
      r := r + [message];
    }
  }

  /** Ranked, and every rank below `bound`; stated from the back so that a chain of checks unfolds one step at a time. */
  ghost predicate RankedBelow<C>(checks: seq<C>, rank: C -> nat, bound: nat) {
    checks == [] ||
    (rank(checks[|checks| - 1]) < bound && RankedBelow(checks[..|checks| - 1], rank, rank(checks[|checks| - 1])))
  }

  /** A larger bound is still a bound. */
  lemma RankedBelowWeaken<C>(checks: seq<C>, rank: C -> nat, bound: nat, larger: nat)
    requires RankedBelow(checks, rank, bound) && bound <= larger
    ensures RankedBelow(checks, rank, larger)
  {
  }

  /** Every rank below the bound: the first element's rank, or the bound, bounds the rest. */
  lemma {:induction false} RankedBelowBounds<C>(checks: seq<C>, rank: C -> nat, bound: nat)
    requires RankedBelow(checks, rank, bound)
    ensures forall k :: 0 <= k < |checks| ==> rank(checks[k]) < bound
  {
    if checks != [] {
      var n := |checks| - 1;
      RankedBelowBounds(checks[..n], rank, rank(checks[n]));
      assert forall k :: 0 <= k < n ==> checks[..n][k] == checks[k];
    }
  }

  /** The step-by-step form gives the pairwise form. */
  lemma {:induction false} RankedBelowRanked<C>(checks: seq<C>, rank: C -> nat, bound: nat)
    requires RankedBelow(checks, rank, bound)
    ensures Ranked(checks, rank)
  {
    if checks != [] {
      var n := |checks| - 1;
      var front := checks[..n];
      RankedBelowRanked(front, rank, rank(checks[n]));
      RankedBelowBounds(front, rank, rank(checks[n]));
      forall p, q | 0 <= p < q < |checks|
        ensures rank(checks[p]) < rank(checks[q])
      {
        assert checks[p] == front[p];
        if q < n {
          assert checks[q] == front[q];
        }
      }
    }
  }

  /** The first check of a pass leaves a ranked list. */
  lemma FlagRankedFirst<C>(failing: bool, c: C, rank: C -> nat)
    ensures RankedBelow(Flag(failing, c), rank, rank(c) + 1)
  {
    if failing {
      assert Flag(failing, c)[..0] == [];
    }
  }

  /** Noting checks in increasing rank keeps the list ranked. */
  lemma FlagRanked<C>(found: seq<C>, bound: nat, failing: bool, c: C, rank: C -> nat)
    requires RankedBelow(found, rank, bound) && bound <= rank(c)
    ensures RankedBelow(found + Flag(failing, c), rank, rank(c) + 1)
  {
    if failing {
      assert (found + [c])[..|found|] == found;
      RankedBelowWeaken(found, rank, bound, rank(c));
    } else {
      assert found + Flag(failing, c) == found;
      RankedBelowWeaken(found, rank, bound, rank(c) + 1);
    }
  }

  /** A flagged check is rendered as its one message, and an unflagged one as nothing. */
  lemma TaggedFlag<C>(index: nat, failing: bool, c: C, render: ItemError<C> -> string)
    ensures Rendered(Tagged(index, Flag(failing, c)), render) == Flag(failing, render(ItemError(index, c)))
  {
  }

  /** Tagging and rendering distribute over appending an item's check lists. */
  lemma TaggedAppend<C>(index: nat, a: seq<C>, b: seq<C>, render: ItemError<C> -> string)
    ensures Rendered(Tagged(index, a + b), render) == Rendered(Tagged(index, a), render) + Rendered(Tagged(index, b), render)
  {
    assert Tagged(index, a + b) == Tagged(index, a) + Tagged(index, b);
    RenderedAppend(Tagged(index, a), Tagged(index, b), render);
  }

  lemma AppendAssociative<X>(a: seq<X>, b: seq<X>, c: seq<X>)
    ensures a + (b + c) == (a + b) + c
  {
  }

  /** Rendering distributes over appending. */
  lemma RenderedAppend<C>(a: seq<ItemError<C>>, b: seq<ItemError<C>>, render: ItemError<C> -> string)
    ensures Rendered(a + b, render) == Rendered(a, render) + Rendered(b, render)
  {
  }

  /** Validating one more item of the batch appends exactly that item's messages. */
  lemma RenderedErrorsStep<T, C>(items: seq<T>, i: nat, failed: T -> seq<C>, render: ItemError<C> -> string)
    requires i < |items|
    ensures Rendered(Errors(items[..i + 1], failed), render)
         == Rendered(Errors(items[..i], failed), render) + Rendered(Tagged(i + 1, failed(items[i])), render)
  {
    assert items[..i + 1] == items[..i] + [items[i]];
    ErrorsSnoc(items[..i], items[i], failed);
    RenderedAppend(Errors(items[..i], failed), Tagged(i + 1, failed(items[i])), render);
  }
}

=== FILE: consumable_form.dfy ===
/**
 * The consumables screen: the editable list of consumables of the selected user or organization,
 * the categories offered for each type, the payload its submit posts and the low-stock marker of
 * the stored consumables.
 */
module ConsumableForm {
  import opened Wrappers
  import ConsumablesRoute

  /** One editable consumable. Numeric inputs are read as numbers; an empty or unreadable input is `None`. */
  datatype ConsumableEntry = ConsumableEntry(
    name: string,
    consumableType: string,
    category: string,
    brand: string,
    specifications: Option<ConsumablesRoute.JsonObject>,
    defaultQuantity: Option<real>,
    defaultUnitType: string,
    costPerUnit: Option<real>,
    supplier: string,
    currentStock: Option<real>,
    minimumStock: Option<real>,
    reorderPoint: Option<real>,
    isActive: bool,
    isDefault: bool,
    requiresPrescription: bool,
    withdrawalPeriodDays: Option<real>,
    barcode: string,
    sku: string,
    storageRequirements: string,
    expiryDate: string,
    userId: string,
    organizationId: string)

  /** `defaultConsumable`. */
  const DefaultConsumable := ConsumableEntry(
    name := "",
    consumableType := "feed",
    category := "",
    brand := "",
    specifications := Some(map[]),
    defaultQuantity := Some(1.0),
    defaultUnitType := "unit",
    costPerUnit := Some(0.0),
    supplier := "",
    currentStock := Some(0.0),
    minimumStock := Some(10.0),
    reorderPoint := Some(20.0),
    isActive := true,
    isDefault := false,
    requiresPrescription := false,
    withdrawalPeriodDays := Some(0.0),
    barcode := "",
    sku := "",
    storageRequirements := "",
    expiryDate := "",
    userId := "",
    organizationId := "")

  const FeedCategories := ["Hay", "Grain", "Pellets", "Treats", "Pasture", "Silage", "Chaff", "Other Feed"]
  const MedicineCategories := ["Antibiotics", "Anti-inflammatory", "Dewormer", "Vaccines", "Pain Relief",
                               "Joint Supplements", "Topical Treatment", "Respiratory", "Digestive", "Other Medicine"]
  const SupplementCategories := ["Vitamins", "Minerals", "Probiotics", "Joint Support", "Coat & Hoof",
                                 "Calming", "Energy", "Weight Gain", "Electrolytes", "Other Supplement"]
  const EquipmentCategories := ["Grooming", "Tack", "Blankets", "Boots & Wraps", "Safety Equipment",
                                "Training Equipment", "Stable Equipment", "Medical Equipment", "Other Equipment"]
  const SupplyCategories := ["Bedding", "Cleaning Supplies", "Tools", "Safety Items", "Office Supplies", "Other Supply"]

  /** The consumable types with a category list. */
  const ConsumableTypes := {"feed", "medicine", "supplement", "equipment", "supply"}

  /** `getCategoriesForType`: the list for each of the five types, and none for any other value. */
  function CategoriesForType(t: string): (r: seq<string>)
    ensures t !in ConsumableTypes <==> r == []
    ensures t == "feed" ==> r == FeedCategories
    ensures t == "medicine" ==> r == MedicineCategories
    ensures t == "supplement" ==> r == SupplementCategories
    ensures t == "equipment" ==> r == EquipmentCategories
    ensures t == "supply" ==> r == SupplyCategories
  {
    if t == "feed" then FeedCategories
    else if t == "medicine" then MedicineCategories
    else if t == "supplement" then SupplementCategories
    else if t == "equipment" then EquipmentCategories
    else if t == "supply" then SupplyCategories
    else []
  }

  /** Every type's list ends with its catch-all "Other ..." entry. */
  lemma CategoriesEndWithOther(t: string)
    requires t in ConsumableTypes
    ensures |CategoriesForType(t)| > 0
    ensures var r := CategoriesForType(t); r[|r| - 1][..6] == "Other "
  {
  }

  /** The form's list of consumables, for the user and organization the screen was opened with. */
  class ConsumableList {
    var rows: seq<ConsumableEntry>
    const selectedUserId: Option<string>
    const selectedOrganizationId: Option<string>

    /** The form starts with one default consumable for the selection. */
    constructor (selectedUserId: Option<string>, selectedOrganizationId: Option<string>)
      ensures this.selectedUserId == selectedUserId && this.selectedOrganizationId == selectedOrganizationId
      ensures rows == [DefaultConsumable.(userId := OrElse(selectedUserId, ""), organizationId := OrElse(selectedOrganizationId, ""))]
      ensures |rows| >= 1
    {
      this.selectedUserId := selectedUserId;
      this.selectedOrganizationId := selectedOrganizationId;
      rows := [DefaultConsumable.(userId := OrElse(selectedUserId, ""), organizationId := OrElse(selectedOrganizationId, ""))];
    }

    /** `addNewConsumable(type)`: one default consumable of the given type, `feed` when none is given. */
    method AddNewConsumable(consumableType: Option<string>)
      modifies this
      ensures |rows| == |old(rows)| + 1 && rows[..|old(rows)|] == old(rows)
      ensures rows[|old(rows)|] == DefaultConsumable.(consumableType := OrElse(consumableType, "feed"),
                                                       userId := OrElse(selectedUserId, ""),
                                                       organizationId := OrElse(selectedOrganizationId, ""))
      ensures |rows| >= 1
    {
      rows := rows + [DefaultConsumable.(consumableType := OrElse(consumableType, "feed"),
                                         userId := OrElse(selectedUserId, ""),
                                         organizationId := OrElse(selectedOrganizationId, ""))];
    }

    /**
     * `remove(index)`: the consumable at `index` leaves the list; the others keep their order. The
     * remove button is shown only while there is more than one consumable, so the list never empties.
     */
    method RemoveConsumable(index: nat)
      requires |rows| > 1 && index < |rows|
      modifies this
      ensures rows == old(rows[..index]) + old(rows[index + 1..])
      ensures |rows| >= 1
    {
      rows := rows[..index] + rows[index + 1..];
    }
  }

  /**
   * One consumable as posted: the ids are the selection or '', the numeric fields `Number(x) || k`
   * with k = 0 for cost and withdrawal period, 1 for quantity, 0 for current stock, 10 for minimum
   * stock and 20 for the reorder point, and missing specifications `{}`.
   */
  function Coerce(selectedUserId: Option<string>, selectedOrganizationId: Option<string>, c: ConsumableEntry): (t: ConsumablesRoute.ConsumableInput)
    ensures t.userId == Some(OrElse(selectedUserId, "")) && t.organizationId == Some(OrElse(selectedOrganizationId, ""))
    ensures t.costPerUnit == Some(NumberOr(c.costPerUnit, 0.0))
    ensures t.defaultQuantity == Some(NumberOr(c.defaultQuantity, 1.0))
    ensures t.currentStock == Some(NumberOr(c.currentStock, 0.0))
    ensures t.minimumStock == Some(NumberOr(c.minimumStock, 10.0))
    ensures t.reorderPoint == Some(NumberOr(c.reorderPoint, 20.0))
    ensures t.withdrawalPeriodDays == Some(NumberOr(c.withdrawalPeriodDays, 0.0))
    ensures t.specifications == Some(c.specifications.GetOr(map[]))
    ensures t.name == Some(c.name) && t.consumableType == Some(c.consumableType) && t.category == Some(c.category)
    ensures t.defaultUnitType == Some(c.defaultUnitType)
  {
    ConsumablesRoute.ConsumableInput(
      userId := Some(OrElse(selectedUserId, "")),
      organizationId := Some(OrElse(selectedOrganizationId, "")),
      name := Some(c.name),
      consumableType := Some(c.consumableType),
      category := Some(c.category),
      brand := Some(c.brand),
      specifications := Some(c.specifications.GetOr(map[])),
      defaultQuantity := Some(NumberOr(c.defaultQuantity, 1.0)),
      defaultUnitType := Some(c.defaultUnitType),
      costPerUnit := Some(NumberOr(c.costPerUnit, 0.0)),
      supplier := Some(c.supplier),
      currentStock := Some(NumberOr(c.currentStock, 0.0)),
      minimumStock := Some(NumberOr(c.minimumStock, 10.0)),
      reorderPoint := Some(NumberOr(c.reorderPoint, 20.0)),
      isActive := Some(c.isActive),
      isDefault := Some(c.isDefault),
      requiresPrescription := Some(c.requiresPrescription),
      withdrawalPeriodDays := Some(NumberOr(c.withdrawalPeriodDays, 0.0)),
      barcode := Some(c.barcode),
      sku := Some(c.sku),
      storageRequirements := Some(c.storageRequirements),
      expiryDate := Some(c.expiryDate))
  }

  /** The submit: refused (None) with neither a user nor an organization selected, otherwise the posted request. */
  function SubmitRequest(selectedUserId: Option<string>, selectedOrganizationId: Option<string>, rows: seq<ConsumableEntry>)
    : (r: Option<ConsumablesRoute.ConsumableRequest>)
    ensures r.None? <==> !Truthy(selectedUserId) && !Truthy(selectedOrganizationId)
    ensures r.Some? ==> r.value.userId == selectedUserId && r.value.organizationId == selectedOrganizationId
    ensures r.Some? ==> r.value.consumables.Some? && |r.value.consumables.value| == |rows|
    ensures r.Some? ==> forall k :: 0 <= k < |rows| ==>
              r.value.consumables.value[k] == Coerce(selectedUserId, selectedOrganizationId, rows[k])
  {
    if !Truthy(selectedUserId) && !Truthy(selectedOrganizationId) then None
    else
      Some(ConsumablesRoute.ConsumableRequest(selectedUserId, selectedOrganizationId,
        Some(seq(|rows|, k requires 0 <= k < |rows| => Coerce(selectedUserId, selectedOrganizationId, rows[k])))))
  }

  /**
   * An entered 0 does not survive the coercion where the default is not 0: a quantity of 0 is
   * posted as 1, a minimum stock of 0 as 10 and a reorder point of 0 as 20; a current stock of 0
   * stays 0.
   */
  lemma ZeroReplacedByDefault(selectedUserId: Option<string>, selectedOrganizationId: Option<string>, c: ConsumableEntry)
    requires c.defaultQuantity == Some(0.0) && c.minimumStock == Some(0.0) && c.reorderPoint == Some(0.0)
    requires c.currentStock == Some(0.0)
    ensures var t := Coerce(selectedUserId, selectedOrganizationId, c);
            t.defaultQuantity == Some(1.0) && t.minimumStock == Some(10.0) && t.reorderPoint == Some(20.0)
            && t.currentStock == Some(0.0)
  {
  }

  /** After the coercion no numeric check of the route can fail for a number that is absent, unreadable or not negative. */
  lemma CoercedNumbersAccepted(selectedUserId: Option<string>, selectedOrganizationId: Option<string>, c: ConsumableEntry)
    requires c.defaultQuantity.None? || c.defaultQuantity.value >= 0.0
    requires c.currentStock.None? || c.currentStock.value >= 0.0
    requires c.minimumStock.None? || c.minimumStock.value >= 0.0
    requires c.reorderPoint.None? || c.reorderPoint.value >= 0.0
    ensures var t := Coerce(selectedUserId, selectedOrganizationId, c);
            && !ConsumablesRoute.Fails(t, ConsumablesRoute.QuantityInvalid)
            && !ConsumablesRoute.Fails(t, ConsumablesRoute.CurrentStockInvalid)
            && !ConsumablesRoute.Fails(t, ConsumablesRoute.MinimumStockInvalid)
            && !ConsumablesRoute.Fails(t, ConsumablesRoute.ReorderPointInvalid)
  {
  }

  /** JavaScript `<=` on a stored number, where a null compares as 0. */
  function StoredNumber(x: Option<real>): real {
    x.GetOr(0.0)
  }

  /** The low-stock marker of a stored consumable: shown when the current stock is at or below the minimum. */
  predicate LowStock(r: ConsumablesRoute.ConsumableRow) {
    StoredNumber(r.currentStock) <= StoredNumber(r.minimumStock)
  }

  /**
   * A default consumable, submitted and stored as the route normalises it, carries the low-stock
   * marker: it starts with no stock against a minimum of 10.
   */
  lemma DefaultConsumableStartsLow(selectedUserId: Option<string>, selectedOrganizationId: Option<string>, now: string)
    ensures var t := Coerce(selectedUserId, selectedOrganizationId, DefaultConsumable);
            var r := ConsumablesRoute.Normalise(Some(OrElse(selectedUserId, "")), Some(OrElse(selectedOrganizationId, "")), now, t);
            LowStock(r) && r.currentStock == Some(0.0) && r.minimumStock == Some(10.0)
  {
  }
}

=== FILE: consumables_route.dfy ===
/**
 * POST /api/business-setup/consumables: validates a batch of consumables (feed, medicine,
 * supplements, equipment, supplies) for a user or an organization and inserts them normalised.
 */
module ConsumablesRoute {
  import opened Wrappers
  import opened Text
  import Batch

  /** A free-form JSON object (the `specifications` and similar fields), flattened to strings. */
  type JsonObject = map<string, string>

  /** One posted consumable, as loosely typed JSON: any field may be absent. */
  datatype ConsumableInput = ConsumableInput(
    userId: Option<string>,
    organizationId: Option<string>,
    name: Option<string>,
    consumableType: Option<string>,
    category: Option<string>,
    brand: Option<string>,
    specifications: Option<JsonObject>,
    defaultQuantity: Option<real>,
    defaultUnitType: Option<string>,
    costPerUnit: Option<real>,
    supplier: Option<string>,
    currentStock: Option<real>,
    minimumStock: Option<real>,
    reorderPoint: Option<real>,
    isActive: Option<bool>,
    isDefault: Option<bool>,
    requiresPrescription: Option<bool>,
    withdrawalPeriodDays: Option<real>,
    barcode: Option<string>,
    sku: Option<string>,
    storageRequirements: Option<string>,
    expiryDate: Option<string>)

  datatype ConsumableRequest = ConsumableRequest(
    userId: Option<string>,
    organizationId: Option<string>,
    consumables: Option<seq<ConsumableInput>>)

  /** The row written to the consumables table; `None` in an id is a JSON null. */
  datatype ConsumableRow = ConsumableRow(
    userId: Option<string>,
    organizationId: Option<string>,
    createdAt: string,
    updatedAt: string,
    name: Option<string>,
    consumableType: Option<string>,
    category: Option<string>,
    brand: Option<string>,
    supplier: Option<string>,
    defaultUnitType: Option<string>,
    barcode: Option<string>,
    sku: Option<string>,
    storageRequirements: Option<string>,
    expiryDate: Option<string>,
    defaultQuantity: Option<real>,
    costPerUnit: real,
    currentStock: Option<real>,
    minimumStock: Option<real>,
    reorderPoint: Option<real>,
    withdrawalPeriodDays: real,
    isActive: bool,
    isDefault: bool,
    requiresPrescription: bool,
    specifications: JsonObject)

  /** The per-item checks, in the order the route runs them. */
  datatype ConsumableCheck =
    | NameMissing | TypeMissing | CategoryMissing | QuantityInvalid
    | UnitTypeMissing | CurrentStockInvalid | MinimumStockInvalid | ReorderPointInvalid

  function Rank(c: ConsumableCheck): nat {
    match c
    case NameMissing => 0
    case TypeMissing => 1
    case CategoryMissing => 2
    case QuantityInvalid => 3
    case UnitTypeMissing => 4
    case CurrentStockInvalid => 5
    case MinimumStockInvalid => 6
    case ReorderPointInvalid => 7
  }

  function Message(c: ConsumableCheck): string {
    match c
    case NameMissing => "Name is required"
    case TypeMissing => "Type is required"
    case CategoryMissing => "Category is required"
    case QuantityInvalid => "Default quantity must be greater than 0"
    case UnitTypeMissing => "Unit type is required"
    case CurrentStockInvalid => "Current stock must be non-negative"
    case MinimumStockInvalid => "Minimum stock must be non-negative"
    case ReorderPointInvalid => "Reorder point must be non-negative"
  }

  /** The message pushed for one failed check: the item's 1-based position, then the check. */
  function Render(e: Batch.ItemError<ConsumableCheck>): string {
    "Consumable " + NatToString(e.index) + ": " + Message(e.check)
  }

  /** The condition under which check `c` fails for `t`. */
  predicate Fails(t: ConsumableInput, c: ConsumableCheck) {
    match c
    case NameMissing => !Truthy(t.name)
    case TypeMissing => !Truthy(t.consumableType)
    case CategoryMissing => !Truthy(t.category)
    case QuantityInvalid => t.defaultQuantity.None? || t.defaultQuantity.value <= 0.0
    case UnitTypeMissing => !Truthy(t.defaultUnitType)
    case CurrentStockInvalid => t.currentStock.None? || t.currentStock.value < 0.0
    case MinimumStockInvalid => t.minimumStock.None? || t.minimumStock.value < 0.0
    case ReorderPointInvalid => t.reorderPoint.None? || t.reorderPoint.value < 0.0
  }

  /** The failed checks of one item, in check order. */
  function FailedChecks(t: ConsumableInput): seq<ConsumableCheck> {
    Batch.Flag(Fails(t, NameMissing), NameMissing)
    + Batch.Flag(Fails(t, TypeMissing), TypeMissing)
    + Batch.Flag(Fails(t, CategoryMissing), CategoryMissing)
    + Batch.Flag(Fails(t, QuantityInvalid), QuantityInvalid)
    + Batch.Flag(Fails(t, UnitTypeMissing), UnitTypeMissing)
    + Batch.Flag(Fails(t, CurrentStockInvalid), CurrentStockInvalid)
    + Batch.Flag(Fails(t, MinimumStockInvalid), MinimumStockInvalid)
    + Batch.Flag(Fails(t, ReorderPointInvalid), ReorderPointInvalid)
  }

  /** A check is listed for an item exactly when it fails. */
  lemma FailedChecksIff(t: ConsumableInput, c: ConsumableCheck)
    ensures c in FailedChecks(t) <==> Fails(t, c)
  {
    var f := FailedChecks(t);
    match c
    case NameMissing => assert c in f <==> c in Batch.Flag(Fails(t, c), c);
    case TypeMissing => assert c in f <==> c in Batch.Flag(Fails(t, c), c);
    case CategoryMissing => assert c in f <==> c in Batch.Flag(Fails(t, c), c);
    case QuantityInvalid => assert c in f <==> c in Batch.Flag(Fails(t, c), c);
    case UnitTypeMissing => assert c in f <==> c in Batch.Flag(Fails(t, c), c);
    case CurrentStockInvalid => assert c in f <==> c in Batch.Flag(Fails(t, c), c);
    case MinimumStockInvalid => assert c in f <==> c in Batch.Flag(Fails(t, c), c);
    case ReorderPointInvalid => assert c in f <==> c in Batch.Flag(Fails(t, c), c);
  }

  /** Checks TypeMissing, CategoryMissing, QuantityInvalid, UnitTypeMissing keep a ranked prefix ranked. */
  lemma RankedThroughUnitTypeMissing(found: seq<ConsumableCheck>, bound: nat, t: ConsumableInput)
    requires Batch.RankedBelow(found, Rank, bound) && bound <= Rank(TypeMissing)
    ensures Batch.RankedBelow(found
      + Batch.Flag(Fails(t, TypeMissing), TypeMissing)
      + Batch.Flag(Fails(t, CategoryMissing), CategoryMissing)
      + Batch.Flag(Fails(t, QuantityInvalid), QuantityInvalid)
      + Batch.Flag(Fails(t, UnitTypeMissing), UnitTypeMissing), Rank, Rank(UnitTypeMissing) + 1)
  {
    var g0 := found;
    Batch.FlagRanked(g0, bound, Fails(t, TypeMissing), TypeMissing, Rank);
    var g1 := g0 + Batch.Flag(Fails(t, TypeMissing), TypeMissing);
    Batch.FlagRanked(g1, Rank(TypeMissing) + 1, Fails(t, CategoryMissing), CategoryMissing, Rank);
    var g2 := g1 + Batch.Flag(Fails(t, CategoryMissing), CategoryMissing);
    Batch.FlagRanked(g2, Rank(CategoryMissing) + 1, Fails(t, QuantityInvalid), QuantityInvalid, Rank);
    var g3 := g2 + Batch.Flag(Fails(t, QuantityInvalid), QuantityInvalid);
    Batch.FlagRanked(g3, Rank(QuantityInvalid) + 1, Fails(t, UnitTypeMissing), UnitTypeMissing, Rank);
  }

  /** Checks CurrentStockInvalid, MinimumStockInvalid, ReorderPointInvalid keep a ranked prefix ranked. */
  lemma RankedThroughReorderPointInvalid(found: seq<ConsumableCheck>, bound: nat, t: ConsumableInput)
    requires Batch.RankedBelow(found, Rank, bound) && bound <= Rank(CurrentStockInvalid)
    ensures Batch.RankedBelow(found
      + Batch.Flag(Fails(t, CurrentStockInvalid), CurrentStockInvalid)
      + Batch.Flag(Fails(t, MinimumStockInvalid), MinimumStockInvalid)
      + Batch.Flag(Fails(t, ReorderPointInvalid), ReorderPointInvalid), Rank, Rank(ReorderPointInvalid) + 1)
  {
    var g0 := found;
    Batch.FlagRanked(g0, bound, Fails(t, CurrentStockInvalid), CurrentStockInvalid, Rank);
    var g1 := g0 + Batch.Flag(Fails(t, CurrentStockInvalid), CurrentStockInvalid);
    Batch.FlagRanked(g1, Rank(CurrentStockInvalid) + 1, Fails(t, MinimumStockInvalid), MinimumStockInvalid, Rank);
    var g2 := g1 + Batch.Flag(Fails(t, MinimumStockInvalid), MinimumStockInvalid);
    Batch.FlagRanked(g2, Rank(MinimumStockInvalid) + 1, Fails(t, ReorderPointInvalid), ReorderPointInvalid, Rank);
  }

  /** An item's failed checks come in the order the route runs them. */
  lemma FailedChecksRanked(t: ConsumableInput)
    ensures Batch.Ranked(FailedChecks(t), Rank)
  {
    Batch.FlagRankedFirst(Fails(t, NameMissing), NameMissing, Rank);
    var f0 := Batch.Flag(Fails(t, NameMissing), NameMissing);
    RankedThroughUnitTypeMissing(f0, Rank(NameMissing) + 1, t);
    var f1 := f0 + Batch.Flag(Fails(t, TypeMissing), TypeMissing) + Batch.Flag(Fails(t, CategoryMissing), CategoryMissing) + Batch.Flag(Fails(t, QuantityInvalid), QuantityInvalid) + Batch.Flag(Fails(t, UnitTypeMissing), UnitTypeMissing);
    RankedThroughReorderPointInvalid(f1, Rank(UnitTypeMissing) + 1, t);
    var f2 := f1 + Batch.Flag(Fails(t, CurrentStockInvalid), CurrentStockInvalid) + Batch.Flag(Fails(t, MinimumStockInvalid), MinimumStockInvalid) + Batch.Flag(Fails(t, ReorderPointInvalid), ReorderPointInvalid);
    Batch.RankedBelowRanked(f2, Rank, Rank(ReorderPointInvalid) + 1);
  }

  /** The error strings the route reports for a batch. */
  function ValidationErrors(items: seq<ConsumableInput>): seq<string> {
    Batch.Rendered(Batch.Errors(items, FailedChecks), Render)
  }

  /** Appending one item's report to the messages so far, check by check. */
  lemma ItemReport(acc: seq<string>, index: nat, t: ConsumableInput)
    ensures acc + Batch.Rendered(Batch.Tagged(index, FailedChecks(t)), Render)
         == acc
          + Batch.Flag(Fails(t, NameMissing), Render(Batch.ItemError(index, NameMissing)))
          + Batch.Flag(Fails(t, TypeMissing), Render(Batch.ItemError(index, TypeMissing)))
          + Batch.Flag(Fails(t, CategoryMissing), Render(Batch.ItemError(index, CategoryMissing)))
          + Batch.Flag(Fails(t, QuantityInvalid), Render(Batch.ItemError(index, QuantityInvalid)))
          + Batch.Flag(Fails(t, UnitTypeMissing), Render(Batch.ItemError(index, UnitTypeMissing)))
          + Batch.Flag(Fails(t, CurrentStockInvalid), Render(Batch.ItemError(index, CurrentStockInvalid)))
          + Batch.Flag(Fails(t, MinimumStockInvalid), Render(Batch.ItemError(index, MinimumStockInvalid)))
          + Batch.Flag(Fails(t, ReorderPointInvalid), Render(Batch.ItemError(index, ReorderPointInvalid)))
  {
    var f1 := Batch.Flag(Fails(t, NameMissing), NameMissing);
    var f2 := f1 + Batch.Flag(Fails(t, TypeMissing), TypeMissing);
    var f3 := f2 + Batch.Flag(Fails(t, CategoryMissing), CategoryMissing);
    var f4 := f3 + Batch.Flag(Fails(t, QuantityInvalid), QuantityInvalid);
    var f5 := f4 + Batch.Flag(Fails(t, UnitTypeMissing), UnitTypeMissing);
    var f6 := f5 + Batch.Flag(Fails(t, CurrentStockInvalid), CurrentStockInvalid);
    var f7 := f6 + Batch.Flag(Fails(t, MinimumStockInvalid), MinimumStockInvalid);
    Batch.TaggedFlag(index, Fails(t, NameMissing), NameMissing, Render);
    Batch.TaggedAppend(index, f1, Batch.Flag(Fails(t, TypeMissing), TypeMissing), Render);
    Batch.TaggedFlag(index, Fails(t, TypeMissing), TypeMissing, Render);
    Batch.TaggedAppend(index, f2, Batch.Flag(Fails(t, CategoryMissing), CategoryMissing), Render);
    Batch.TaggedFlag(index, Fails(t, CategoryMissing), CategoryMissing, Render);
    Batch.TaggedAppend(index, f3, Batch.Flag(Fails(t, QuantityInvalid), QuantityInvalid), Render);
    Batch.TaggedFlag(index, Fails(t, QuantityInvalid), QuantityInvalid, Render);
    Batch.TaggedAppend(index, f4, Batch.Flag(Fails(t, UnitTypeMissing), UnitTypeMissing), Render);
    Batch.TaggedFlag(index, Fails(t, UnitTypeMissing), UnitTypeMissing, Render);
    Batch.TaggedAppend(index, f5, Batch.Flag(Fails(t, CurrentStockInvalid), CurrentStockInvalid), Render);
    Batch.TaggedFlag(index, Fails(t, CurrentStockInvalid), CurrentStockInvalid, Render);
    Batch.TaggedAppend(index, f6, Batch.Flag(Fails(t, MinimumStockInvalid), MinimumStockInvalid), Render);
    Batch.TaggedFlag(index, Fails(t, MinimumStockInvalid), MinimumStockInvalid, Render);
    Batch.TaggedAppend(index, f7, Batch.Flag(Fails(t, ReorderPointInvalid), ReorderPointInvalid), Render);
    Batch.TaggedFlag(index, Fails(t, ReorderPointInvalid), ReorderPointInvalid, Render);
    var m1 := Batch.Flag(Fails(t, NameMissing), Render(Batch.ItemError(index, NameMissing)));
    var m2 := m1 + Batch.Flag(Fails(t, TypeMissing), Render(Batch.ItemError(index, TypeMissing)));
    var m3 := m2 + Batch.Flag(Fails(t, CategoryMissing), Render(Batch.ItemError(index, CategoryMissing)));
    var m4 := m3 + Batch.Flag(Fails(t, QuantityInvalid), Render(Batch.ItemError(index, QuantityInvalid)));
    var m5 := m4 + Batch.Flag(Fails(t, UnitTypeMissing), Render(Batch.ItemError(index, UnitTypeMissing)));
    var m6 := m5 + Batch.Flag(Fails(t, CurrentStockInvalid), Render(Batch.ItemError(index, CurrentStockInvalid)));
    var m7 := m6 + Batch.Flag(Fails(t, MinimumStockInvalid), Render(Batch.ItemError(index, MinimumStockInvalid)));
    Batch.AppendAssociative(acc, m7, Batch.Flag(Fails(t, ReorderPointInvalid), Render(Batch.ItemError(index, ReorderPointInvalid))));
    Batch.AppendAssociative(acc, m6, Batch.Flag(Fails(t, MinimumStockInvalid), Render(Batch.ItemError(index, MinimumStockInvalid))));
    Batch.AppendAssociative(acc, m5, Batch.Flag(Fails(t, CurrentStockInvalid), Render(Batch.ItemError(index, CurrentStockInvalid))));
    Batch.AppendAssociative(acc, m4, Batch.Flag(Fails(t, UnitTypeMissing), Render(Batch.ItemError(index, UnitTypeMissing))));
    Batch.AppendAssociative(acc, m3, Batch.Flag(Fails(t, QuantityInvalid), Render(Batch.ItemError(index, QuantityInvalid))));
    Batch.AppendAssociative(acc, m2, Batch.Flag(Fails(t, CategoryMissing), Render(Batch.ItemError(index, CategoryMissing))));
    Batch.AppendAssociative(acc, m1, Batch.Flag(Fails(t, TypeMissing), Render(Batch.ItemError(index, TypeMissing))));
  }

  /** The `forEach` validation pass: the messages of item 1, then of item 2, and so on. */
  method CollectErrors(items: seq<ConsumableInput>) returns (errors: seq<string>)
    ensures errors == ValidationErrors(items)
  {
    errors := [];
    var i := 0;
    while i < |items|
      invariant 0 <= i <= |items|
      invariant errors == ValidationErrors(items[..i])
    {
      var t := items[i];
      var index := i + 1;
      ghost var before := errors;
      errors := Batch.Push(errors, Fails(t, NameMissing), Render(Batch.ItemError(index, NameMissing)));
      errors := Batch.Push(errors, Fails(t, TypeMissing), Render(Batch.ItemError(index, TypeMissing)));
      errors := Batch.Push(errors, Fails(t, CategoryMissing), Render(Batch.ItemError(index, CategoryMissing)));
      errors := Batch.Push(errors, Fails(t, QuantityInvalid), Render(Batch.ItemError(index, QuantityInvalid)));
      errors := Batch.Push(errors, Fails(t, UnitTypeMissing), Render(Batch.ItemError(index, UnitTypeMissing)));
      errors := Batch.Push(errors, Fails(t, CurrentStockInvalid), Render(Batch.ItemError(index, CurrentStockInvalid)));
      errors := Batch.Push(errors, Fails(t, MinimumStockInvalid), Render(Batch.ItemError(index, MinimumStockInvalid)));
      errors := Batch.Push(errors, Fails(t, ReorderPointInvalid), Render(Batch.ItemError(index, ReorderPointInvalid)));
      ItemReport(before, index, t);
      Batch.RenderedErrorsStep(items, i, FailedChecks, Render);
      i := i + 1;
    }
    assert items[..i] == items;
  }

  /** The error list is empty exactly when every item passes every check. */
  lemma ValidationErrorsEmptyIff(items: seq<ConsumableInput>)
    ensures ValidationErrors(items) == [] <==>
            forall i, c :: 0 <= i < |items| ==> !Fails(items[i], c)
  {
    Batch.ErrorsEmptyIff(items, FailedChecks);
    assert |ValidationErrors(items)| == |Batch.Errors(items, FailedChecks)|;
    if !forall i, c :: 0 <= i < |items| ==> !Fails(items[i], c) {
      var i, c :| 0 <= i < |items| && Fails(items[i], c);
      FailedChecksIff(items[i], c);
    }
  }

  /** The report lists item 1's failures first, and each item's failures in check order. */
  lemma ValidationErrorsInOrder(items: seq<ConsumableInput>)
    ensures Batch.InReportOrder(Batch.Errors(items, FailedChecks), Rank)
  {
    forall i | 0 <= i < |items| ensures Batch.Ranked(FailedChecks(items[i]), Rank) {
      FailedChecksRanked(items[i]);
    }
    Batch.ErrorsInReportOrder(items, FailedChecks, Rank);
  }

  /** A failure is reported exactly when the item at that 1-based position fails that check. */
  lemma ReportedIffFails(items: seq<ConsumableInput>, e: Batch.ItemError<ConsumableCheck>)
    ensures e in Batch.Errors(items, FailedChecks) <==> 1 <= e.index <= |items| && Fails(items[e.index - 1], e.check)
  {
    Batch.ErrorsIndexed(items, FailedChecks, e);
    if 1 <= e.index <= |items| {
      FailedChecksIff(items[e.index - 1], e.check);
    }
  }

  /** Every message names a position between 1 and the number of items and a check that failed there. */
  lemma MessageTagged(items: seq<ConsumableInput>, p: nat)
    requires p < |ValidationErrors(items)|
    ensures var e := Batch.Errors(items, FailedChecks)[p];
            && 1 <= e.index <= |items|
            && Fails(items[e.index - 1], e.check)
            && ValidationErrors(items)[p] == "Consumable " + NatToString(e.index) + ": " + Message(e.check)
  {
    var errors := Batch.Errors(items, FailedChecks);
    var e := errors[p];
    assert e in errors;
    ReportedIffFails(items, e);
    assert ValidationErrors(items)[p] == Render(e);
  }

  /** The `map` that prepares one validated item for insertion. */
  function Normalise(userId: Option<string>, organizationId: Option<string>, now: string, t: ConsumableInput): ConsumableRow {
    ConsumableRow(
      userId := OrNull(userId),
      organizationId := OrNull(organizationId),
      createdAt := now,
      updatedAt := now,
      name := t.name,
      consumableType := t.consumableType,
      category := t.category,
      brand := t.brand,
      supplier := t.supplier,
      defaultUnitType := t.defaultUnitType,
      barcode := t.barcode,
      sku := t.sku,
      storageRequirements := t.storageRequirements,
      expiryDate := t.expiryDate,
      defaultQuantity := t.defaultQuantity,
      costPerUnit := NumberOr(t.costPerUnit, 0.0),
      currentStock := t.currentStock,
      minimumStock := t.minimumStock,
      reorderPoint := t.reorderPoint,
      withdrawalPeriodDays := NumberOr(t.withdrawalPeriodDays, 0.0),
      isActive := ToBool(t.isActive),
      isDefault := ToBool(t.isDefault),
      requiresPrescription := ToBool(t.requiresPrescription),
      specifications := t.specifications.GetOr(map[]))
  }

  function NormaliseAll(userId: Option<string>, organizationId: Option<string>, now: string, items: seq<ConsumableInput>): seq<ConsumableRow> {
    seq(|items|, i requires 0 <= i < |items| => Normalise(userId, organizationId, now, items[i]))
  }

  /** A falsy id becomes null; cost and withdrawal period default to 0; specifications default to
      the empty object; the flags are true only when given as true; the other numbers are kept. */
  lemma NormaliseFields(userId: Option<string>, organizationId: Option<string>, now: string, t: ConsumableInput)
    ensures var r := Normalise(userId, organizationId, now, t);
            && (r.userId.None? <==> !Truthy(userId)) && (r.userId.Some? ==> r.userId == userId)
            && (r.organizationId.None? <==> !Truthy(organizationId)) && (r.organizationId.Some? ==> r.organizationId == organizationId)
            && r.defaultQuantity == t.defaultQuantity
            && r.currentStock == t.currentStock && r.minimumStock == t.minimumStock && r.reorderPoint == t.reorderPoint
            && (r.costPerUnit == 0.0 <==> t.costPerUnit.None? || t.costPerUnit.value == 0.0)
            && (r.costPerUnit != 0.0 ==> t.costPerUnit == Some(r.costPerUnit))
            && (r.withdrawalPeriodDays == 0.0 <==> t.withdrawalPeriodDays.None? || t.withdrawalPeriodDays.value == 0.0)
            && (r.withdrawalPeriodDays != 0.0 ==> t.withdrawalPeriodDays == Some(r.withdrawalPeriodDays))
            && (t.specifications.None? ==> r.specifications == map[])
            && (t.specifications.Some? ==> r.specifications == t.specifications.value)
            && (r.isActive <==> t.isActive == Some(true))
            && (r.isDefault <==> t.isDefault == Some(true))
            && (r.requiresPrescription <==> t.requiresPrescription == Some(true))
  {
  }

  /** What the database may rely on for a stored consumable. */
  predicate RowWellFormed(r: ConsumableRow) {
    && (r.userId.Some? || r.organizationId.Some?)
    && Truthy(r.name) && Truthy(r.consumableType) && Truthy(r.category) && Truthy(r.defaultUnitType)
    && r.defaultQuantity.Some? && r.defaultQuantity.value > 0.0
    && r.currentStock.Some? && r.currentStock.value >= 0.0
    && r.minimumStock.Some? && r.minimumStock.value >= 0.0
    && r.reorderPoint.Some? && r.reorderPoint.value >= 0.0
  }

  /** A batch that passes validation, posted with some id, normalises row for row into well-formed rows. */
  lemma ValidatedRowsWellFormed(userId: Option<string>, organizationId: Option<string>, now: string, items: seq<ConsumableInput>)
    requires Truthy(userId) || Truthy(organizationId)
    requires ValidationErrors(items) == []
    ensures |NormaliseAll(userId, organizationId, now, items)| == |items|
    ensures forall i :: 0 <= i < |items| ==> RowWellFormed(NormaliseAll(userId, organizationId, now, items)[i])
  {
    ValidationErrorsEmptyIff(items);
    forall i | 0 <= i < |items|
      ensures RowWellFormed(NormaliseAll(userId, organizationId, now, items)[i])
    {
      var t := items[i];
      assert !Fails(t, NameMissing) && !Fails(t, TypeMissing) && !Fails(t, CategoryMissing);
      assert !Fails(t, QuantityInvalid) && !Fails(t, UnitTypeMissing);
      assert !Fails(t, CurrentStockInvalid) && !Fails(t, MinimumStockInvalid) && !Fails(t, ReorderPointInvalid);
    }
  }

  const MissingOwner := Batch.SetupResponse(400, false, "User ID or Organization ID is required", ["user_id or organization_id must be provided"], 0)
  const EmptyList := Batch.SetupResponse(400, false, "At least one consumable is required", ["consumables array cannot be empty"], 0)

  /**
   * The whole handler. `insertError` is the database's answer to the insert (None: accepted);
   * `stored` is what ends up in the consumables table.
   */
  method Post(request: ConsumableRequest, now: string, insertError: Option<string>)
    returns (response: Batch.SetupResponse, stored: seq<ConsumableRow>)
    ensures response.success <==> response.status == 200
    ensures response.status != 200 ==> stored == [] && response.created == 0
    ensures response.status == 200 ==> forall i :: 0 <= i < |stored| ==> RowWellFormed(stored[i])
    ensures !Truthy(request.userId) && !Truthy(request.organizationId) ==> response == MissingOwner
    ensures (Truthy(request.userId) || Truthy(request.organizationId))
            && (request.consumables.None? || request.consumables == Some([]))
            ==> response == EmptyList
    ensures (Truthy(request.userId) || Truthy(request.organizationId))
            && request.consumables.Some? && request.consumables.value != [] ==>
            var items := request.consumables.value;
            && (response.status == 400 <==> ValidationErrors(items) != [])
            && (ValidationErrors(items) != [] ==>
                  response == Batch.SetupResponse(400, false, "Validation errors found", ValidationErrors(items), 0))
            && (ValidationErrors(items) == [] && insertError.Some? ==>
                  response == Batch.SetupResponse(500, false, "Failed to insert consumables into database", [insertError.value], 0))
            && (ValidationErrors(items) == [] && insertError.None? ==>
                  |stored| == |items| &&
                  (forall i :: 0 <= i < |items| ==> stored[i] == Normalise(request.userId, request.organizationId, now, items[i])) &&
                  response == Batch.SetupResponse(200, true, "Successfully added " + NatToString(|stored|) + " consumables", [], |stored|))
  {
    stored := [];
    if !Truthy(request.userId) && !Truthy(request.organizationId) {
      response := MissingOwner;
      return;
    }
    if request.consumables.None? || request.consumables.value == [] {
      response := EmptyList;
      return;
    }
    var items := request.consumables.value;
    var errors := CollectErrors(items);
    if errors != [] {
      response := Batch.SetupResponse(400, false, "Validation errors found", errors, 0);
      return;
    }
    ValidatedRowsWellFormed(request.userId, request.organizationId, now, items);
    var rows := NormaliseAll(request.userId, request.organizationId, now, items);
    if insertError.Some? {
      response := Batch.SetupResponse(500, false, "Failed to insert consumables into database", [insertError.value], 0);
      return;
    }
    stored := rows;
    response := Batch.SetupResponse(200, true, "Successfully added " + NatToString(|stored|) + " consumables", [], |stored|);
  }
}

=== FILE: dashboard_route.dfy ===
/** GET /api/dashboard: the active organizations and the users, with counts per organization type. */
module DashboardRoute {
  import opened Wrappers
  import opened Backend
  import opened Lists

  /** An organization row with its `organization_members(count)` aggregate, absent when the join brought none. */
  datatype OrganizationEntry = OrganizationEntry(
    id: string,
    name: string,
    orgType: string,
    description: Option<string>,
    createdAt: string,
    isActive: bool,
    memberCounts: Option<seq<nat>>)

  /** An organization as the dashboard reports it. */
  datatype DashboardOrganization = DashboardOrganization(entry: OrganizationEntry, memberCount: nat)

  datatype UserEntry = UserEntry(id: string, email: string, createdAt: string)

  datatype Stats = Stats(
    totalOrganizations: nat,
    trainerOrganizations: nat,
    stableOrganizations: nat,
    enterpriseOrganizations: nat,
    totalUsers: nat,
    organizations: seq<DashboardOrganization>,
    users: seq<UserEntry>)

  datatype DashboardResponse = Ok(stats: Stats) | Failed(status: nat, error: string)

  /** The organization rows the select returns: `.eq('is_active', true)`, in table order. */
  function ActiveOrganizations(table: seq<OrganizationEntry>): seq<OrganizationEntry> {
    Filter(table, (o: OrganizationEntry) => o.isActive)
  }

  /** `organizations.filter(org => org.type === t).length`. */
  function CountOfType(orgs: seq<OrganizationEntry>, t: string): nat {
    |Filter(orgs, (o: OrganizationEntry) => o.orgType == t)|
  }

  /** `org.organization_members?.[0]?.count || 0`. */
  function MemberCount(o: OrganizationEntry): (n: nat)
    ensures o.memberCounts.Some? && |o.memberCounts.value| > 0 ==> n == o.memberCounts.value[0]
    ensures o.memberCounts.None? || o.memberCounts.value == [] ==> n == 0
  {
    match o.memberCounts
    case Some(counts) => if |counts| > 0 then counts[0] else 0
    case None => 0
  }

  /** The statistics over the fetched organizations and users. */
  function ComputeStats(orgs: seq<OrganizationEntry>, users: seq<UserEntry>): (s: Stats)
    ensures s.totalOrganizations == |orgs| && s.totalUsers == |users| && s.users == users
    ensures s.trainerOrganizations == CountOfType(orgs, "trainer")
    ensures s.stableOrganizations == CountOfType(orgs, "stable")
    ensures s.enterpriseOrganizations == CountOfType(orgs, "enterprise")
    ensures |s.organizations| == |orgs|
    ensures forall k :: 0 <= k < |orgs| ==> s.organizations[k] == DashboardOrganization(orgs[k], MemberCount(orgs[k]))
  {
    Stats(
      totalOrganizations := |orgs|,
      trainerOrganizations := CountOfType(orgs, "trainer"),
      stableOrganizations := CountOfType(orgs, "stable"),
      enterpriseOrganizations := CountOfType(orgs, "enterprise"),
      totalUsers := |users|,
      organizations := seq(|orgs|, k requires 0 <= k < |orgs| => DashboardOrganization(orgs[k], MemberCount(orgs[k]))),
      users := users)
  }

  /** The handler; the two errors are the answers of the two selects (None: rows returned). */
  function Get(organizations: seq<OrganizationEntry>, orgError: Option<QueryError>,
               users: seq<UserEntry>, usersError: Option<QueryError>): (r: DashboardResponse)
    ensures orgError.Some? ==> r == Failed(500, ErrorMessage(orgError.value, "Failed to fetch dashboard data"))
    ensures orgError.None? && usersError.Some? ==> r == Failed(500, ErrorMessage(usersError.value, "Failed to fetch dashboard data"))
    ensures orgError.None? && usersError.None? ==> r == Ok(ComputeStats(ActiveOrganizations(organizations), users))
  {
    if orgError.Some? then Failed(500, ErrorMessage(orgError.value, "Failed to fetch dashboard data"))
    else if usersError.Some? then Failed(500, ErrorMessage(usersError.value, "Failed to fetch dashboard data"))
    else Ok(ComputeStats(ActiveOrganizations(organizations), users))
  }

  /**
   * The three type counts never exceed the total: no organization has two types, and organizations
   * of type `organization` (or any other) are counted by none of them.
   */
  lemma TypeCountsWithinTotal(orgs: seq<OrganizationEntry>, users: seq<UserEntry>)
    ensures var s := ComputeStats(orgs, users);
            s.trainerOrganizations + s.stableOrganizations + s.enterpriseOrganizations <= s.totalOrganizations
  {
    DisjointFiltersWithin(orgs, (o: OrganizationEntry) => o.orgType == "trainer",
                          (o: OrganizationEntry) => o.orgType == "stable", (o: OrganizationEntry) => o.orgType == "enterprise");
  }

  /** Each type count counts exactly the active organizations of that type, each as often as it is stored. */
  lemma CountOfTypeExact(table: seq<OrganizationEntry>, t: string, o: OrganizationEntry)
    ensures var chosen := Filter(ActiveOrganizations(table), (x: OrganizationEntry) => x.orgType == t);
            && |chosen| == CountOfType(ActiveOrganizations(table), t)
            && (o in chosen <==> o in table && o.isActive && o.orgType == t)
            && (o.isActive && o.orgType == t ==> multiset(chosen)[o] == multiset(table)[o])
  {
    var active := ActiveOrganizations(table);
    FilterIff(table, (x: OrganizationEntry) => x.isActive, o);
    FilterIff(active, (x: OrganizationEntry) => x.orgType == t, o);
    FilterCounts(table, (x: OrganizationEntry) => x.isActive);
    FilterCounts(active, (x: OrganizationEntry) => x.orgType == t);
  }

  /** Only active organizations are listed, in the order of the table. */
  lemma OnlyActiveListed(organizations: seq<OrganizationEntry>, users: seq<UserEntry>)
    ensures Get(organizations, None, users, None).Ok?
    ensures var listed := Get(organizations, None, users, None).stats.organizations;
            forall k :: 0 <= k < |listed| ==> listed[k].entry.isActive
    ensures Subsequence(ActiveOrganizations(organizations), organizations)
  {
    FilterSubsequence(organizations, (x: OrganizationEntry) => x.isActive);
  }
}

=== FILE: existing_horses_route.dfy ===
/**
 * GET /api/business-setup/horses/existing: the active horses of an organization or, failing
 * that, of a user, with their count.
 */
module ExistingHorsesRoute {
  import opened Wrappers
  import opened Backend

  /** A stored horse: the columns the query filters on and the ones the horse screen searches. */
  datatype StoredHorse = StoredHorse(
    id: string,
    name: string,
    registeredName: Option<string>,
    nickname: Option<string>,
    breed: Option<string>,
    registrationNumber: Option<string>,
    userId: Option<string>,
    organizationId: Option<string>,
    isActive: bool,
    createdAt: string)

  /** Whose horses are asked for. */
  datatype Owner = Organization(organizationId: string) | User(userId: string)

  datatype ExistingResponse =
    | Listed(horses: seq<StoredHorse>, count: nat)
    | Failed(status: nat, error: string)

  /** The organization id wins when both are given; with neither there is no owner. */
  function OwnerOf(userId: Option<string>, organizationId: Option<string>): (o: Option<Owner>)
    ensures o.None? <==> !Truthy(userId) && !Truthy(organizationId)
    ensures Truthy(organizationId) ==> o == Some(Organization(organizationId.value))
    ensures !Truthy(organizationId) && Truthy(userId) ==> o == Some(User(userId.value))
  {
    if Truthy(organizationId) then Some(Organization(organizationId.value))
    else if Truthy(userId) then Some(User(userId.value))
    else None
  }

  /** The `eq` filters of the query: active, and owned by `owner`. */
  predicate Selected(h: StoredHorse, owner: Owner) {
    && h.isActive
    && match owner
       case Organization(o) => h.organizationId == Some(o)
       case User(u) => h.userId == Some(u)
  }

  /** The rows of `table` the query returns, in table order. */
  function Query(table: seq<StoredHorse>, owner: Owner): (r: seq<StoredHorse>)
    ensures |r| <= |table|
    ensures forall k :: 0 <= k < |r| ==> Selected(r[k], owner)
  {
    if table == [] then []
    else if Selected(table[0], owner) then [table[0]] + Query(table[1..], owner)
    else Query(table[1..], owner)
  }

  /** The query returns exactly the selected rows of the table. */
  lemma {:induction false} QueryIff(table: seq<StoredHorse>, owner: Owner, h: StoredHorse)
    ensures h in Query(table, owner) <==> h in table && Selected(h, owner)
  {
    if table != [] {
      QueryIff(table[1..], owner, h);
      assert table == [table[0]] + table[1..];
    }
  }

  /** Every selected row of the table is returned, as many times as it is stored. */
  lemma {:induction false} QueryCountsSelected(table: seq<StoredHorse>, owner: Owner)
    ensures forall h :: Selected(h, owner) ==> multiset(Query(table, owner))[h] == multiset(table)[h]
  {
    if table != [] {
      QueryCountsSelected(table[1..], owner);
      assert table == [table[0]] + table[1..];
    }
  }

  const MissingOwner := Failed(400, "Either user_id or organization_id is required")

  /** The handler; `queryError` is the database's answer to the select (None: rows returned). */
  function Get(userId: Option<string>, organizationId: Option<string>, table: seq<StoredHorse>, queryError: Option<QueryError>): (r: ExistingResponse)
    ensures OwnerOf(userId, organizationId).None? ==> r == MissingOwner
    ensures OwnerOf(userId, organizationId).Some? && queryError.Some? ==>
              r == Failed(500, ErrorMessage(queryError.value, "Failed to fetch horses"))
    ensures r.Listed? ==> queryError.None? && r.count == |r.horses|
    ensures r.Listed? ==> forall k :: 0 <= k < |r.horses| ==> r.horses[k].isActive
  {
    match OwnerOf(userId, organizationId)
    case None => MissingOwner
    case Some(owner) =>
      if queryError.Some? then
        Failed(500, ErrorMessage(queryError.value, "Failed to fetch horses"))
      else
        var horses := Query(table, owner);
        Listed(horses, |horses|)
  }

  /** With a usable id and no database error, the answer lists exactly the owner's active horses. */
  lemma GetListsOwned(userId: Option<string>, organizationId: Option<string>, table: seq<StoredHorse>, h: StoredHorse)
    requires Truthy(userId) || Truthy(organizationId)
    ensures Get(userId, organizationId, table, None).Listed?
    ensures h in Get(userId, organizationId, table, None).horses <==>
              h in table && h.isActive &&
              (if Truthy(organizationId) then h.organizationId == organizationId else h.userId == userId)
  {
    QueryIff(table, OwnerOf(userId, organizationId).value, h);
  }

  /** When an organization id is given, the user id makes no difference. */
  lemma OrganizationTakesPriority(userId: Option<string>, otherUserId: Option<string>, organizationId: Option<string>,
                                  table: seq<StoredHorse>, queryError: Option<QueryError>)
    requires Truthy(organizationId)
    ensures Get(userId, organizationId, table, queryError) == Get(otherUserId, organizationId, table, queryError)
  {
  }
}

=== FILE: forms.dfy ===
/** The field rules of the setup forms, as the form library applies them before a submit handler runs. */
module Forms {
  import opened Wrappers

  /** One failed field rule: the field and the message shown under it. */
  datatype FieldError = FieldError(field: string, message: string)

  /** `required: message`: an empty value is refused. */
  function Required(field: string, value: string, message: string): (r: seq<FieldError>)
    ensures r == [] <==> |value| > 0
  {
    if |value| == 0 then [FieldError(field, message)] else []
  }

  /** `required` and then one more rule: only the first broken rule of a field is reported. */
  function RequiredThen(field: string, value: string, requiredMessage: string, holds: bool, message: string): (r: seq<FieldError>)
    ensures r == [] <==> |value| > 0 && holds
    ensures |r| <= 1
  {
    if |value| == 0 then [FieldError(field, requiredMessage)]
    else if !holds then [FieldError(field, message)]
    else []
  }

  /** `valueAsNumber` with `min` and `max`: an empty input passes, a number outside [lo, hi] is refused. */
  function Range(field: string, value: Option<real>, lo: real, hi: real, minMessage: string, maxMessage: string): (r: seq<FieldError>)
    ensures r == [] <==> value.None? || lo <= value.value <= hi
    ensures |r| <= 1
  {
    if value.None? then []
    else if value.value > hi then [FieldError(field, maxMessage)]
    else if value.value < lo then [FieldError(field, minMessage)]
    else []
  }
}

=== FILE: horse_form.dfy ===
/**
 * The horses screen: the editable list of new horses of the selected user or organization, its
 * field rules, the payload its submit posts, and the search box over the stored horses.
 */
module HorseForm {
  import opened Wrappers
  import opened Text
  import opened Lists
  import opened Forms
  import HorsesRoute
  import ExistingHorsesRoute

  /** One editable horse. Numeric inputs are read as numbers; an empty or unreadable input is `None`. */
  datatype HorseEntry = HorseEntry(
    name: string,
    registeredName: string,
    nickname: string,
    breed: string,
    gender: string,
    birthDate: string,
    color: string,
    markings: string,
    registrationNumber: string,
    microchipNumber: string,
    passportNumber: string,
    heightHands: Option<real>,
    weightKg: Option<real>,
    status: string,
    location: string,
    ownerName: string,
    ownerContact: string,
    insuranceDetails: Option<HorsesRoute.JsonObject>,
    medicalNotes: string,
    dietaryRestrictions: Option<seq<string>>,
    photos: Option<seq<string>>,
    isActive: bool,
    userId: string,
    organizationId: string)

  /** `defaultHorse`: a mare, active, with no measurements and empty lists. */
  const DefaultHorse := HorseEntry(
    name := "",
    registeredName := "",
    nickname := "",
    breed := "",
    gender := "mare",
    birthDate := "",
    color := "",
    markings := "",
    registrationNumber := "",
    microchipNumber := "",
    passportNumber := "",
    heightHands := None,
    weightKg := None,
    status := "active",
    location := "",
    ownerName := "",
    ownerContact := "",
    insuranceDetails := Some(map[]),
    medicalNotes := "",
    dietaryRestrictions := Some([]),
    photos := Some([]),
    isActive := true,
    userId := "",
    organizationId := "")

  /** The field rules of one horse, in the order of the form's fields. */
  function HorseFieldErrors(h: HorseEntry): seq<FieldError> {
    Required("name", h.name, "Horse name is required")
    + Required("breed", h.breed, "Breed is required")
    + Required("gender", h.gender, "Gender is required")
    + Range("height_hands", h.heightHands, 8.0, 20.0, "Height must be at least 8 hands", "Height must be less than 20 hands")
    + Range("weight_kg", h.weightKg, 100.0, 1500.0, "Weight must be at least 100 kg", "Weight must be less than 1500 kg")
  }

  /** A horse passes the form rules exactly when it is named, has a breed and a gender, and its measurements, if given, lie in [8, 20] hands and [100, 1500] kg. */
  lemma HorseFieldErrorsEmptyIff(h: HorseEntry)
    ensures HorseFieldErrors(h) == [] <==>
              && |h.name| > 0 && |h.breed| > 0 && |h.gender| > 0
              && (h.heightHands.None? || 8.0 <= h.heightHands.value <= 20.0)
              && (h.weightKg.None? || 100.0 <= h.weightKg.value <= 1500.0)
  {
  }

  /**
   * The browser's step check of a number input: without a `min` attribute the step base is 0, so
   * the value must be a whole multiple of the step, given here as its reciprocal `perUnit`.
   */
  predicate OnStep(x: real, perUnit: real) {
    (x * perUnit).Floor as real == x * perUnit
  }

  /**
   * The browser's own check of the two number inputs, run before the submit event: the height has
   * `step="0.1"` and the weight has no `step`, so the default step of 1 applies.
   */
  predicate MeasurementsOnStep(h: HorseEntry) {
    && (h.heightHands.None? || OnStep(h.heightHands.value, 10.0))
    && (h.weightKg.None? || OnStep(h.weightKg.value, 1.0))
  }

  /** Whether a horse lets a click on the submit button reach `handleSubmit`. */
  predicate HorseSubmits(h: HorseEntry) {
    MeasurementsOnStep(h) && HorseFieldErrors(h) == []
  }

  /**
   * A horse lets the submit through exactly when it passes the form rules and its height is a whole
   * number of tenths of a hand and its weight a whole number of kilograms.
   */
  lemma HorseSubmitsIff(h: HorseEntry)
    ensures HorseSubmits(h) <==>
              && |h.name| > 0 && |h.breed| > 0 && |h.gender| > 0
              && (h.heightHands.None? || (8.0 <= h.heightHands.value <= 20.0 && OnStep(h.heightHands.value, 10.0)))
              && (h.weightKg.None? || (100.0 <= h.weightKg.value <= 1500.0 && OnStep(h.weightKg.value, 1.0)))
  {
    HorseFieldErrorsEmptyIff(h);
  }

  /** A weight of 500.5 kg passes the form rules, yet the browser's step check stops the submit. */
  lemma FractionalWeightBlocked()
    ensures var h := DefaultHorse.(name := "Star", breed := "Arab", weightKg := Some(500.5));
            HorseFieldErrors(h) == [] && !HorseSubmits(h)
  {
    var h := DefaultHorse.(name := "Star", breed := "Arab", weightKg := Some(500.5));
    HorseFieldErrorsEmptyIff(h);
    assert (500.5).Floor == 500;
  }

  /** A fresh default horse is held back until it is given a name and a breed. */
  lemma DefaultHorseNeedsNameAndBreed()
    ensures HorseFieldErrors(DefaultHorse) == [FieldError("name", "Horse name is required"), FieldError("breed", "Breed is required")]
  {
  }

  /** The form's list of new horses, for the user and organization the screen was opened with. */
  class HorseList {
    var rows: seq<HorseEntry>
    const selectedUserId: Option<string>
    const selectedOrganizationId: Option<string>

    /** The form starts with one default horse for the selection. */
    constructor (selectedUserId: Option<string>, selectedOrganizationId: Option<string>)
      ensures this.selectedUserId == selectedUserId && this.selectedOrganizationId == selectedOrganizationId
      ensures rows == [DefaultHorse.(userId := OrElse(selectedUserId, ""), organizationId := OrElse(selectedOrganizationId, ""))]
      ensures |rows| >= 1
    {
      this.selectedUserId := selectedUserId;
      this.selectedOrganizationId := selectedOrganizationId;
      rows := [DefaultHorse.(userId := OrElse(selectedUserId, ""), organizationId := OrElse(selectedOrganizationId, ""))];
    }

    /** `addNewHorse`: one default horse with the selected ids, or '' for a missing one. */
    method AddNewHorse()
      modifies this
      ensures rows == old(rows) + [DefaultHorse.(userId := OrElse(selectedUserId, ""), organizationId := OrElse(selectedOrganizationId, ""))]
      ensures |rows| >= 1
    {
      rows := rows + [DefaultHorse.(userId := OrElse(selectedUserId, ""), organizationId := OrElse(selectedOrganizationId, ""))];
    }

    /**
     * `remove(index)`: the horse at `index` leaves the list; the others keep their order. The
     * remove button is shown only while there is more than one horse, so the list never empties.
     */
    method RemoveHorse(index: nat)
      requires |rows| > 1 && index < |rows|
      modifies this
      ensures rows == old(rows[..index]) + old(rows[index + 1..])
      ensures |rows| >= 1
    {
      rows := rows[..index] + rows[index + 1..];
    }
  }

  /** One horse as posted: the ids are the selection or '', and missing lists become `[]`. */
  function Coerce(selectedUserId: Option<string>, selectedOrganizationId: Option<string>, h: HorseEntry): (t: HorsesRoute.HorseInput)
    ensures t.userId == Some(OrElse(selectedUserId, "")) && t.organizationId == Some(OrElse(selectedOrganizationId, ""))
    ensures t.dietaryRestrictions == Some(h.dietaryRestrictions.GetOr([])) && t.photos == Some(h.photos.GetOr([]))
    ensures t.name == Some(h.name) && t.breed == Some(h.breed) && t.gender == Some(h.gender)
    ensures t.heightHands == h.heightHands && t.weightKg == h.weightKg && t.insuranceDetails == h.insuranceDetails
  {
    HorsesRoute.HorseInput(
      userId := Some(OrElse(selectedUserId, "")),
      organizationId := Some(OrElse(selectedOrganizationId, "")),
      name := Some(h.name),
      registeredName := Some(h.registeredName),
      nickname := Some(h.nickname),
      breed := Some(h.breed),
      gender := Some(h.gender),
      birthDate := Some(h.birthDate),
      color := Some(h.color),
      markings := Some(h.markings),
      registrationNumber := Some(h.registrationNumber),
      microchipNumber := Some(h.microchipNumber),
      passportNumber := Some(h.passportNumber),
      heightHands := h.heightHands,
      weightKg := h.weightKg,
      status := Some(h.status),
      location := Some(h.location),
      ownerName := Some(h.ownerName),
      ownerContact := Some(h.ownerContact),
      insuranceDetails := h.insuranceDetails,
      medicalNotes := Some(h.medicalNotes),
      dietaryRestrictions := Some(h.dietaryRestrictions.GetOr([])),
      photos := Some(h.photos.GetOr([])),
      isActive := Some(h.isActive))
  }

  /** The submit: refused (None) with neither a user nor an organization selected, otherwise the posted request. */
  function SubmitRequest(selectedUserId: Option<string>, selectedOrganizationId: Option<string>, rows: seq<HorseEntry>)
    : (r: Option<HorsesRoute.HorseRequest>)
    ensures r.None? <==> !Truthy(selectedUserId) && !Truthy(selectedOrganizationId)
    ensures r.Some? ==> r.value.userId == selectedUserId && r.value.organizationId == selectedOrganizationId
    ensures r.Some? ==> r.value.horses.Some? && |r.value.horses.value| == |rows|
    ensures r.Some? ==> forall k :: 0 <= k < |rows| ==>
              r.value.horses.value[k] == Coerce(selectedUserId, selectedOrganizationId, rows[k])
  {
    if !Truthy(selectedUserId) && !Truthy(selectedOrganizationId) then None
    else
      Some(HorsesRoute.HorseRequest(selectedUserId, selectedOrganizationId,
        Some(seq(|rows|, k requires 0 <= k < |rows| => Coerce(selectedUserId, selectedOrganizationId, rows[k])))))
  }

  /**
   * A horse the form lets through passes the route's checks, and the route keeps its measurements:
   * a height or weight inside the form's bounds is never 0, so it is not turned into null.
   */
  lemma FormValidHorseAccepted(selectedUserId: Option<string>, selectedOrganizationId: Option<string>, h: HorseEntry, now: string)
    requires HorseFieldErrors(h) == []
    ensures var t := Coerce(selectedUserId, selectedOrganizationId, h);
            && HorsesRoute.FailedChecks(t) == []
            && HorsesRoute.Normalise(selectedUserId, selectedOrganizationId, now, t).heightHands == h.heightHands
            && HorsesRoute.Normalise(selectedUserId, selectedOrganizationId, now, t).weightKg == h.weightKg
  {
    HorseFieldErrorsEmptyIff(h);
  }

  /** The search test of one stored horse. */
  predicate Matches(h: ExistingHorsesRoute.StoredHorse, term: string) {
    var t := ToLower(term);
    || Contains(ToLower(h.name), t)
    || FieldContains(h.nickname, t)
    || FieldContains(h.registeredName, t)
    || FieldContains(h.breed, t)
    || FieldContains(h.registrationNumber, t)
  }

  /** `filteredHorses`. */
  function FilteredHorses(existing: seq<ExistingHorsesRoute.StoredHorse>, term: string): seq<ExistingHorsesRoute.StoredHorse> {
    Filter(existing, (h: ExistingHorsesRoute.StoredHorse) => Matches(h, term))
  }

  /**
   * A stored horse is listed exactly when the lower-cased term occurs in its lower-cased name,
   * nickname, registered name, breed or registration number; the list keeps the stored order.
   */
  lemma FilteredHorsesIff(existing: seq<ExistingHorsesRoute.StoredHorse>, term: string, h: ExistingHorsesRoute.StoredHorse)
    ensures h in FilteredHorses(existing, term) <==>
              h in existing &&
              (|| Contains(ToLower(h.name), ToLower(term))
               || (h.nickname.Some? && Contains(ToLower(h.nickname.value), ToLower(term)))
               || (h.registeredName.Some? && Contains(ToLower(h.registeredName.value), ToLower(term)))
               || (h.breed.Some? && Contains(ToLower(h.breed.value), ToLower(term)))
               || (h.registrationNumber.Some? && Contains(ToLower(h.registrationNumber.value), ToLower(term))))
    ensures Subsequence(FilteredHorses(existing, term), existing)
  {
    FilterIff(existing, (x: ExistingHorsesRoute.StoredHorse) => Matches(x, term), h);
    FilterSubsequence(existing, (x: ExistingHorsesRoute.StoredHorse) => Matches(x, term));
  }

  /** An empty search box lists every stored horse. */
  lemma EmptyTermKeepsAll(existing: seq<ExistingHorsesRoute.StoredHorse>)
    ensures FilteredHorses(existing, "") == existing
  {
    forall k | 0 <= k < |existing|
      ensures Matches(existing[k], "")
    {
      ContainsEmpty(ToLower(existing[k].name));
    }
    FilterAll(existing, (x: ExistingHorsesRoute.StoredHorse) => Matches(x, ""));
  }

  /** The search ignores the case of the term. */
  lemma SearchIgnoresTermCase(existing: seq<ExistingHorsesRoute.StoredHorse>, term: string)
    ensures FilteredHorses(existing, ToLower(term)) == FilteredHorses(existing, term)
  {
    ToLowerIdempotent(term);
    FilterCongruent(existing, (x: ExistingHorsesRoute.StoredHorse) => Matches(x, ToLower(term)),
                    (x: ExistingHorsesRoute.StoredHorse) => Matches(x, term));
  }
}

=== FILE: horses_route.dfy ===
/**
 * POST /api/business-setup/horses: validates a batch of horses for a user or an organization
 * and inserts them normalised.
 */
module HorsesRoute {
  import opened Wrappers
  import opened Text
  import Batch

  /** A free-form JSON object (the insurance details), flattened to strings. */
  type JsonObject = map<string, string>

  /** One posted horse, as loosely typed JSON: any field may be absent. */
  datatype HorseInput = HorseInput(
    userId: Option<string>,
    organizationId: Option<string>,
    name: Option<string>,
    registeredName: Option<string>,
    nickname: Option<string>,
    breed: Option<string>,
    gender: Option<string>,
    birthDate: Option<string>,
    color: Option<string>,
    markings: Option<string>,
    registrationNumber: Option<string>,
    microchipNumber: Option<string>,
    passportNumber: Option<string>,
    heightHands: Option<real>,
    weightKg: Option<real>,
    status: Option<string>,
    location: Option<string>,
    ownerName: Option<string>,
    ownerContact: Option<string>,
    insuranceDetails: Option<JsonObject>,
    medicalNotes: Option<string>,
    dietaryRestrictions: Option<seq<string>>,
    photos: Option<seq<string>>,
    isActive: Option<bool>)

  datatype HorseRequest = HorseRequest(
    userId: Option<string>,
    organizationId: Option<string>,
    horses: Option<seq<HorseInput>>)

  /** The row written to the horses table: the posted horse with its owner ids, timestamps and
      normalised lists, measurements and insurance details; `None` is a JSON null. */
  datatype HorseRow = HorseRow(
    userId: Option<string>,
    organizationId: Option<string>,
    createdAt: string,
    updatedAt: string,
    name: Option<string>,
    registeredName: Option<string>,
    nickname: Option<string>,
    breed: Option<string>,
    gender: Option<string>,
    birthDate: Option<string>,
    color: Option<string>,
    markings: Option<string>,
    registrationNumber: Option<string>,
    microchipNumber: Option<string>,
    passportNumber: Option<string>,
    heightHands: Option<real>,
    weightKg: Option<real>,
    status: Option<string>,
    location: Option<string>,
    ownerName: Option<string>,
    ownerContact: Option<string>,
    insuranceDetails: JsonObject,
    medicalNotes: Option<string>,
    dietaryRestrictions: seq<string>,
    photos: seq<string>,
    isActive: Option<bool>)

  /** The per-item checks, in the order the route runs them. */
  datatype HorseCheck =
    | NameMissing | BreedMissing | GenderMissing

  function Rank(c: HorseCheck): nat {
    match c
    case NameMissing => 0
    case BreedMissing => 1
    case GenderMissing => 2
  }

  function Message(c: HorseCheck): string {
    match c
    case NameMissing => "Name is required"
    case BreedMissing => "Breed is required"
    case GenderMissing => "Gender is required"
  }

  /** The message pushed for one failed check: the item's 1-based position, then the check. */
  function Render(e: Batch.ItemError<HorseCheck>): string {
    "Horse " + NatToString(e.index) + ": " + Message(e.check)
  }

  /** The condition under which check `c` fails for `t`. */
  predicate Fails(t: HorseInput, c: HorseCheck) {
    match c
    case NameMissing => !Truthy(t.name)
    case BreedMissing => !Truthy(t.breed)
    case GenderMissing => !Truthy(t.gender)
  }

  /** The failed checks of one item, in check order. */
  function FailedChecks(t: HorseInput): seq<HorseCheck> {
    Batch.Flag(Fails(t, NameMissing), NameMissing)
    + Batch.Flag(Fails(t, BreedMissing), BreedMissing)
    + Batch.Flag(Fails(t, GenderMissing), GenderMissing)
  }

  /** A check is listed for an item exactly when it fails. */
  lemma FailedChecksIff(t: HorseInput, c: HorseCheck)
    ensures c in FailedChecks(t) <==> Fails(t, c)
  {
    var f := FailedChecks(t);
    match c
    case NameMissing => assert c in f <==> c in Batch.Flag(Fails(t, c), c);
    case BreedMissing => assert c in f <==> c in Batch.Flag(Fails(t, c), c);
    case GenderMissing => assert c in f <==> c in Batch.Flag(Fails(t, c), c);
  }

  /** Checks BreedMissing, GenderMissing keep a ranked prefix ranked. */
  lemma RankedThroughGenderMissing(found: seq<HorseCheck>, bound: nat, t: HorseInput)
    requires Batch.RankedBelow(found, Rank, bound) && bound <= Rank(BreedMissing)
    ensures Batch.RankedBelow(found
      + Batch.Flag(Fails(t, BreedMissing), BreedMissing)
      + Batch.Flag(Fails(t, GenderMissing), GenderMissing), Rank, Rank(GenderMissing) + 1)
  {
    var g0 := found;
    Batch.FlagRanked(g0, bound, Fails(t, BreedMissing), BreedMissing, Rank);
    var g1 := g0 + Batch.Flag(Fails(t, BreedMissing), BreedMissing);
    Batch.FlagRanked(g1, Rank(BreedMissing) + 1, Fails(t, GenderMissing), GenderMissing, Rank);
  }

  /** An item's failed checks come in the order the route runs them. */
  lemma FailedChecksRanked(t: HorseInput)
    ensures Batch.Ranked(FailedChecks(t), Rank)
  {
    Batch.FlagRankedFirst(Fails(t, NameMissing), NameMissing, Rank);
    var f0 := Batch.Flag(Fails(t, NameMissing), NameMissing);
    RankedThroughGenderMissing(f0, Rank(NameMissing) + 1, t);
    var f1 := f0 + Batch.Flag(Fails(t, BreedMissing), BreedMissing) + Batch.Flag(Fails(t, GenderMissing), GenderMissing);
    Batch.RankedBelowRanked(f1, Rank, Rank(GenderMissing) + 1);
  }

  /** The error strings the route reports for a batch. */
  function ValidationErrors(items: seq<HorseInput>): seq<string> {
    Batch.Rendered(Batch.Errors(items, FailedChecks), Render)
  }

  /** Appending one item's report to the messages so far, check by check. */
  lemma ItemReport(acc: seq<string>, index: nat, t: HorseInput)
    ensures acc + Batch.Rendered(Batch.Tagged(index, FailedChecks(t)), Render)
         == acc
          + Batch.Flag(Fails(t, NameMissing), Render(Batch.ItemError(index, NameMissing)))
          + Batch.Flag(Fails(t, BreedMissing), Render(Batch.ItemError(index, BreedMissing)))
          + Batch.Flag(Fails(t, GenderMissing), Render(Batch.ItemError(index, GenderMissing)))
  {
    var f1 := Batch.Flag(Fails(t, NameMissing), NameMissing);
    var f2 := f1 + Batch.Flag(Fails(t, BreedMissing), BreedMissing);
    Batch.TaggedFlag(index, Fails(t, NameMissing), NameMissing, Render);
    Batch.TaggedAppend(index, f1, Batch.Flag(Fails(t, BreedMissing), BreedMissing), Render);
    Batch.TaggedFlag(index, Fails(t, BreedMissing), BreedMissing, Render);
    Batch.TaggedAppend(index, f2, Batch.Flag(Fails(t, GenderMissing), GenderMissing), Render);
    Batch.TaggedFlag(index, Fails(t, GenderMissing), GenderMissing, Render);
    var m1 := Batch.Flag(Fails(t, NameMissing), Render(Batch.ItemError(index, NameMissing)));
    var m2 := m1 + Batch.Flag(Fails(t, BreedMissing), Render(Batch.ItemError(index, BreedMissing)));
    Batch.AppendAssociative(acc, m2, Batch.Flag(Fails(t, GenderMissing), Render(Batch.ItemError(index, GenderMissing))));
    Batch.AppendAssociative(acc, m1, Batch.Flag(Fails(t, BreedMissing), Render(Batch.ItemError(index, BreedMissing))));
  }

  /** The `forEach` validation pass: the messages of item 1, then of item 2, and so on. */
  method CollectErrors(items: seq<HorseInput>) returns (errors: seq<string>)
    ensures errors == ValidationErrors(items)
  {
    errors := [];
    var i := 0;
    while i < |items|
      invariant 0 <= i <= |items|
      invariant errors == ValidationErrors(items[..i])
    {
      var t := items[i];
      var index := i + 1;
      ghost var before := errors;
      errors := Batch.Push(errors, Fails(t, NameMissing), Render(Batch.ItemError(index, NameMissing)));
      errors := Batch.Push(errors, Fails(t, BreedMissing), Render(Batch.ItemError(index, BreedMissing)));
      errors := Batch.Push(errors, Fails(t, GenderMissing), Render(Batch.ItemError(index, GenderMissing)));
      ItemReport(before, index, t);
      Batch.RenderedErrorsStep(items, i, FailedChecks, Render);
      i := i + 1;
    }
    assert items[..i] == items;
  }

  /** The error list is empty exactly when every item passes every check. */
  lemma ValidationErrorsEmptyIff(items: seq<HorseInput>)
    ensures ValidationErrors(items) == [] <==>
            forall i, c :: 0 <= i < |items| ==> !Fails(items[i], c)
  {
    Batch.ErrorsEmptyIff(items, FailedChecks);
    assert |ValidationErrors(items)| == |Batch.Errors(items, FailedChecks)|;
    if !forall i, c :: 0 <= i < |items| ==> !Fails(items[i], c) {
      var i, c :| 0 <= i < |items| && Fails(items[i], c);
      FailedChecksIff(items[i], c);
    }
  }

  /** The report lists item 1's failures first, and each item's failures in check order. */
  lemma ValidationErrorsInOrder(items: seq<HorseInput>)
    ensures Batch.InReportOrder(Batch.Errors(items, FailedChecks), Rank)
  {
    forall i | 0 <= i < |items| ensures Batch.Ranked(FailedChecks(items[i]), Rank) {
      FailedChecksRanked(items[i]);
    }
    Batch.ErrorsInReportOrder(items, FailedChecks, Rank);
  }

  /** A failure is reported exactly when the item at that 1-based position fails that check. */
  lemma ReportedIffFails(items: seq<HorseInput>, e: Batch.ItemError<HorseCheck>)
    ensures e in Batch.Errors(items, FailedChecks) <==> 1 <= e.index <= |items| && Fails(items[e.index - 1], e.check)
  {
    Batch.ErrorsIndexed(items, FailedChecks, e);
    if 1 <= e.index <= |items| {
      FailedChecksIff(items[e.index - 1], e.check);
    }
  }

  /** Every message names a position between 1 and the number of items and a check that failed there. */
  lemma MessageTagged(items: seq<HorseInput>, p: nat)
    requires p < |ValidationErrors(items)|
    ensures var e := Batch.Errors(items, FailedChecks)[p];
            && 1 <= e.index <= |items|
            && Fails(items[e.index - 1], e.check)
            && ValidationErrors(items)[p] == "Horse " + NatToString(e.index) + ": " + Message(e.check)
  {
    var errors := Batch.Errors(items, FailedChecks);
    var e := errors[p];
    assert e in errors;
    ReportedIffFails(items, e);
    assert ValidationErrors(items)[p] == Render(e);
  }

  /** The `map` that prepares one validated horse for insertion; the request's ids replace the horse's own. */
  function Normalise(userId: Option<string>, organizationId: Option<string>, now: string, t: HorseInput): HorseRow {
    HorseRow(
      userId := OrNull(userId),
      organizationId := OrNull(organizationId),
      createdAt := now,
      updatedAt := now,
      name := t.name,
      registeredName := t.registeredName,
      nickname := t.nickname,
      breed := t.breed,
      gender := t.gender,
      birthDate := t.birthDate,
      color := t.color,
      markings := t.markings,
      registrationNumber := t.registrationNumber,
      microchipNumber := t.microchipNumber,
      passportNumber := t.passportNumber,
      heightHands := NumberOrNull(t.heightHands),
      weightKg := NumberOrNull(t.weightKg),
      status := t.status,
      location := t.location,
      ownerName := t.ownerName,
      ownerContact := t.ownerContact,
      insuranceDetails := t.insuranceDetails.GetOr(map[]),
      medicalNotes := t.medicalNotes,
      dietaryRestrictions := t.dietaryRestrictions.GetOr([]),
      photos := t.photos.GetOr([]),
      isActive := t.isActive)
  }

  function NormaliseAll(userId: Option<string>, organizationId: Option<string>, now: string, items: seq<HorseInput>): seq<HorseRow> {
    seq(|items|, i requires 0 <= i < |items| => Normalise(userId, organizationId, now, items[i]))
  }

  /** A falsy id becomes null and the horse's own ids are ignored; a height or weight of 0 or none
      becomes null and any other is kept; absent lists become empty and absent insurance details
      the empty object. */
  lemma NormaliseFields(userId: Option<string>, organizationId: Option<string>, now: string, t: HorseInput)
    ensures var r := Normalise(userId, organizationId, now, t);
            && (r.userId.None? <==> !Truthy(userId)) && (r.userId.Some? ==> r.userId == userId)
            && (r.organizationId.None? <==> !Truthy(organizationId)) && (r.organizationId.Some? ==> r.organizationId == organizationId)
            && (r.heightHands.None? <==> t.heightHands.None? || t.heightHands.value == 0.0)
            && (r.heightHands.Some? ==> r.heightHands == t.heightHands)
            && (r.weightKg.None? <==> t.weightKg.None? || t.weightKg.value == 0.0)
            && (r.weightKg.Some? ==> r.weightKg == t.weightKg)
            && (t.dietaryRestrictions.None? ==> r.dietaryRestrictions == [])
            && (t.dietaryRestrictions.Some? ==> r.dietaryRestrictions == t.dietaryRestrictions.value)
            && (t.photos.None? ==> r.photos == [])
            && (t.photos.Some? ==> r.photos == t.photos.value)
            && (t.insuranceDetails.None? ==> r.insuranceDetails == map[])
            && (t.insuranceDetails.Some? ==> r.insuranceDetails == t.insuranceDetails.value)
            && r.name == t.name && r.breed == t.breed && r.gender == t.gender && r.isActive == t.isActive
  {
  }

  /** What the database may rely on for a stored horse. */
  predicate RowWellFormed(r: HorseRow) {
    && (r.userId.Some? || r.organizationId.Some?)
    && Truthy(r.name) && Truthy(r.breed) && Truthy(r.gender)
    && (r.heightHands.Some? ==> r.heightHands.value != 0.0)
    && (r.weightKg.Some? ==> r.weightKg.value != 0.0)
  }

  /** A batch that passes validation, posted with some id, normalises row for row into well-formed rows. */
  lemma ValidatedRowsWellFormed(userId: Option<string>, organizationId: Option<string>, now: string, items: seq<HorseInput>)
    requires Truthy(userId) || Truthy(organizationId)
    requires ValidationErrors(items) == []
    ensures |NormaliseAll(userId, organizationId, now, items)| == |items|
    ensures forall i :: 0 <= i < |items| ==> RowWellFormed(NormaliseAll(userId, organizationId, now, items)[i])
  {
    ValidationErrorsEmptyIff(items);
    forall i | 0 <= i < |items|
      ensures RowWellFormed(NormaliseAll(userId, organizationId, now, items)[i])
    {
      var t := items[i];
      assert !Fails(t, NameMissing) && !Fails(t, BreedMissing) && !Fails(t, GenderMissing);
    }
  }

  const MissingOwner := Batch.SetupResponse(400, false, "User ID or Organization ID is required", ["user_id or organization_id must be provided"], 0)
  const EmptyList := Batch.SetupResponse(400, false, "At least one horse is required", ["horses array cannot be empty"], 0)

  /**
   * The whole handler. `insertError` is the database's answer to the insert (None: accepted);
   * `stored` is what ends up in the horses table.
   */
  method Post(request: HorseRequest, now: string, insertError: Option<string>)
    returns (response: Batch.SetupResponse, stored: seq<HorseRow>)
    ensures response.success <==> response.status == 200
    ensures response.status != 200 ==> stored == [] && response.created == 0
    ensures response.status == 200 ==> forall i :: 0 <= i < |stored| ==> RowWellFormed(stored[i])
    ensures !Truthy(request.userId) && !Truthy(request.organizationId) ==> response == MissingOwner
    ensures (Truthy(request.userId) || Truthy(request.organizationId))
            && (request.horses.None? || request.horses == Some([]))
            ==> response == EmptyList
    ensures (Truthy(request.userId) || Truthy(request.organizationId))
            && request.horses.Some? && request.horses.value != [] ==>
            var items := request.horses.value;
            && (response.status == 400 <==> ValidationErrors(items) != [])
            && (ValidationErrors(items) != [] ==>
                  response == Batch.SetupResponse(400, false, "Validation errors found", ValidationErrors(items), 0))
            && (ValidationErrors(items) == [] && insertError.Some? ==>
                  response == Batch.SetupResponse(500, false, "Failed to insert horses into database", [insertError.value], 0))
            && (ValidationErrors(items) == [] && insertError.None? ==>
                  |stored| == |items| &&
                  (forall i :: 0 <= i < |items| ==> stored[i] == Normalise(request.userId, request.organizationId, now, items[i])) &&
                  response == Batch.SetupResponse(200, true, "Successfully added " + NatToString(|stored|) + " horses", [], |stored|))
  {
    stored := [];
    if !Truthy(request.userId) && !Truthy(request.organizationId) {
      response := MissingOwner;
      return;
    }
    if request.horses.None? || request.horses.value == [] {
      response := EmptyList;
      return;
    }
    var items := request.horses.value;
    var errors := CollectErrors(items);
    if errors != [] {
      response := Batch.SetupResponse(400, false, "Validation errors found", errors, 0);
      return;
    }
    ValidatedRowsWellFormed(request.userId, request.organizationId, now, items);
    var rows := NormaliseAll(request.userId, request.organizationId, now, items);
    if insertError.Some? {
      response := Batch.SetupResponse(500, false, "Failed to insert horses into database", [insertError.value], 0);
      return;
    }
    stored := rows;
    response := Batch.SetupResponse(200, true, "Successfully added " + NatToString(|stored|) + " horses", [], |stored|);
  }
}

=== FILE: lists.dfy ===
/** `Array.prototype.filter` and the order it keeps, shared by the joins, counts and search boxes. */
module Lists {

  /** The elements of `s` that satisfy `p`, in the order of `s`. */
  function Filter<T>(s: seq<T>, p: T -> bool): (r: seq<T>)
    ensures |r| <= |s|
    ensures forall k :: 0 <= k < |r| ==> p(r[k])
  {
    if s == [] then []
    else if p(s[0]) then [s[0]] + Filter(s[1..], p)
    else Filter(s[1..], p)
  }

  /** An element is kept exactly when it is in `s` and satisfies `p`. */
  lemma {:induction false} FilterIff<T>(s: seq<T>, p: T -> bool, x: T)
    ensures x in Filter(s, p) <==> x in s && p(x)
  {
    if s != [] {
      FilterIff(s[1..], p, x);
      assert s == [s[0]] + s[1..];
    }
  }

  /** Every element that satisfies `p` is kept as many times as it occurs. */
  lemma {:induction false} FilterCounts<T>(s: seq<T>, p: T -> bool)
    ensures forall x :: p(x) ==> multiset(Filter(s, p))[x] == multiset(s)[x]
  {
    if s != [] {
      FilterCounts(s[1..], p);
      assert s == [s[0]] + s[1..];
    }
  }

  /** `a` is `b` with some elements taken out, the rest in their order. */
  predicate Subsequence<T(==)>(a: seq<T>, b: seq<T>)
    decreases |b|
  {
    if a == [] then true
    else if b == [] then false
    else if a[0] == b[0] then Subsequence(a[1..], b[1..])
    else Subsequence(a, b[1..])
  }

  lemma {:induction false} FilterSubsequence<T>(s: seq<T>, p: T -> bool)
    ensures Subsequence(Filter(s, p), s)
  {
    if s != [] {
      FilterSubsequence(s[1..], p);
      if p(s[0]) {
        assert Filter(s, p)[1..] == Filter(s[1..], p);
      } else {
        SubsequenceOfTail(Filter(s, p), s);
      }
    }
  }

  /** A subsequence of the tail is one of the whole. */
  lemma SubsequenceOfTail<T>(a: seq<T>, b: seq<T>)
    requires b != [] && Subsequence(a, b[1..])
    ensures Subsequence(a, b)
    decreases |b|, 0
  {
    if a != [] && a[0] == b[0] {
      SubsequenceDropHead(a, b[1..]);
    }
  }

  /** Dropping the head of a subsequence keeps it a subsequence. */
  lemma SubsequenceDropHead<T>(a: seq<T>, b: seq<T>)
    requires a != [] && Subsequence(a, b)
    ensures Subsequence(a[1..], b)
    decreases |b|, 1
  {
    if b != [] {
      if a[0] != b[0] {
        SubsequenceDropHead(a, b[1..]);
      }
      SubsequenceOfTail(a[1..], b);
    }
  }

  /** Two predicates that agree on the elements of `s` keep the same elements. */
  lemma {:induction false} FilterCongruent<T>(s: seq<T>, p: T -> bool, q: T -> bool)
    requires forall k :: 0 <= k < |s| ==> p(s[k]) == q(s[k])
    ensures Filter(s, p) == Filter(s, q)
  {
    if s != [] {
      FilterCongruent(s[1..], p, q);
    }
  }

  /** A predicate and its negation split `s`: what one keeps the other drops. */
  lemma {:induction false} FilterComplement<T>(s: seq<T>, p: T -> bool, q: T -> bool)
    requires forall k :: 0 <= k < |s| ==> q(s[k]) == !p(s[k])
    ensures |Filter(s, p)| + |Filter(s, q)| == |s|
  {
    if s != [] {
      FilterComplement(s[1..], p, q);
    }
  }

  /** A predicate that holds of no element keeps nothing. */
  lemma {:induction false} FilterNone<T>(s: seq<T>, p: T -> bool)
    requires forall k :: 0 <= k < |s| ==> !p(s[k])
    ensures Filter(s, p) == []
  {
    if s != [] {
      FilterNone(s[1..], p);
    }
  }

  /** A predicate that holds of every element keeps them all. */
  lemma {:induction false} FilterAll<T>(s: seq<T>, p: T -> bool)
    requires forall k :: 0 <= k < |s| ==> p(s[k])
    ensures Filter(s, p) == s
  {
    if s != [] {
      FilterAll(s[1..], p);
    }
  }

  /** Three predicates no element satisfies two of select no more elements together than there are. */
  lemma {:induction false} DisjointFiltersWithin<T>(s: seq<T>, p: T -> bool, q: T -> bool, r: T -> bool)
    requires forall x :: !(p(x) && q(x)) && !(p(x) && r(x)) && !(q(x) && r(x))
    ensures |Filter(s, p)| + |Filter(s, q)| + |Filter(s, r)| <= |s|
  {
    if s != [] {
      DisjointFiltersWithin(s[1..], p, q, r);
    }
  }
}

=== FILE: organization_setup.dfy ===
/**
 * The organization wizard: an owner account, the organization, its four default roles, the
 * owner's membership in the admin role and the owner's profile, written one after the other.
 */
module OrganizationSetup {
  import opened Wrappers
  import opened Backend
  import opened Roles
  import opened Forms

  /** The wizard's form. */
  datatype OrganizationFormData = OrganizationFormData(
    name: string,
    orgType: string,
    description: string,
    address: string,
    phone: string,
    email: string,
    website: string,
    subscriptionTier: string,
    ownerEmail: string,
    ownerName: string,
    ownerPassword: string)

  const OrganizationRoles := [
    RoleTemplate("Administrator", ["manage_organization", "manage_horses", "assign_tasks", "view_all"], "#007AFF"),
    RoleTemplate("Manager", ["manage_horses", "assign_tasks", "view_all"], "#34C759"),
    RoleTemplate("Staff", ["view_assigned", "update_tasks"], "#FF9500"),
    RoleTemplate("Veterinarian", ["view_all", "manage_medical"], "#AF52DE")]

  const TrainerRoles := [
    RoleTemplate("Head Trainer", ["manage_organization", "manage_horses", "assign_tasks", "view_all"], "#007AFF"),
    RoleTemplate("Trainer", ["manage_horses", "assign_tasks", "view_assigned"], "#34C759"),
    RoleTemplate("Assistant Trainer", ["view_assigned", "update_tasks"], "#FF9500"),
    RoleTemplate("Client", ["view_own_horses"], "#AF52DE")]

  const StableRoles := [
    RoleTemplate("Stable Owner", ["manage_organization", "manage_horses", "assign_tasks", "view_all"], "#007AFF"),
    RoleTemplate("Stable Manager", ["manage_horses", "assign_tasks", "view_all"], "#34C759"),
    RoleTemplate("Staff", ["view_assigned", "update_tasks"], "#FF9500"),
    RoleTemplate("Boarder", ["view_own_horses"], "#AF52DE")]

  const EnterpriseRoles := OrganizationRoles

  /** The organization types that have a template of their own. */
  const TemplateTypes := {"organization", "trainer", "stable", "enterprise"}

  /** `DEFAULT_ROLES[type] || DEFAULT_ROLES.organization`. */
  function Template(orgType: string): (r: seq<RoleTemplate>)
    ensures orgType !in TemplateTypes ==> r == OrganizationRoles
  {
    if orgType == "trainer" then TrainerRoles
    else if orgType == "stable" then StableRoles
    else if orgType == "enterprise" then EnterpriseRoles
    else OrganizationRoles
  }

  /** Every type's template has four roles, headed by the one that may manage the organization. */
  lemma TemplateShape(orgType: string)
    ensures |Template(orgType)| == 4
    ensures "manage_organization" in Template(orgType)[0].permissions
    ensures forall k :: 1 <= k < 4 ==> "manage_organization" !in Template(orgType)[k].permissions
  {
  }

  /** `createRoles`: one row per template role, in order; `roleId(k)` is the id drawn for the k-th. */
  function RoleRows(organizationId: string, orgType: string, roleId: nat -> string): (rows: seq<RoleRow>)
    ensures |rows| == |Template(orgType)|
  {
    var t := Template(orgType);
    seq(|t|, k requires 0 <= k < |t| => RoleRowFor(roleId(k), organizationId, Some(t[k].name + " role for " + orgType), t[k]))
  }

  /**
   * The role rows follow the template one for one and in order, belong to the organization, carry
   * the description "<name> role for <type>", and each capability flag is set exactly when its
   * permission is listed.
   */
  lemma RoleRowsFollowTemplate(organizationId: string, orgType: string, roleId: nat -> string)
    ensures var rows := RoleRows(organizationId, orgType, roleId);
            forall k :: 0 <= k < |rows| ==>
              && rows[k].id == roleId(k)
              && rows[k].organizationId == organizationId
              && rows[k].name == Template(orgType)[k].name
              && rows[k].permissions == Template(orgType)[k].permissions
              && rows[k].description == Some(Template(orgType)[k].name + " role for " + orgType)
              && (rows[k].canAssignTasks <==> "assign_tasks" in rows[k].permissions)
              && (rows[k].canManageHorses <==> "manage_horses" in rows[k].permissions)
              && (rows[k].canViewAllHorses <==> "view_all" in rows[k].permissions)
              && (rows[k].canManageOrganization <==> "manage_organization" in rows[k].permissions)
  {
  }

  /** The role names `addOwnerToOrganization` accepts as the owner's. */
  const AdminNames := {"Administrator", "Head Trainer", "Stable Owner"}

  function FindAdmin(rows: seq<RoleRow>): Option<RoleRow> {
    FindNamed(rows, AdminNames)
  }

  /**
   * For every organization type the admin lookup finds the first role, which is the only role that
   * may manage the organization; so "Admin role not found" cannot happen for rows built here.
   */
  lemma AdminIsFirstRole(organizationId: string, orgType: string, roleId: nat -> string)
    ensures var rows := RoleRows(organizationId, orgType, roleId);
            && FindAdmin(rows) == Some(rows[0])
            && rows[0].canManageOrganization
            && forall k :: 1 <= k < |rows| ==> !rows[k].canManageOrganization
  {
    TemplateShape(orgType);
    RoleRowsFollowTemplate(organizationId, orgType, roleId);
    AdminFound(organizationId, orgType, roleId);
  }

  /** The admin lookup succeeds on the rows of any template, with the first role's id. */
  lemma AdminFound(organizationId: string, orgType: string, roleId: nat -> string)
    ensures FindAdmin(RoleRows(organizationId, orgType, roleId)).Some?
    ensures FindAdmin(RoleRows(organizationId, orgType, roleId)).value.id == roleId(0)
  {
    TemplateShape(orgType);
    RoleRowsFollowTemplate(organizationId, orgType, roleId);
    var rows := RoleRows(organizationId, orgType, roleId);
    assert rows[0].name in AdminNames;
    FindNamedFirst(rows, AdminNames);
  }

  /** The profile's account type. */
  function AccountType(orgType: string): (r: string)
    ensures r == "trainer" <==> orgType == "trainer"
    ensures r != "trainer" ==> r == "organization"
  {
    if orgType == "trainer" then "trainer" else "organization"
  }

  const TrainerSettings := Settings(Some(true), Some(true), Some([]))

  /** `createOrganization`: the new organization, owned by the new account, active, with one member. */
  function OrganizationRowFor(data: OrganizationFormData, organizationId: string, ownerId: string): (r: OrganizationRow)
    ensures r.id == organizationId && r.ownerId == ownerId && r.isActive && r.memberCount == 1
    ensures r.name == data.name && r.orgType == data.orgType && r.subscriptionTier == data.subscriptionTier
    ensures data.orgType == "trainer" ==> r.settings == TrainerSettings
    ensures data.orgType != "trainer" ==> r.settings == EmptySettings
  {
    OrganizationRow(
      id := organizationId,
      name := data.name,
      orgType := data.orgType,
      description := data.description,
      ownerId := ownerId,
      address := data.address,
      phone := data.phone,
      email := data.email,
      website := data.website,
      settings := if data.orgType == "trainer" then TrainerSettings else EmptySettings,
      subscriptionTier := data.subscriptionTier,
      isActive := true,
      memberCount := 1)
  }

  function OwnerAccount(data: OrganizationFormData, userId: string): AuthUser {
    AuthUser(userId, data.ownerEmail, data.ownerPassword, true, data.ownerName, "owner")
  }

  /** `createUserProfile`. */
  function OwnerProfile(data: OrganizationFormData, profileId: string, userId: string): (p: ProfileRow)
    ensures p.userId == userId && p.accountType == AccountType(data.orgType) && p.isActive
    ensures p.displayName == data.ownerName && p.bio == data.ownerName + " - " + data.orgType + " owner"
  {
    ProfileRow(profileId, userId, AccountType(data.orgType), data.ownerName, data.ownerName + " - " + data.orgType + " owner", true)
  }

  /** The ids the services hand out during one submit. */
  datatype SetupIds = SetupIds(userId: string, organizationId: string, roleId: nat -> string, memberId: string, profileId: string)

  /** The outcome of each of the five writes. */
  datatype SetupVerdicts = SetupVerdicts(user: Verdict, organization: Verdict, roles: Verdict, member: Verdict, profile: Verdict)

  /** How many of the five writes take effect: they stop at the first rejected one. */
  function StepsDone(v: SetupVerdicts): (n: nat)
    ensures n <= 5
    ensures n == 5 <==> v.user.Accepted? && v.organization.Accepted? && v.roles.Accepted? && v.member.Accepted? && v.profile.Accepted?
  {
    if v.user.Rejected? then 0
    else if v.organization.Rejected? then 1
    else if v.roles.Rejected? then 2
    else if v.member.Rejected? then 3
    else if v.profile.Rejected? then 4
    else 5
  }

  /** The owner's membership: the first role of the new organization, its admin role. */
  function OwnerMembership(data: OrganizationFormData, ids: SetupIds): MemberRow {
    MemberRow(ids.memberId, ids.organizationId, ids.userId, Some(ids.roleId(0)), true)
  }

  /** The form rules, field by field. The e-mail pattern is given as `emailMatches`. */
  function FieldErrors(data: OrganizationFormData, emailMatches: bool): seq<FieldError> {
    Required("name", data.name, "Organization name is required")
    + Required("type", data.orgType, "Organization type is required")
    + Required("subscriptionTier", data.subscriptionTier, "Subscription tier is required")
    + Required("ownerName", data.ownerName, "Owner name is required")
    + RequiredThen("ownerEmail", data.ownerEmail, "Owner email is required", emailMatches, "Invalid email address")
    + RequiredThen("ownerPassword", data.ownerPassword, "Owner password is required", |data.ownerPassword| >= 8,
                   "Password must be at least 8 characters")
  }

  /** The form rules pass exactly when the required fields are filled, the e-mail matches and the password has at least 8 characters. */
  lemma FieldErrorsEmptyIff(data: OrganizationFormData, emailMatches: bool)
    ensures FieldErrors(data, emailMatches) == [] <==>
              && |data.name| > 0 && |data.orgType| > 0 && |data.subscriptionTier| > 0 && |data.ownerName| > 0
              && |data.ownerEmail| > 0 && emailMatches
              && |data.ownerPassword| >= 8
  {
  }

  /**
   * Whether a click on the submit button reaches `handleSubmit`. The browser checks the
   * `type="email"` organization e-mail and the `type="url"` website first and stops the submit
   * event when either holds a malformed value; `inputsValid` is that check's outcome.
   */
  predicate Submits(data: OrganizationFormData, inputsValid: bool, emailMatches: bool) {
    inputsValid && FieldErrors(data, emailMatches) == []
  }

  /** A submit goes through exactly when the browser accepts the inputs and every form rule holds. */
  lemma SubmitsIff(data: OrganizationFormData, inputsValid: bool, emailMatches: bool)
    ensures Submits(data, inputsValid, emailMatches) <==>
              && inputsValid
              && |data.name| > 0 && |data.orgType| > 0 && |data.subscriptionTier| > 0 && |data.ownerName| > 0
              && |data.ownerEmail| > 0 && emailMatches
              && |data.ownerPassword| >= 8
  {
    FieldErrorsEmptyIff(data, emailMatches);
  }

  /** The wizard component: its React state, and the backend it writes to. */
  class OrganizationWizard {
    var step: nat
    var loading: bool
    var createdUser: Option<AuthUser>
    var createdOrganization: Option<OrganizationRow>
    const db: Database

    constructor (db: Database)
      ensures this.db == db && step == 1 && !loading && createdUser.None? && createdOrganization.None?
    {
      this.db := db;
      step := 1;
      loading := false;
      createdUser := None;
      createdOrganization := None;
    }

    /** `createOwnerAccount`: the auth account, remembered as `createdUser` when it is created. */
    method CreateOwnerAccount(data: OrganizationFormData, userId: string, v: Verdict) returns (ok: bool)
      modifies this, db
      ensures ok <==> v.Accepted?
      ensures db.users == old(db.users) + (if ok then [OwnerAccount(data, userId)] else [])
      ensures db.organizations == old(db.organizations) && db.roles == old(db.roles)
      ensures db.members == old(db.members) && db.profiles == old(db.profiles)
      ensures createdUser == (if ok then Some(OwnerAccount(data, userId)) else old(createdUser))
      ensures step == old(step) && loading == old(loading) && createdOrganization == old(createdOrganization)
    {
      ok := db.CreateUser(OwnerAccount(data, userId), v);
      if ok {
        createdUser := Some(OwnerAccount(data, userId));
      }
    }

    /** `createOrganization`: the organization row, remembered as `createdOrganization` when it is stored. */
    method CreateOrganization(data: OrganizationFormData, organizationId: string, ownerId: string, v: Verdict) returns (ok: bool)
      modifies this, db
      ensures ok <==> v.Accepted?
      ensures db.organizations == old(db.organizations) + (if ok then [OrganizationRowFor(data, organizationId, ownerId)] else [])
      ensures db.users == old(db.users) && db.roles == old(db.roles)
      ensures db.members == old(db.members) && db.profiles == old(db.profiles)
      ensures createdOrganization == (if ok then Some(OrganizationRowFor(data, organizationId, ownerId)) else old(createdOrganization))
      ensures step == old(step) && loading == old(loading) && createdUser == old(createdUser)
    {
      ok := db.InsertOrganization(OrganizationRowFor(data, organizationId, ownerId), v);
      if ok {
        createdOrganization := Some(OrganizationRowFor(data, organizationId, ownerId));
      }
    }

    /** `createRoles`: the template's rows, all stored or none. */
    method CreateRoles(organizationId: string, orgType: string, roleId: nat -> string, v: Verdict) returns (ok: bool, rows: seq<RoleRow>)
      modifies db
      ensures ok <==> v.Accepted?
      ensures rows == RoleRows(organizationId, orgType, roleId)
      ensures db.roles == old(db.roles) + (if ok then rows else [])
      ensures db.users == old(db.users) && db.organizations == old(db.organizations)
      ensures db.members == old(db.members) && db.profiles == old(db.profiles)
    {
      rows := RoleRows(organizationId, orgType, roleId);
      ok := db.InsertRoles(rows, v);
    }

    /** `addOwnerToOrganization`: the owner joins in the admin role; with no admin role nothing is written. */
    method AddOwnerToOrganization(organizationId: string, ownerId: string, rows: seq<RoleRow>, memberId: string, v: Verdict)
      returns (ok: bool)
      modifies db
      ensures FindAdmin(rows).None? ==> !ok
      ensures FindAdmin(rows).Some? ==> (ok <==> v.Accepted?)
      ensures db.members == old(db.members)
                + (if ok then [MemberRow(memberId, organizationId, ownerId, Some(FindAdmin(rows).value.id), true)] else [])
      ensures db.users == old(db.users) && db.organizations == old(db.organizations)
      ensures db.roles == old(db.roles) && db.profiles == old(db.profiles)
    {
      var admin := FindAdmin(rows);
      if admin.None? {
        ok := false;
        return;
      }
      ok := db.InsertMember(MemberRow(memberId, organizationId, ownerId, Some(admin.value.id), true), v);
    }

    /** `createUserProfile`. */
    method CreateUserProfile(userId: string, data: OrganizationFormData, profileId: string, v: Verdict) returns (ok: bool)
      modifies db
      ensures ok <==> v.Accepted?
      ensures db.profiles == old(db.profiles) + (if ok then [OwnerProfile(data, profileId, userId)] else [])
      ensures db.users == old(db.users) && db.organizations == old(db.organizations)
      ensures db.roles == old(db.roles) && db.members == old(db.members)
    {
      ok := db.InsertProfile(OwnerProfile(data, profileId, userId), v);
    }

    /**
     * `onSubmit`: the five writes in order. A rejected write skips the rest; nothing written before
     * it is undone. The wizard moves to step 2 only when all five succeed.
     */
    method OnSubmit(data: OrganizationFormData, ids: SetupIds, v: SetupVerdicts)
      modifies this, db
      ensures db.users == old(db.users) + (if StepsDone(v) >= 1 then [OwnerAccount(data, ids.userId)] else [])
      ensures db.organizations == old(db.organizations) + (if StepsDone(v) >= 2 then [OrganizationRowFor(data, ids.organizationId, ids.userId)] else [])
      ensures db.roles == old(db.roles) + (if StepsDone(v) >= 3 then RoleRows(ids.organizationId, data.orgType, ids.roleId) else [])
      ensures db.members == old(db.members) + (if StepsDone(v) >= 4 then [OwnerMembership(data, ids)] else [])
      ensures db.profiles == old(db.profiles) + (if StepsDone(v) >= 5 then [OwnerProfile(data, ids.profileId, ids.userId)] else [])
      ensures step == (if StepsDone(v) == 5 then 2 else old(step))
      ensures createdUser == (if StepsDone(v) >= 1 then Some(OwnerAccount(data, ids.userId)) else old(createdUser))
      ensures createdOrganization == (if StepsDone(v) >= 2 then Some(OrganizationRowFor(data, ids.organizationId, ids.userId)) else old(createdOrganization))
      ensures !loading
    {
      loading := true;
      var ok := CreateOwnerAccount(data, ids.userId, v.user);
      if ok {
        ok := CreateOrganization(data, ids.organizationId, ids.userId, v.organization);
      }
      var rows: seq<RoleRow> := [];
      if ok {
        ok, rows := CreateRoles(ids.organizationId, data.orgType, ids.roleId, v.roles);
      }
      if ok {
        AdminFound(ids.organizationId, data.orgType, ids.roleId);
        ok := AddOwnerToOrganization(ids.organizationId, ids.userId, rows, ids.memberId, v.member);
      }
      if ok {
        ok := CreateUserProfile(ids.userId, data, ids.profileId, v.profile);
      }
      if ok {
        step := 2;
      }
      loading := false;
    }

    /** A click on the submit button: the handler runs only when the browser and the form rules let it through. */
    method Submit(data: OrganizationFormData, inputsValid: bool, emailMatches: bool, ids: SetupIds, v: SetupVerdicts)
      modifies this, db
      ensures !Submits(data, inputsValid, emailMatches) ==>
                && unchanged(db) && step == old(step) && loading == old(loading)
                && createdUser == old(createdUser) && createdOrganization == old(createdOrganization)
      ensures Submits(data, inputsValid, emailMatches) ==>
                && db.users == old(db.users) + (if StepsDone(v) >= 1 then [OwnerAccount(data, ids.userId)] else [])
                && db.organizations == old(db.organizations)
                     + (if StepsDone(v) >= 2 then [OrganizationRowFor(data, ids.organizationId, ids.userId)] else [])
                && db.roles == old(db.roles) + (if StepsDone(v) >= 3 then RoleRows(ids.organizationId, data.orgType, ids.roleId) else [])
                && db.members == old(db.members) + (if StepsDone(v) >= 4 then [OwnerMembership(data, ids)] else [])
                && db.profiles == old(db.profiles) + (if StepsDone(v) >= 5 then [OwnerProfile(data, ids.profileId, ids.userId)] else [])
                && step == (if StepsDone(v) == 5 then 2 else old(step))
                && createdUser == (if StepsDone(v) >= 1 then Some(OwnerAccount(data, ids.userId)) else old(createdUser))
                && createdOrganization == (if StepsDone(v) >= 2
                                           then Some(OrganizationRowFor(data, ids.organizationId, ids.userId))
                                           else old(createdOrganization))
                && !loading
    {
      if Submits(data, inputsValid, emailMatches) {
        OnSubmit(data, ids, v);
      }
    }
  }
}

=== FILE: profiles_route.dfy ===
/**
 * GET /api/profiles: the profile rows, either as stored or, with `include_organizations=true`,
 * flattened together with their memberships' organizations.
 */
module ProfilesRoute {
  import opened Wrappers
  import opened Backend

  /** A JSON object of string values (`user_metadata`). */
  type JsonObject = map<string, string>

  /** A profile row as `select('*')` returns it; `otherColumns` stands for the columns the flattening drops. */
  datatype ProfileRecord = ProfileRecord(
    id: string,
    email: Option<string>,
    createdAt: string,
    updatedAt: string,
    userMetadata: Option<JsonObject>,
    otherColumns: JsonObject)

  /** The joined `organizations(*)` record of a membership. */
  datatype OrganizationRecord = OrganizationRecord(id: string, name: string, orgType: string, description: Option<string>)

  /** One `organization_members(...)` element of a joined profile. */
  datatype MemberJoin = MemberJoin(roleId: Option<string>, joinedAt: string, isActive: bool, organization: OrganizationRecord)

  /** A profile with its joined memberships; `None` when the join brought no array. */
  datatype JoinedProfile = JoinedProfile(profile: ProfileRecord, organizationMembers: Option<seq<MemberJoin>>)

  datatype FlatOrganization = FlatOrganization(
    id: string,
    name: string,
    orgType: string,
    description: Option<string>,
    memberRole: Option<string>,
    joinedAt: string,
    isActive: bool)

  datatype FlatProfile = FlatProfile(
    id: string,
    email: Option<string>,
    createdAt: string,
    updatedAt: string,
    userMetadata: Option<JsonObject>,
    organizations: seq<FlatOrganization>)

  datatype ProfilesResponse =
    | Flattened(profiles: seq<FlatProfile>)
    | Plain(rows: seq<ProfileRecord>)
    | Failed(status: nat, error: string)

  /** `searchParams.get('include_organizations') === 'true'`. */
  predicate IncludeOrganizations(param: Option<string>) {
    param == Some("true")
  }

  /** One membership as an organization entry: the organization's columns, with the role id as `member_role`. */
  function Flatten(m: MemberJoin): (o: FlatOrganization)
    ensures o.id == m.organization.id && o.name == m.organization.name && o.orgType == m.organization.orgType
    ensures o.description == m.organization.description
    ensures o.memberRole == m.roleId && o.joinedAt == m.joinedAt && o.isActive == m.isActive
  {
    FlatOrganization(m.organization.id, m.organization.name, m.organization.orgType, m.organization.description,
                     m.roleId, m.joinedAt, m.isActive)
  }

  /** One profile, flattened: five of its columns and one entry per membership, in order; none without the array. */
  function FlattenProfile(j: JoinedProfile): (f: FlatProfile)
    ensures f.id == j.profile.id && f.email == j.profile.email && f.userMetadata == j.profile.userMetadata
    ensures f.createdAt == j.profile.createdAt && f.updatedAt == j.profile.updatedAt
    ensures j.organizationMembers.None? ==> f.organizations == []
    ensures j.organizationMembers.Some? ==>
              && |f.organizations| == |j.organizationMembers.value|
              && forall k :: 0 <= k < |f.organizations| ==> f.organizations[k] == Flatten(j.organizationMembers.value[k])
  {
    var members := j.organizationMembers.GetOr([]);
    FlatProfile(j.profile.id, j.profile.email, j.profile.createdAt, j.profile.updatedAt, j.profile.userMetadata,
                seq(|members|, k requires 0 <= k < |members| => Flatten(members[k])))
  }

  /**
   * The handler. Only one of the two selects runs: `joined` is the answer of the select with the
   * join, `plain` that of `select('*')`, and `error` the failure of whichever ran.
   */
  function Get(includeParam: Option<string>, joined: seq<JoinedProfile>, plain: seq<ProfileRecord>, error: Option<QueryError>): (r: ProfilesResponse)
    ensures error.Some? ==> r == Failed(500, ErrorMessage(error.value, "Failed to fetch profiles"))
    ensures error.None? && IncludeOrganizations(includeParam) ==>
              && r.Flattened?
              && |r.profiles| == |joined|
              && forall k :: 0 <= k < |joined| ==> r.profiles[k] == FlattenProfile(joined[k])
    ensures error.None? && !IncludeOrganizations(includeParam) ==> r == Plain(plain)
  {
    if error.Some? then Failed(500, ErrorMessage(error.value, "Failed to fetch profiles"))
    else if IncludeOrganizations(includeParam) then
      Flattened(seq(|joined|, k requires 0 <= k < |joined| => FlattenProfile(joined[k])))
    else Plain(plain)
  }

  /** Only the exact value "true" flattens; any other value ("TRUE" and "1" among them), or none, returns the rows as stored. */
  lemma OnlyTrueFlattens(includeParam: Option<string>, joined: seq<JoinedProfile>, plain: seq<ProfileRecord>)
    ensures Get(includeParam, joined, plain, None).Flattened? <==> includeParam == Some("true")
    ensures includeParam != Some("true") ==> Get(includeParam, joined, plain, None) == Plain(plain)
  {
  }

  /** Each membership of a flattened profile reports its role id and organization, in membership order. */
  lemma MemberRoleIsRoleId(includeParam: Option<string>, joined: seq<JoinedProfile>, plain: seq<ProfileRecord>, k: nat, i: nat)
    requires IncludeOrganizations(includeParam)
    requires k < |joined| && joined[k].organizationMembers.Some? && i < |joined[k].organizationMembers.value|
    ensures var r := Get(includeParam, joined, plain, None);
            && r.profiles[k].id == joined[k].profile.id
            && r.profiles[k].organizations[i].memberRole == joined[k].organizationMembers.value[i].roleId
            && r.profiles[k].organizations[i].id == joined[k].organizationMembers.value[i].organization.id
  {
  }
}

=== FILE: roles.dfy ===
/** Role templates and the role rows derived from them, shared by the two organization wizards. */
module Roles {
  import opened Wrappers
  import opened Backend

  /** One entry of a role template: a name, its permission strings and a display colour. */
  datatype RoleTemplate = RoleTemplate(name: string, permissions: seq<string>, color: string)

  /** A role row for template `t`: the capability flags are read off the permission list. */
  function RoleRowFor(id: string, organizationId: string, description: Option<string>, t: RoleTemplate): (r: RoleRow)
    ensures r.id == id && r.organizationId == organizationId && r.name == t.name
    ensures r.description == description && r.permissions == t.permissions && r.color == t.color
    ensures r.canAssignTasks <==> "assign_tasks" in t.permissions
    ensures r.canManageHorses <==> "manage_horses" in t.permissions
    ensures r.canViewAllHorses <==> "view_all" in t.permissions
    ensures r.canManageOrganization <==> "manage_organization" in t.permissions
  {
    RoleRow(
      id := id,
      organizationId := organizationId,
      name := t.name,
      description := description,
      permissions := t.permissions,
      canAssignTasks := "assign_tasks" in t.permissions,
      canManageHorses := "manage_horses" in t.permissions,
      canViewAllHorses := "view_all" in t.permissions,
      canManageOrganization := "manage_organization" in t.permissions,
      color := t.color)
  }

  /** `rows.find(r => names.includes(r.name))`: the first row with one of the names. */
  function FindNamed(rows: seq<RoleRow>, names: set<string>): (r: Option<RoleRow>)
    ensures r.None? <==> forall k :: 0 <= k < |rows| ==> rows[k].name !in names
    ensures r.Some? ==> exists k :: (0 <= k < |rows| && rows[k] == r.value && r.value.name in names
                                     && forall p :: 0 <= p < k ==> rows[p].name !in names)
  {
    if rows == [] then None
    else if rows[0].name in names then Some(rows[0])
    else
      var r := FindNamed(rows[1..], names);
      assert forall k :: 1 <= k < |rows| ==> rows[k] == rows[1..][k - 1];
      if r.Some? then
        var k :| 0 <= k < |rows[1..]| && rows[1..][k] == r.value && r.value.name in names
                 && forall p :: 0 <= p < k ==> rows[1..][p].name !in names;
        assert rows[k + 1] == r.value;
        r
      else
        r
  }

  /** When the first row carries one of the names, it is the one found. */
  lemma FindNamedFirst(rows: seq<RoleRow>, names: set<string>)
    requires |rows| > 0 && rows[0].name in names
    ensures FindNamed(rows, names) == Some(rows[0])
  {
  }
}

=== FILE: service_pricing_form.dfy ===
/**
 * The service-pricing screen: the editable list of services of the selected organization, filled
 * one by one or from a category's templates, and the payload its submit posts.
 */
module ServicePricingForm {
  import opened Wrappers
  import ServicePricingRoute

  /** One editable service. Numeric inputs are read as numbers; an empty or unreadable input is `None`. */
  datatype ServiceRow = ServiceRow(
    organizationId: string,
    name: string,
    description: string,
    defaultRate: Option<real>,
    unitType: string,
    billingFrequency: string,
    category: string,
    priceRangeMin: Option<real>,
    priceRangeMax: Option<real>,
    isSystemDefault: bool,
    marketReference: string,
    isActive: bool,
    isRecurring: bool,
    billingCycleDays: Option<real>,
    autoBillingEnabled: bool,
    serviceTier: string,
    requiresApproval: bool,
    maxTasksPerCycle: Option<real>)

  /** `defaultTransactionType`. */
  const DefaultTransactionType := ServiceRow(
    organizationId := "",
    name := "",
    description := "",
    defaultRate := Some(0.0),
    unitType := "hour",
    billingFrequency := "session",
    category := "training",
    priceRangeMin := Some(0.0),
    priceRangeMax := Some(0.0),
    isSystemDefault := false,
    marketReference := "",
    isActive := true,
    isRecurring := false,
    billingCycleDays := Some(0.0),
    autoBillingEnabled := false,
    serviceTier := "standard",
    requiresApproval := false,
    maxTasksPerCycle := Some(0.0))

  /** A service template: the fields it sets; `isRecurring` only where the template gives it. */
  datatype ServiceTemplate = ServiceTemplate(
    name: string,
    defaultRate: real,
    unitType: string,
    billingFrequency: string,
    serviceTier: string,
    isRecurring: Option<bool>)

  function Session(name: string, rate: real, unit: string, tier: string): ServiceTemplate {
    ServiceTemplate(name, rate, unit, "session", tier, None)
  }

  function PerEvent(name: string, rate: real, unit: string, tier: string): ServiceTemplate {
    ServiceTemplate(name, rate, unit, "per_event", tier, None)
  }

  /** `TransactionCategory`: the categories a service can be filed under, each with its templates. */
  datatype Category = Training | Boarding | Veterinary | Grooming | Farrier | Feed | Medicine | Transportation | Other

  /** The category's value in the form and the payload. */
  function CategoryName(c: Category): (s: string)
    ensures |s| > 0
  {
    match c
    case Training => "training"
    case Boarding => "boarding"
    case Veterinary => "veterinary"
    case Grooming => "grooming"
    case Farrier => "farrier"
    case Feed => "feed"
    case Medicine => "medicine"
    case Transportation => "transportation"
    case Other => "other"
  }

  /** `serviceTemplates[category]`. */
  function ServiceTemplates(c: Category): seq<ServiceTemplate> {
    match c
    case Training =>
      [Session("Basic Training Session", 75.0, "hour", "standard"),
       Session("Advanced Training Session", 100.0, "hour", "premium"),
       Session("Group Training Session", 50.0, "hour", "basic"),
       Session("Competition Preparation", 125.0, "hour", "premium")]
    case Boarding =>
      [ServiceTemplate("Full Board", 600.0, "month", "monthly", "standard", Some(true)),
       ServiceTemplate("Pasture Board", 300.0, "month", "monthly", "basic", Some(true)),
       ServiceTemplate("Training Board", 1200.0, "month", "monthly", "premium", Some(true))]
    case Grooming =>
      [Session("Basic Grooming", 35.0, "session", "basic"),
       Session("Full Grooming Service", 60.0, "session", "standard"),
       Session("Show Preparation", 100.0, "session", "premium")]
    case Veterinary =>
      [PerEvent("Routine Check-up", 150.0, "event", "standard"),
       PerEvent("Emergency Call", 300.0, "event", "standard"),
       PerEvent("Vaccination", 75.0, "event", "basic")]
    case Farrier =>
      [PerEvent("Trim Only", 45.0, "event", "basic"),
       PerEvent("Shoe (4 shoes)", 120.0, "event", "standard"),
       PerEvent("Corrective Shoeing", 180.0, "event", "premium")]
    case Feed =>
      [PerEvent("Hay (per bale)", 12.0, "fixed", "basic"),
       PerEvent("Grain (per bag)", 25.0, "fixed", "basic"),
       ServiceTemplate("Supplements", 50.0, "month", "monthly", "standard", None)]
    case Medicine =>
      [PerEvent("Deworming", 25.0, "event", "basic"),
       PerEvent("Joint Injection", 200.0, "event", "premium"),
       ServiceTemplate("Medication Administration", 15.0, "task", "per_task", "basic", None)]
    case Transportation =>
      [PerEvent("Local Transport", 2.0, "fixed", "standard"),
       PerEvent("Long Distance Transport", 5.0, "fixed", "standard"),
       PerEvent("Emergency Transport", 10.0, "fixed", "premium")]
    case Other =>
      [Session("General Service", 50.0, "hour", "standard")]
  }

  /** A template is complete: a name, a unit, a billing frequency and a rate of at least 0. */
  predicate TemplateComplete(t: ServiceTemplate) {
    t.defaultRate >= 0.0 && |t.name| > 0 && |t.unitType| > 0 && |t.billingFrequency| > 0
  }

  /** Every category has templates, and every template is complete. */
  lemma TemplatesWellFormed(c: Category)
    ensures |ServiceTemplates(c)| > 0
    ensures forall k :: 0 <= k < |ServiceTemplates(c)| ==> TemplateComplete(ServiceTemplates(c)[k])
  {
  }

  /** `{ ...defaultTransactionType, ...template }`: the template's fields over the defaults. */
  function FromTemplate(t: ServiceTemplate): (r: ServiceRow)
    ensures r.name == t.name && r.defaultRate == Some(t.defaultRate) && r.unitType == t.unitType
    ensures r.billingFrequency == t.billingFrequency && r.serviceTier == t.serviceTier
    ensures r.isRecurring == t.isRecurring.GetOr(DefaultTransactionType.isRecurring)
    ensures r.(name := "", defaultRate := Some(0.0), unitType := "hour", billingFrequency := "session",
               serviceTier := "standard", isRecurring := false) == DefaultTransactionType
  {
    DefaultTransactionType.(
      name := t.name,
      defaultRate := Some(t.defaultRate),
      unitType := t.unitType,
      billingFrequency := t.billingFrequency,
      serviceTier := t.serviceTier,
      isRecurring := t.isRecurring.GetOr(DefaultTransactionType.isRecurring))
  }

  /** The rows `addTemplateServices(category)` appends: each template in order, with the category and the organization forced. */
  function TemplateRows(category: Category, selectedOrganizationId: Option<string>): (rows: seq<ServiceRow>)
    ensures |rows| == |ServiceTemplates(category)|
  {
    var ts := ServiceTemplates(category);
    seq(|ts|, k requires 0 <= k < |ts| =>
      FromTemplate(ts[k]).(category := CategoryName(category), organizationId := OrElse(selectedOrganizationId, "")))
  }

  /** The form's list of services, for the organization the screen was opened with. */
  class PricingForm {
    var rows: seq<ServiceRow>
    const selectedOrganizationId: Option<string>

    /** The form starts with one default service for the selected organization. */
    constructor (selectedOrganizationId: Option<string>)
      ensures this.selectedOrganizationId == selectedOrganizationId
      ensures rows == [DefaultTransactionType.(organizationId := OrElse(selectedOrganizationId, ""))]
      ensures |rows| >= 1
    {
      this.selectedOrganizationId := selectedOrganizationId;
      rows := [DefaultTransactionType.(organizationId := OrElse(selectedOrganizationId, ""))];
    }

    /** `addNewService()`: one default service for the selected organization, or for none (''). */
    method AddNewService()
      modifies this
      ensures rows == old(rows) + [DefaultTransactionType.(organizationId := OrElse(selectedOrganizationId, ""))]
      ensures |rows| >= 1
    {
      rows := rows + [DefaultTransactionType.(organizationId := OrElse(selectedOrganizationId, ""))];
    }

    /** `addTemplateServices(category)`: appends the category's templates one by one; `added` is the count the toast reports. */
    method AddTemplateServices(category: Category) returns (added: nat)
      modifies this
      ensures rows == old(rows) + TemplateRows(category, selectedOrganizationId)
      ensures added == |ServiceTemplates(category)|
      ensures |rows| >= 1
    {
      var templates := ServiceTemplates(category);
      var i := 0;
      while i < |templates|
        invariant 0 <= i <= |templates|
        invariant rows == old(rows) + TemplateRows(category, selectedOrganizationId)[..i]
      {
        rows := rows + [FromTemplate(templates[i]).(category := CategoryName(category), organizationId := OrElse(selectedOrganizationId, ""))];
        assert TemplateRows(category, selectedOrganizationId)[..i + 1]
            == TemplateRows(category, selectedOrganizationId)[..i] + [TemplateRows(category, selectedOrganizationId)[i]];
        i := i + 1;
      }
      assert TemplateRows(category, selectedOrganizationId)[..i] == TemplateRows(category, selectedOrganizationId);
      added := |templates|;
    }

    /**
     * `remove(index)`: the service at `index` leaves the list; the others keep their order. The
     * remove button is shown only while there is more than one service, so the list never empties.
     */
    method RemoveService(index: nat)
      requires |rows| > 1 && index < |rows|
      modifies this
      ensures rows == old(rows[..index]) + old(rows[index + 1..])
      ensures |rows| >= 1
    {
      rows := rows[..index] + rows[index + 1..];
    }
  }

  /** Templating appends exactly the category's templates and keeps every existing row in place. */
  lemma TemplateRowsAppended(before: seq<ServiceRow>, category: Category, selectedOrganizationId: Option<string>)
    ensures var after := before + TemplateRows(category, selectedOrganizationId);
            && |after| == |before| + |ServiceTemplates(category)|
            && after[..|before|] == before
            && forall k :: 0 <= k < |ServiceTemplates(category)| ==>
                 && after[|before| + k].category == CategoryName(category)
                 && after[|before| + k].organizationId == OrElse(selectedOrganizationId, "")
                 && after[|before| + k].name == ServiceTemplates(category)[k].name
                 && after[|before| + k].defaultRate == Some(ServiceTemplates(category)[k].defaultRate)
                 && after[|before| + k].description == DefaultTransactionType.description
                 && after[|before| + k].priceRangeMin == DefaultTransactionType.priceRangeMin
                 && after[|before| + k].priceRangeMax == DefaultTransactionType.priceRangeMax
  {
    var after := before + TemplateRows(category, selectedOrganizationId);
    assert after[..|before|] == before;
  }

  /** One service as posted: numeric fields become `Number(x) || 0`, the organization is the selection. */
  function Coerce(organizationId: string, s: ServiceRow): (t: ServicePricingRoute.TransactionTypeInput)
    ensures t.organizationId == Some(organizationId)
    ensures t.defaultRate == Some(NumberOr(s.defaultRate, 0.0))
    ensures t.priceRangeMin == Some(NumberOr(s.priceRangeMin, 0.0))
    ensures t.priceRangeMax == Some(NumberOr(s.priceRangeMax, 0.0))
    ensures t.billingCycleDays == Some(NumberOr(s.billingCycleDays, 0.0))
    ensures t.maxTasksPerCycle == Some(NumberOr(s.maxTasksPerCycle, 0.0))
    ensures t.name == Some(s.name) && t.category == Some(s.category)
    ensures t.unitType == Some(s.unitType) && t.billingFrequency == Some(s.billingFrequency)
  {
    ServicePricingRoute.TransactionTypeInput(
      organizationId := Some(organizationId),
      name := Some(s.name),
      description := Some(s.description),
      defaultRate := Some(NumberOr(s.defaultRate, 0.0)),
      unitType := Some(s.unitType),
      billingFrequency := Some(s.billingFrequency),
      category := Some(s.category),
      priceRangeMin := Some(NumberOr(s.priceRangeMin, 0.0)),
      priceRangeMax := Some(NumberOr(s.priceRangeMax, 0.0)),
      isSystemDefault := Some(s.isSystemDefault),
      marketReference := Some(s.marketReference),
      isActive := Some(s.isActive),
      isRecurring := Some(s.isRecurring),
      billingCycleDays := Some(NumberOr(s.billingCycleDays, 0.0)),
      autoBillingEnabled := Some(s.autoBillingEnabled),
      serviceTier := Some(s.serviceTier),
      requiresApproval := Some(s.requiresApproval),
      maxTasksPerCycle := Some(NumberOr(s.maxTasksPerCycle, 0.0)))
  }

  /** The submit: refused (None) without a selected organization, otherwise the posted request. */
  function SubmitRequest(selectedOrganizationId: Option<string>, rows: seq<ServiceRow>): (r: Option<ServicePricingRoute.PricingRequest>)
    ensures r.None? <==> !Truthy(selectedOrganizationId)
    ensures r.Some? ==> r.value.organizationId == selectedOrganizationId
    ensures r.Some? ==> r.value.transactionTypes.Some? && |r.value.transactionTypes.value| == |rows|
    ensures r.Some? ==> forall k :: 0 <= k < |rows| ==> r.value.transactionTypes.value[k] == Coerce(selectedOrganizationId.value, rows[k])
  {
    if !Truthy(selectedOrganizationId) then None
    else
      var org := selectedOrganizationId.value;
      Some(ServicePricingRoute.PricingRequest(Some(org), Some(seq(|rows|, k requires 0 <= k < |rows| => Coerce(org, rows[k])))))
  }

  /** After the coercion a rate is never absent: an empty, unreadable or zero input is posted as 0, which the route accepts. */
  lemma CoercedRateAccepted(organizationId: string, s: ServiceRow)
    requires s.defaultRate.None? || s.defaultRate.value >= 0.0
    ensures !ServicePricingRoute.Fails(Coerce(organizationId, s), ServicePricingRoute.RateInvalid)
  {
  }

  /**
   * A templated service passes every check of the route unchanged: the template names it and
   * gives its unit, billing frequency and a rate of at least 0, and both price bounds post as 0.
   */
  lemma TemplateRowsPassRoute(category: Category, selectedOrganizationId: Option<string>, k: nat)
    requires Truthy(selectedOrganizationId)
    requires k < |ServiceTemplates(category)|
    ensures ServicePricingRoute.FailedChecks(Coerce(selectedOrganizationId.value, TemplateRows(category, selectedOrganizationId)[k])) == []
  {
    TemplatesWellFormed(category);
    var template := ServiceTemplates(category)[k];
    assert TemplateComplete(template);
    var row := TemplateRows(category, selectedOrganizationId)[k];
    assert row == FromTemplate(template).(category := CategoryName(category), organizationId := OrElse(selectedOrganizationId, ""));
    var t := Coerce(selectedOrganizationId.value, row);
    assert t.priceRangeMin == Some(0.0) && t.priceRangeMax == Some(0.0);
    assert t.defaultRate == Some(template.defaultRate) || t.defaultRate == Some(0.0);
  }
}

=== FILE: service_pricing_route.dfy ===
/**
 * POST /api/business-setup/service-pricing: validates a batch of transaction types (billable
 * services) for one organization and inserts them normalised.
 */
module ServicePricingRoute {
  import opened Wrappers
  import opened Text
  import Batch

  /** One posted transaction type, as loosely typed JSON: any field may be absent. */
  datatype TransactionTypeInput = TransactionTypeInput(
    organizationId: Option<string>,
    name: Option<string>,
    description: Option<string>,
    defaultRate: Option<real>,
    unitType: Option<string>,
    billingFrequency: Option<string>,
    category: Option<string>,
    priceRangeMin: Option<real>,
    priceRangeMax: Option<real>,
    isSystemDefault: Option<bool>,
    marketReference: Option<string>,
    isActive: Option<bool>,
    isRecurring: Option<bool>,
    billingCycleDays: Option<real>,
    autoBillingEnabled: Option<bool>,
    serviceTier: Option<string>,
    requiresApproval: Option<bool>,
    maxTasksPerCycle: Option<real>)

  datatype PricingRequest = PricingRequest(organizationId: Option<string>, transactionTypes: Option<seq<TransactionTypeInput>>)

  /** The row written to the transaction_types table. */
  datatype TransactionTypeRow = TransactionTypeRow(
    organizationId: string,
    createdAt: string,
    updatedAt: string,
    name: Option<string>,
    description: Option<string>,
    unitType: Option<string>,
    billingFrequency: Option<string>,
    category: Option<string>,
    marketReference: Option<string>,
    serviceTier: Option<string>,
    defaultRate: Option<real>,
    priceRangeMin: Option<real>,
    priceRangeMax: Option<real>,
    billingCycleDays: real,
    maxTasksPerCycle: real,
    isActive: bool,
    isSystemDefault: bool,
    isRecurring: bool,
    autoBillingEnabled: bool,
    requiresApproval: bool)

  /** The per-item checks, in the order the route runs them. */
  datatype PricingCheck =
    | NameMissing | CategoryMissing | UnitTypeMissing | BillingFrequencyMissing
    | RateInvalid | MinNegative | MaxNegative | MinAboveMax

  function Rank(c: PricingCheck): nat {
    match c
    case NameMissing => 0
    case CategoryMissing => 1
    case UnitTypeMissing => 2
    case BillingFrequencyMissing => 3
    case RateInvalid => 4
    case MinNegative => 5
    case MaxNegative => 6
    case MinAboveMax => 7
  }

  function Message(c: PricingCheck): string {
    match c
    case NameMissing => "Name is required"
    case CategoryMissing => "Category is required"
    case UnitTypeMissing => "Unit type is required"
    case BillingFrequencyMissing => "Billing frequency is required"
    case RateInvalid => "Default rate must be non-negative"
    case MinNegative => "Price range min must be non-negative"
    case MaxNegative => "Price range max must be non-negative"
    case MinAboveMax => "Price range min cannot be greater than max"
  }

  /** The message pushed for one failed check: the item's 1-based position, then the check. */
  function Render(e: Batch.ItemError<PricingCheck>): string {
    "Transaction type " + NatToString(e.index) + ": " + Message(e.check)
  }

  /** The condition under which check `c` fails for `t`. */
  predicate Fails(t: TransactionTypeInput, c: PricingCheck) {
    match c
    case NameMissing => !Truthy(t.name)
    case CategoryMissing => !Truthy(t.category)
    case UnitTypeMissing => !Truthy(t.unitType)
    case BillingFrequencyMissing => !Truthy(t.billingFrequency)
    case RateInvalid => t.defaultRate.None? || t.defaultRate.value < 0.0
    case MinNegative => t.priceRangeMin.Some? && t.priceRangeMin.value < 0.0
    case MaxNegative => t.priceRangeMax.Some? && t.priceRangeMax.value < 0.0
    case MinAboveMax => t.priceRangeMin.Some? && t.priceRangeMax.Some? && t.priceRangeMin.value > t.priceRangeMax.value
  }

  /** The failed checks of one item, in check order. */
  function FailedChecks(t: TransactionTypeInput): seq<PricingCheck> {
    Batch.Flag(Fails(t, NameMissing), NameMissing)
    + Batch.Flag(Fails(t, CategoryMissing), CategoryMissing)
    + Batch.Flag(Fails(t, UnitTypeMissing), UnitTypeMissing)
    + Batch.Flag(Fails(t, BillingFrequencyMissing), BillingFrequencyMissing)
    + Batch.Flag(Fails(t, RateInvalid), RateInvalid)
    + Batch.Flag(Fails(t, MinNegative), MinNegative)
    + Batch.Flag(Fails(t, MaxNegative), MaxNegative)
    + Batch.Flag(Fails(t, MinAboveMax), MinAboveMax)
  }

  /** A check is listed for an item exactly when it fails. */
  lemma FailedChecksIff(t: TransactionTypeInput, c: PricingCheck)
    ensures c in FailedChecks(t) <==> Fails(t, c)
  {
    var f := FailedChecks(t);
    match c
    case NameMissing => assert c in f <==> c in Batch.Flag(Fails(t, c), c);
    case CategoryMissing => assert c in f <==> c in Batch.Flag(Fails(t, c), c);
    case UnitTypeMissing => assert c in f <==> c in Batch.Flag(Fails(t, c), c);
    case BillingFrequencyMissing => assert c in f <==> c in Batch.Flag(Fails(t, c), c);
    case RateInvalid => assert c in f <==> c in Batch.Flag(Fails(t, c), c);
    case MinNegative => assert c in f <==> c in Batch.Flag(Fails(t, c), c);
    case MaxNegative => assert c in f <==> c in Batch.Flag(Fails(t, c), c);
    case MinAboveMax => assert c in f <==> c in Batch.Flag(Fails(t, c), c);
  }

  /** Checks CategoryMissing, UnitTypeMissing, BillingFrequencyMissing, RateInvalid keep a ranked prefix ranked. */
  lemma RankedThroughRateInvalid(found: seq<PricingCheck>, bound: nat, t: TransactionTypeInput)
    requires Batch.RankedBelow(found, Rank, bound) && bound <= Rank(CategoryMissing)
    ensures Batch.RankedBelow(found
      + Batch.Flag(Fails(t, CategoryMissing), CategoryMissing)
      + Batch.Flag(Fails(t, UnitTypeMissing), UnitTypeMissing)
      + Batch.Flag(Fails(t, BillingFrequencyMissing), BillingFrequencyMissing)
      + Batch.Flag(Fails(t, RateInvalid), RateInvalid), Rank, Rank(RateInvalid) + 1)
  {
    var g0 := found;
    Batch.FlagRanked(g0, bound, Fails(t, CategoryMissing), CategoryMissing, Rank);
    var g1 := g0 + Batch.Flag(Fails(t, CategoryMissing), CategoryMissing);
    Batch.FlagRanked(g1, Rank(CategoryMissing) + 1, Fails(t, UnitTypeMissing), UnitTypeMissing, Rank);
    var g2 := g1 + Batch.Flag(Fails(t, UnitTypeMissing), UnitTypeMissing);
    Batch.FlagRanked(g2, Rank(UnitTypeMissing) + 1, Fails(t, BillingFrequencyMissing), BillingFrequencyMissing, Rank);
    var g3 := g2 + Batch.Flag(Fails(t, BillingFrequencyMissing), BillingFrequencyMissing);
    Batch.FlagRanked(g3, Rank(BillingFrequencyMissing) + 1, Fails(t, RateInvalid), RateInvalid, Rank);
  }

  /** Checks MinNegative, MaxNegative, MinAboveMax keep a ranked prefix ranked. */
  lemma RankedThroughMinAboveMax(found: seq<PricingCheck>, bound: nat, t: TransactionTypeInput)
    requires Batch.RankedBelow(found, Rank, bound) && bound <= Rank(MinNegative)
    ensures Batch.RankedBelow(found
      + Batch.Flag(Fails(t, MinNegative), MinNegative)
      + Batch.Flag(Fails(t, MaxNegative), MaxNegative)
      + Batch.Flag(Fails(t, MinAboveMax), MinAboveMax), Rank, Rank(MinAboveMax) + 1)
  {
    var g0 := found;
    Batch.FlagRanked(g0, bound, Fails(t, MinNegative), MinNegative, Rank);
    var g1 := g0 + Batch.Flag(Fails(t, MinNegative), MinNegative);
    Batch.FlagRanked(g1, Rank(MinNegative) + 1, Fails(t, MaxNegative), MaxNegative, Rank);
    var g2 := g1 + Batch.Flag(Fails(t, MaxNegative), MaxNegative);
    Batch.FlagRanked(g2, Rank(MaxNegative) + 1, Fails(t, MinAboveMax), MinAboveMax, Rank);
  }

  /** An item's failed checks come in the order the route runs them. */
  lemma FailedChecksRanked(t: TransactionTypeInput)
    ensures Batch.Ranked(FailedChecks(t), Rank)
  {
    Batch.FlagRankedFirst(Fails(t, NameMissing), NameMissing, Rank);
    var f0 := Batch.Flag(Fails(t, NameMissing), NameMissing);
    RankedThroughRateInvalid(f0, Rank(NameMissing) + 1, t);
    var f1 := f0 + Batch.Flag(Fails(t, CategoryMissing), CategoryMissing) + Batch.Flag(Fails(t, UnitTypeMissing), UnitTypeMissing) + Batch.Flag(Fails(t, BillingFrequencyMissing), BillingFrequencyMissing) + Batch.Flag(Fails(t, RateInvalid), RateInvalid);
    RankedThroughMinAboveMax(f1, Rank(RateInvalid) + 1, t);
    var f2 := f1 + Batch.Flag(Fails(t, MinNegative), MinNegative) + Batch.Flag(Fails(t, MaxNegative), MaxNegative) + Batch.Flag(Fails(t, MinAboveMax), MinAboveMax);
    Batch.RankedBelowRanked(f2, Rank, Rank(MinAboveMax) + 1);
  }

  /** The error strings the route reports for a batch. */
  function ValidationErrors(items: seq<TransactionTypeInput>): seq<string> {
    Batch.Rendered(Batch.Errors(items, FailedChecks), Render)
  }

  /** Appending one item's report to the messages so far, check by check. */
  lemma ItemReport(acc: seq<string>, index: nat, t: TransactionTypeInput)
    ensures acc + Batch.Rendered(Batch.Tagged(index, FailedChecks(t)), Render)
         == acc
          + Batch.Flag(Fails(t, NameMissing), Render(Batch.ItemError(index, NameMissing)))
          + Batch.Flag(Fails(t, CategoryMissing), Render(Batch.ItemError(index, CategoryMissing)))
          + Batch.Flag(Fails(t, UnitTypeMissing), Render(Batch.ItemError(index, UnitTypeMissing)))
          + Batch.Flag(Fails(t, BillingFrequencyMissing), Render(Batch.ItemError(index, BillingFrequencyMissing)))
          + Batch.Flag(Fails(t, RateInvalid), Render(Batch.ItemError(index, RateInvalid)))
          + Batch.Flag(Fails(t, MinNegative), Render(Batch.ItemError(index, MinNegative)))
          + Batch.Flag(Fails(t, MaxNegative), Render(Batch.ItemError(index, MaxNegative)))
          + Batch.Flag(Fails(t, MinAboveMax), Render(Batch.ItemError(index, MinAboveMax)))
  {
    var f1 := Batch.Flag(Fails(t, NameMissing), NameMissing);
    var f2 := f1 + Batch.Flag(Fails(t, CategoryMissing), CategoryMissing);
    var f3 := f2 + Batch.Flag(Fails(t, UnitTypeMissing), UnitTypeMissing);
    var f4 := f3 + Batch.Flag(Fails(t, BillingFrequencyMissing), BillingFrequencyMissing);
    var f5 := f4 + Batch.Flag(Fails(t, RateInvalid), RateInvalid);
    var f6 := f5 + Batch.Flag(Fails(t, MinNegative), MinNegative);
    var f7 := f6 + Batch.Flag(Fails(t, MaxNegative), MaxNegative);
    Batch.TaggedFlag(index, Fails(t, NameMissing), NameMissing, Render);
    Batch.TaggedAppend(index, f1, Batch.Flag(Fails(t, CategoryMissing), CategoryMissing), Render);
    Batch.TaggedFlag(index, Fails(t, CategoryMissing), CategoryMissing, Render);
    Batch.TaggedAppend(index, f2, Batch.Flag(Fails(t, UnitTypeMissing), UnitTypeMissing), Render);
    Batch.TaggedFlag(index, Fails(t, UnitTypeMissing), UnitTypeMissing, Render);
    Batch.TaggedAppend(index, f3, Batch.Flag(Fails(t, BillingFrequencyMissing), BillingFrequencyMissing), Render);
    Batch.TaggedFlag(index, Fails(t, BillingFrequencyMissing), BillingFrequencyMissing, Render);
    Batch.TaggedAppend(index, f4, Batch.Flag(Fails(t, RateInvalid), RateInvalid), Render);
    Batch.TaggedFlag(index, Fails(t, RateInvalid), RateInvalid, Render);
    Batch.TaggedAppend(index, f5, Batch.Flag(Fails(t, MinNegative), MinNegative), Render);
    Batch.TaggedFlag(index, Fails(t, MinNegative), MinNegative, Render);
    Batch.TaggedAppend(index, f6, Batch.Flag(Fails(t, MaxNegative), MaxNegative), Render);
    Batch.TaggedFlag(index, Fails(t, MaxNegative), MaxNegative, Render);
    Batch.TaggedAppend(index, f7, Batch.Flag(Fails(t, MinAboveMax), MinAboveMax), Render);
    Batch.TaggedFlag(index, Fails(t, MinAboveMax), MinAboveMax, Render);
    var m1 := Batch.Flag(Fails(t, NameMissing), Render(Batch.ItemError(index, NameMissing)));
    var m2 := m1 + Batch.Flag(Fails(t, CategoryMissing), Render(Batch.ItemError(index, CategoryMissing)));
    var m3 := m2 + Batch.Flag(Fails(t, UnitTypeMissing), Render(Batch.ItemError(index, UnitTypeMissing)));
    var m4 := m3 + Batch.Flag(Fails(t, BillingFrequencyMissing), Render(Batch.ItemError(index, BillingFrequencyMissing)));
    var m5 := m4 + Batch.Flag(Fails(t, RateInvalid), Render(Batch.ItemError(index, RateInvalid)));
    var m6 := m5 + Batch.Flag(Fails(t, MinNegative), Render(Batch.ItemError(index, MinNegative)));
    var m7 := m6 + Batch.Flag(Fails(t, MaxNegative), Render(Batch.ItemError(index, MaxNegative)));
    Batch.AppendAssociative(acc, m7, Batch.Flag(Fails(t, MinAboveMax), Render(Batch.ItemError(index, MinAboveMax))));
    Batch.AppendAssociative(acc, m6, Batch.Flag(Fails(t, MaxNegative), Render(Batch.ItemError(index, MaxNegative))));
    Batch.AppendAssociative(acc, m5, Batch.Flag(Fails(t, MinNegative), Render(Batch.ItemError(index, MinNegative))));
    Batch.AppendAssociative(acc, m4, Batch.Flag(Fails(t, RateInvalid), Render(Batch.ItemError(index, RateInvalid))));
    Batch.AppendAssociative(acc, m3, Batch.Flag(Fails(t, BillingFrequencyMissing), Render(Batch.ItemError(index, BillingFrequencyMissing))));
    Batch.AppendAssociative(acc, m2, Batch.Flag(Fails(t, UnitTypeMissing), Render(Batch.ItemError(index, UnitTypeMissing))));
    Batch.AppendAssociative(acc, m1, Batch.Flag(Fails(t, CategoryMissing), Render(Batch.ItemError(index, CategoryMissing))));
  }

  /** The `forEach` validation pass: the messages of item 1, then of item 2, and so on. */
  method CollectErrors(items: seq<TransactionTypeInput>) returns (errors: seq<string>)
    ensures errors == ValidationErrors(items)
  {
    errors := [];
    var i := 0;
    while i < |items|
      invariant 0 <= i <= |items|
      invariant errors == ValidationErrors(items[..i])
    {
      var t := items[i];
      var index := i + 1;
      ghost var before := errors;
      errors := Batch.Push(errors, Fails(t, NameMissing), Render(Batch.ItemError(index, NameMissing)));
      errors := Batch.Push(errors, Fails(t, CategoryMissing), Render(Batch.ItemError(index, CategoryMissing)));
      errors := Batch.Push(errors, Fails(t, UnitTypeMissing), Render(Batch.ItemError(index, UnitTypeMissing)));
      errors := Batch.Push(errors, Fails(t, BillingFrequencyMissing), Render(Batch.ItemError(index, BillingFrequencyMissing)));
      errors := Batch.Push(errors, Fails(t, RateInvalid), Render(Batch.ItemError(index, RateInvalid)));
      errors := Batch.Push(errors, Fails(t, MinNegative), Render(Batch.ItemError(index, MinNegative)));
      errors := Batch.Push(errors, Fails(t, MaxNegative), Render(Batch.ItemError(index, MaxNegative)));
      errors := Batch.Push(errors, Fails(t, MinAboveMax), Render(Batch.ItemError(index, MinAboveMax)));
      ItemReport(before, index, t);
      Batch.RenderedErrorsStep(items, i, FailedChecks, Render);
      i := i + 1;
    }
    assert items[..i] == items;
  }

  /** The error list is empty exactly when every item passes every check. */
  lemma ValidationErrorsEmptyIff(items: seq<TransactionTypeInput>)
    ensures ValidationErrors(items) == [] <==>
            forall i, c :: 0 <= i < |items| ==> !Fails(items[i], c)
  {
    Batch.ErrorsEmptyIff(items, FailedChecks);
    assert |ValidationErrors(items)| == |Batch.Errors(items, FailedChecks)|;
    if !forall i, c :: 0 <= i < |items| ==> !Fails(items[i], c) {
      var i, c :| 0 <= i < |items| && Fails(items[i], c);
      FailedChecksIff(items[i], c);
    }
  }

  /** The report lists item 1's failures first, and each item's failures in check order. */
  lemma ValidationErrorsInOrder(items: seq<TransactionTypeInput>)
    ensures Batch.InReportOrder(Batch.Errors(items, FailedChecks), Rank)
  {
    forall i | 0 <= i < |items| ensures Batch.Ranked(FailedChecks(items[i]), Rank) {
      FailedChecksRanked(items[i]);
    }
    Batch.ErrorsInReportOrder(items, FailedChecks, Rank);
  }

  /** A failure is reported exactly when the item at that 1-based position fails that check. */
  lemma ReportedIffFails(items: seq<TransactionTypeInput>, e: Batch.ItemError<PricingCheck>)
    ensures e in Batch.Errors(items, FailedChecks) <==> 1 <= e.index <= |items| && Fails(items[e.index - 1], e.check)
  {
    Batch.ErrorsIndexed(items, FailedChecks, e);
    if 1 <= e.index <= |items| {
      FailedChecksIff(items[e.index - 1], e.check);
    }
  }

  /** Every message names a position between 1 and the number of items and a check that failed there. */
  lemma MessageTagged(items: seq<TransactionTypeInput>, p: nat)
    requires p < |ValidationErrors(items)|
    ensures var e := Batch.Errors(items, FailedChecks)[p];
            && 1 <= e.index <= |items|
            && Fails(items[e.index - 1], e.check)
            && ValidationErrors(items)[p] == "Transaction type " + NatToString(e.index) + ": " + Message(e.check)
  {
    var errors := Batch.Errors(items, FailedChecks);
    var e := errors[p];
    assert e in errors;
    ReportedIffFails(items, e);
    assert ValidationErrors(items)[p] == Render(e);
  }

  /** The `map` that prepares one validated item for insertion. */
  function Normalise(organizationId: string, now: string, t: TransactionTypeInput): TransactionTypeRow {
    TransactionTypeRow(
      organizationId := organizationId,
      createdAt := now,
      updatedAt := now,
      name := t.name,
      description := t.description,
      unitType := t.unitType,
      billingFrequency := t.billingFrequency,
      category := t.category,
      marketReference := t.marketReference,
      serviceTier := t.serviceTier,
      defaultRate := t.defaultRate,
      priceRangeMin := NumberOrNull(t.priceRangeMin),
      priceRangeMax := NumberOrNull(t.priceRangeMax),
      billingCycleDays := NumberOr(t.billingCycleDays, 0.0),
      maxTasksPerCycle := NumberOr(t.maxTasksPerCycle, 0.0),
      isActive := ToBool(t.isActive),
      isSystemDefault := ToBool(t.isSystemDefault),
      isRecurring := ToBool(t.isRecurring),
      autoBillingEnabled := ToBool(t.autoBillingEnabled),
      requiresApproval := ToBool(t.requiresApproval))
  }

  function NormaliseAll(organizationId: string, now: string, items: seq<TransactionTypeInput>): seq<TransactionTypeRow> {
    seq(|items|, i requires 0 <= i < |items| => Normalise(organizationId, now, items[i]))
  }

  /** Each row carries the request's organization; a price bound of 0 or none becomes null; the
      cycle and task counts default to 0; the five flags are true only when given as true. */
  lemma NormaliseFields(organizationId: string, now: string, t: TransactionTypeInput)
    ensures var r := Normalise(organizationId, now, t);
            && r.organizationId == organizationId && r.createdAt == now && r.updatedAt == now
            && r.name == t.name && r.category == t.category && r.defaultRate == t.defaultRate
            && (r.priceRangeMin.None? <==> t.priceRangeMin.None? || t.priceRangeMin.value == 0.0)
            && (r.priceRangeMin.Some? ==> r.priceRangeMin == t.priceRangeMin)
            && (r.priceRangeMax.None? <==> t.priceRangeMax.None? || t.priceRangeMax.value == 0.0)
            && (r.priceRangeMax.Some? ==> r.priceRangeMax == t.priceRangeMax)
            && (r.billingCycleDays == 0.0 <==> t.billingCycleDays.None? || t.billingCycleDays.value == 0.0)
            && (r.billingCycleDays != 0.0 ==> t.billingCycleDays == Some(r.billingCycleDays))
            && (r.maxTasksPerCycle == 0.0 <==> t.maxTasksPerCycle.None? || t.maxTasksPerCycle.value == 0.0)
            && (r.maxTasksPerCycle != 0.0 ==> t.maxTasksPerCycle == Some(r.maxTasksPerCycle))
            && (r.isActive <==> t.isActive == Some(true))
            && (r.isSystemDefault <==> t.isSystemDefault == Some(true))
            && (r.isRecurring <==> t.isRecurring == Some(true))
            && (r.autoBillingEnabled <==> t.autoBillingEnabled == Some(true))
            && (r.requiresApproval <==> t.requiresApproval == Some(true))
  {
  }

  /** What the database may rely on for a stored transaction type. */
  predicate RowWellFormed(organizationId: string, r: TransactionTypeRow) {
    && r.organizationId == organizationId
    && Truthy(r.name) && Truthy(r.category) && Truthy(r.unitType) && Truthy(r.billingFrequency)
    && r.defaultRate.Some? && r.defaultRate.value >= 0.0
    && (r.priceRangeMin.Some? ==> r.priceRangeMin.value > 0.0)
    && (r.priceRangeMax.Some? ==> r.priceRangeMax.value > 0.0)
    && (r.priceRangeMin.Some? && r.priceRangeMax.Some? ==> r.priceRangeMin.value <= r.priceRangeMax.value)
  }

  /** A batch that passes validation normalises, row for row, into well-formed rows. */
  lemma ValidatedRowsWellFormed(organizationId: string, now: string, items: seq<TransactionTypeInput>)
    requires ValidationErrors(items) == []
    ensures |NormaliseAll(organizationId, now, items)| == |items|
    ensures forall i :: 0 <= i < |items| ==> RowWellFormed(organizationId, NormaliseAll(organizationId, now, items)[i])
  {
    ValidationErrorsEmptyIff(items);
    forall i | 0 <= i < |items|
      ensures RowWellFormed(organizationId, NormaliseAll(organizationId, now, items)[i])
    {
      var t := items[i];
      assert !Fails(t, NameMissing) && !Fails(t, CategoryMissing) && !Fails(t, UnitTypeMissing);
      assert !Fails(t, BillingFrequencyMissing) && !Fails(t, RateInvalid);
      assert !Fails(t, MinNegative) && !Fails(t, MaxNegative) && !Fails(t, MinAboveMax);
    }
  }

  const MissingOrganization := Batch.SetupResponse(400, false, "Organization ID is required", ["organization_id must be provided"], 0)
  const EmptyList := Batch.SetupResponse(400, false, "At least one transaction type is required", ["transaction_types array cannot be empty"], 0)

  /**
   * The whole handler. `insertError` is the database's answer to the insert (None: accepted);
   * `stored` is what ends up in the transaction_types table.
   */
  method Post(request: PricingRequest, now: string, insertError: Option<string>)
    returns (response: Batch.SetupResponse, stored: seq<TransactionTypeRow>)
    ensures response.success <==> response.status == 200
    ensures response.status != 200 ==> stored == [] && response.created == 0
    ensures response.status == 200 ==>
              && request.organizationId.Some?
              && forall i :: 0 <= i < |stored| ==> RowWellFormed(request.organizationId.value, stored[i])
    ensures !Truthy(request.organizationId) ==> response == MissingOrganization
    ensures Truthy(request.organizationId) && (request.transactionTypes.None? || request.transactionTypes == Some([]))
            ==> response == EmptyList
    ensures Truthy(request.organizationId) && request.transactionTypes.Some? && request.transactionTypes.value != [] ==>
            var items := request.transactionTypes.value;
            && (response.status == 400 <==> ValidationErrors(items) != [])
            && (ValidationErrors(items) != [] ==>
                  response == Batch.SetupResponse(400, false, "Validation errors found", ValidationErrors(items), 0))
            && (ValidationErrors(items) == [] && insertError.Some? ==>
                  response == Batch.SetupResponse(500, false, "Failed to insert transaction types into database", [insertError.value], 0))
            && (ValidationErrors(items) == [] && insertError.None? ==>
                  |stored| == |items| &&
                  (forall i :: 0 <= i < |items| ==> stored[i] == Normalise(request.organizationId.value, now, items[i])) &&
                  response == Batch.SetupResponse(200, true, "Successfully added " + NatToString(|stored|) + " transaction types", [], |stored|))
  {
    stored := [];
    if !Truthy(request.organizationId) {
      response := MissingOrganization;
      return;
    }
    if request.transactionTypes.None? || request.transactionTypes.value == [] {
      response := EmptyList;
      return;
    }
    var items := request.transactionTypes.value;
    var errors := CollectErrors(items);
    if errors != [] {
      response := Batch.SetupResponse(400, false, "Validation errors found", errors, 0);
      return;
    }
    ValidatedRowsWellFormed(request.organizationId.value, now, items);
    var rows := NormaliseAll(request.organizationId.value, now, items);
    if insertError.Some? {
      response := Batch.SetupResponse(500, false, "Failed to insert transaction types into database", [insertError.value], 0);
      return;
    }
    stored := rows;
    response := Batch.SetupResponse(200, true, "Successfully added " + NatToString(|stored|) + " transaction types", [], |stored|);
  }
}

=== FILE: text.dfy ===
/** String helpers: decimal rendering of counters and indices, ASCII lower-casing and substring search. */
module Text {
  import opened Wrappers

  predicate IsDigit(c: char) {
    '0' <= c <= '9'
  }

  predicate AllDigits(s: string) {
    forall i :: 0 <= i < |s| ==> IsDigit(s[i])
  }

  function DigitChar(d: nat): (c: char)
    requires d < 10
    ensures IsDigit(c)
  {
    (48 + d) as char
  }

  function DigitValue(c: char): nat
    requires IsDigit(c)
  {
    c as int - 48
  }

  /** The decimal rendering of `n`, as a JavaScript template literal prints a non-negative integer. */
  function NatToString(n: nat): (s: string)
    ensures |s| >= 1 && AllDigits(s)
    ensures (|s| == 1) <==> n < 10
  {
    if n < 10 then [DigitChar(n)] else NatToString(n / 10) + [DigitChar(n % 10)]
  }

  /** Reads a string of decimal digits back as a number. */
  function ParseNat(s: string): nat
    requires AllDigits(s)
  {
    if s == [] then 0 else ParseNat(s[..|s| - 1]) * 10 + DigitValue(s[|s| - 1])
  }

  /** The rendering can be read back: the index or count printed in a message is the one meant. */
  lemma {:induction false} ParseNatToString(n: nat)
    ensures ParseNat(NatToString(n)) == n
  {
    var s := NatToString(n);
    if n >= 10 {
      ParseNatToString(n / 10);
      assert s[..|s| - 1] == NatToString(n / 10);
    }
  }

  /** Different numbers print differently. */
  lemma NatToStringInjective(m: nat, n: nat)
    requires NatToString(m) == NatToString(n)
    ensures m == n
  {
    ParseNatToString(m);
    ParseNatToString(n);
  }

  /** `toLowerCase` on one character; only the ASCII letters are folded. */
  function LowerChar(c: char): char {
    if 'A' <= c <= 'Z' then (c as int + 32) as char else c
  }

  function ToLower(s: string): (r: string)
    ensures |r| == |s|
    ensures forall i :: 0 <= i < |s| ==> r[i] == LowerChar(s[i])
  {
    seq(|s|, i requires 0 <= i < |s| => LowerChar(s[i]))
  }

  /** Lower-casing twice is lower-casing once. */
  lemma ToLowerIdempotent(s: string)
    ensures ToLower(ToLower(s)) == ToLower(s)
  {
  }

  /** JavaScript `s.includes(t)`: `t` occurs somewhere in `s`. */
  predicate Contains(s: string, t: string)
    decreases |s|
  {
    t <= s || (s != [] && Contains(s[1..], t))
  }

  /** `t` sits at offset `k` of `s`. */
  predicate OccursAt(s: string, t: string, k: int) {
    0 <= k <= |s| - |t| && s[k..k + |t|] == t
  }

  /** `includes` as a position: `Contains` holds exactly when `t` sits at some offset of `s`. */
  lemma {:induction false} ContainsAt(s: string, t: string)
    ensures Contains(s, t) <==> exists k :: OccursAt(s, t, k)
    decreases |s|
  {
    if t <= s {
      assert OccursAt(s, t, 0);
    } else if s != [] {
      ContainsAt(s[1..], t);
      if exists k :: OccursAt(s, t, k) {
        var k :| OccursAt(s, t, k);
        assert k != 0;
        assert OccursAt(s[1..], t, k - 1);
      }
      if exists k :: OccursAt(s[1..], t, k) {
        var k :| OccursAt(s[1..], t, k);
        assert OccursAt(s, t, k + 1);
      }
    }
  }

  /** Every string includes the empty string. */
  lemma ContainsEmpty(s: string)
    ensures Contains(s, "")
  {
  }

  /** `field?.toLowerCase().includes(lowerTerm)`: an absent field matches nothing. */
  predicate FieldContains(field: Option<string>, lowerTerm: string) {
    field.Some? && Contains(ToLower(field.value), lowerTerm)
  }
}

=== FILE: trainer_setup.dfy ===
/**
 * The trainer wizard: a trainer account, a trainer organization, its four trainer roles and the
 * trainer's membership in the Head Trainer role, written one after the other.
 */
module TrainerSetup {
  import opened Wrappers
  import opened Backend
  import opened Roles
  import opened Forms

  /** The wizard's form. */
  datatype TrainerFormData = TrainerFormData(
    name: string,
    description: string,
    address: string,
    phone: string,
    email: string,
    website: string,
    ownerName: string,
    ownerEmail: string,
    ownerPassword: string)

  const DefaultTrainerRoles := [
    RoleTemplate("Head Trainer", ["manage_organization", "manage_horses", "assign_tasks"], "#007AFF"),
    RoleTemplate("Trainer", ["manage_horses", "assign_tasks"], "#34C759"),
    RoleTemplate("Assistant", ["view_assigned", "update_tasks"], "#FF9500"),
    RoleTemplate("Client", ["view_own_horses"], "#AF52DE")]

  /** The role rows: one per template entry, in order, without a description; `roleId(k)` is the k-th id drawn. */
  function TrainerRoleRows(organizationId: string, roleId: nat -> string): (rows: seq<RoleRow>)
    ensures |rows| == |DefaultTrainerRoles|
  {
    seq(|DefaultTrainerRoles|, k requires 0 <= k < |DefaultTrainerRoles| =>
      RoleRowFor(roleId(k), organizationId, None, DefaultTrainerRoles[k]))
  }

  /**
   * There are four rows, in template order, all of the organization; each flag is set exactly when
   * its permission is listed, and since no trainer role lists `view_all`, no row may view all horses.
   */
  lemma TrainerRoleRowsShape(organizationId: string, roleId: nat -> string)
    ensures var rows := TrainerRoleRows(organizationId, roleId);
            && |rows| == 4
            && forall k :: 0 <= k < |rows| ==>
                 && rows[k].id == roleId(k)
                 && rows[k].organizationId == organizationId
                 && rows[k].name == DefaultTrainerRoles[k].name
                 && rows[k].permissions == DefaultTrainerRoles[k].permissions
                 && rows[k].description.None?
                 && (rows[k].canAssignTasks <==> "assign_tasks" in rows[k].permissions)
                 && (rows[k].canManageHorses <==> "manage_horses" in rows[k].permissions)
                 && (rows[k].canManageOrganization <==> "manage_organization" in rows[k].permissions)
                 && !rows[k].canViewAllHorses
  {
    var rows := TrainerRoleRows(organizationId, roleId);
    forall k | 0 <= k < |rows|
      ensures "view_all" !in DefaultTrainerRoles[k].permissions
    {
      assert DefaultTrainerRoles[k] in DefaultTrainerRoles;
    }
  }

  /** `roles.find(r => r.name === 'Head Trainer')`. */
  function HeadTrainer(rows: seq<RoleRow>): Option<RoleRow> {
    FindNamed(rows, {"Head Trainer"})
  }

  /** The lookup finds the first role, the only one that may manage the organization. */
  lemma HeadTrainerIsFirstRole(organizationId: string, roleId: nat -> string)
    ensures HeadTrainer(TrainerRoleRows(organizationId, roleId)) == Some(TrainerRoleRows(organizationId, roleId)[0])
    ensures HeadTrainer(TrainerRoleRows(organizationId, roleId)).value.id == roleId(0)
    ensures TrainerRoleRows(organizationId, roleId)[0].canManageOrganization
  {
    var rows := TrainerRoleRows(organizationId, roleId);
    assert rows[0] == RoleRowFor(roleId(0), organizationId, None, DefaultTrainerRoles[0]);
    FindNamedFirst(rows, {"Head Trainer"});
  }

  /** `settings: { is_trainer: true, accepts_training_requests: true }`. */
  const TrainerOrganizationSettings := Settings(Some(true), Some(true), None)

  /** The organization row: always of type `trainer` on the premium tier, active, with one member. */
  function TrainerOrganizationRow(data: TrainerFormData, organizationId: string, ownerId: string): (r: OrganizationRow)
    ensures r.id == organizationId && r.ownerId == ownerId && r.name == data.name
    ensures r.orgType == "trainer" && r.subscriptionTier == "premium" && r.isActive && r.memberCount == 1
    ensures r.settings.isTrainer == Some(true) && r.settings.acceptsTrainingRequests == Some(true)
    ensures r.settings.trainingSpecializations.None?
  {
    OrganizationRow(
      id := organizationId,
      name := data.name,
      orgType := "trainer",
      description := data.description,
      ownerId := ownerId,
      address := data.address,
      phone := data.phone,
      email := data.email,
      website := data.website,
      settings := TrainerOrganizationSettings,
      subscriptionTier := "premium",
      isActive := true,
      memberCount := 1)
  }

  function TrainerAccount(data: TrainerFormData, userId: string): AuthUser {
    AuthUser(userId, data.ownerEmail, data.ownerPassword, true, data.ownerName, "trainer")
  }

  /** The ids the services hand out during one submit. */
  datatype TrainerIds = TrainerIds(userId: string, organizationId: string, roleId: nat -> string, memberId: string)

  /** The outcome of each of the four writes. */
  datatype TrainerVerdicts = TrainerVerdicts(user: Verdict, organization: Verdict, roles: Verdict, member: Verdict)

  /** How many of the first three writes take effect: they stop at the first rejected one. */
  function SetupWritesDone(v: TrainerVerdicts): (n: nat)
    ensures n <= 3
    ensures n == 3 <==> v.user.Accepted? && v.organization.Accepted? && v.roles.Accepted?
  {
    if v.user.Rejected? then 0
    else if v.organization.Rejected? then 1
    else if v.roles.Rejected? then 2
    else 3
  }

  /** The trainer's membership, in the Head Trainer role. */
  function TrainerMembership(ids: TrainerIds): MemberRow {
    MemberRow(ids.memberId, ids.organizationId, ids.userId, Some(ids.roleId(0)), true)
  }

  /** What the wizard remembers once it is done: the organization and the account. */
  datatype Created = Created(organization: OrganizationRow, user: AuthUser)

  /** The form rules, field by field. `minLength: 8` has no message of its own. */
  function TrainerFieldErrors(data: TrainerFormData): seq<FieldError> {
    Required("name", data.name, "Name is required")
    + Required("ownerName", data.ownerName, "Name is required")
    + Required("ownerEmail", data.ownerEmail, "Email is required")
    + RequiredThen("ownerPassword", data.ownerPassword, "Password is required", |data.ownerPassword| >= 8, "")
  }

  /** The form rules pass exactly when the two names and the e-mail are filled and the password has at least 8 characters. */
  lemma TrainerFieldErrorsEmptyIff(data: TrainerFormData)
    ensures TrainerFieldErrors(data) == [] <==>
              |data.name| > 0 && |data.ownerName| > 0 && |data.ownerEmail| > 0 && |data.ownerPassword| >= 8
  {
  }

  /**
   * Whether a click on the submit button reaches `handleSubmit`. The browser checks the two
   * `type="email"` inputs (the business e-mail and the trainer's e-mail) first and stops the submit
   * event when either holds a malformed value; `inputsValid` is that check's outcome.
   */
  predicate TrainerSubmits(data: TrainerFormData, inputsValid: bool) {
    inputsValid && TrainerFieldErrors(data) == []
  }

  /** A submit goes through exactly when the browser accepts both e-mails and every form rule holds. */
  lemma TrainerSubmitsIff(data: TrainerFormData, inputsValid: bool)
    ensures TrainerSubmits(data, inputsValid) <==>
              inputsValid && |data.name| > 0 && |data.ownerName| > 0 && |data.ownerEmail| > 0 && |data.ownerPassword| >= 8
  {
    TrainerFieldErrorsEmptyIff(data);
  }

  /** The wizard component: its React state, and the backend it writes to. */
  class TrainerWizard {
    var step: nat
    var loading: bool
    var created: Option<Created>
    const db: Database

    constructor (db: Database)
      ensures this.db == db && step == 1 && !loading && created.None?
    {
      this.db := db;
      step := 1;
      loading := false;
      created := None;
    }

    /** The account, the organization and the roles; each write runs only when the ones before it were accepted. */
    method CreateTrainerOrganization(data: TrainerFormData, ids: TrainerIds, v: TrainerVerdicts) returns (ok: bool)
      modifies db
      ensures ok <==> SetupWritesDone(v) == 3
      ensures db.users == old(db.users) + (if SetupWritesDone(v) >= 1 then [TrainerAccount(data, ids.userId)] else [])
      ensures db.organizations == old(db.organizations)
                + (if SetupWritesDone(v) >= 2 then [TrainerOrganizationRow(data, ids.organizationId, ids.userId)] else [])
      ensures db.roles == old(db.roles) + (if ok then TrainerRoleRows(ids.organizationId, ids.roleId) else [])
      ensures db.members == old(db.members) && db.profiles == old(db.profiles)
    {
      ok := db.CreateUser(TrainerAccount(data, ids.userId), v.user);
      if ok {
        ok := db.InsertOrganization(TrainerOrganizationRow(data, ids.organizationId, ids.userId), v.organization);
      }
      if ok {
        ok := db.InsertRoles(TrainerRoleRows(ids.organizationId, ids.roleId), v.roles);
      }
    }

    /**
     * `onSubmit`: once the account, the organization and the roles are stored, the membership insert
     * is issued and the wizard moves to step 2 whatever that insert's outcome. A rejected earlier
     * write leaves the step and `created` as they were and issues no later write.
     */
    method OnSubmit(data: TrainerFormData, ids: TrainerIds, v: TrainerVerdicts)
      modifies this, db
      ensures db.users == old(db.users) + (if SetupWritesDone(v) >= 1 then [TrainerAccount(data, ids.userId)] else [])
      ensures db.organizations == old(db.organizations)
                + (if SetupWritesDone(v) >= 2 then [TrainerOrganizationRow(data, ids.organizationId, ids.userId)] else [])
      ensures db.roles == old(db.roles) + (if SetupWritesDone(v) == 3 then TrainerRoleRows(ids.organizationId, ids.roleId) else [])
      ensures db.members == old(db.members)
                + (if SetupWritesDone(v) == 3 && v.member.Accepted? then [TrainerMembership(ids)] else [])
      ensures db.profiles == old(db.profiles)
      ensures step == (if SetupWritesDone(v) == 3 then 2 else old(step))
      ensures created == (if SetupWritesDone(v) == 3
                          then Some(Created(TrainerOrganizationRow(data, ids.organizationId, ids.userId), TrainerAccount(data, ids.userId)))
                          else old(created))
      ensures !loading
    {
      loading := true;
      var ok := CreateTrainerOrganization(data, ids, v);
      if ok {
        var rows := TrainerRoleRows(ids.organizationId, ids.roleId);
        HeadTrainerIsFirstRole(ids.organizationId, ids.roleId);
        var headTrainer := HeadTrainer(rows);
        var _ := db.InsertMember(MemberRow(ids.memberId, ids.organizationId, ids.userId, Some(headTrainer.value.id), true), v.member);
        created := Some(Created(TrainerOrganizationRow(data, ids.organizationId, ids.userId), TrainerAccount(data, ids.userId)));
        step := 2;
      }
      loading := false;
    }

    /** `onSubmit` with the membership insert's outcome checked: step 2 is reached only with the membership stored. */
    method OnSubmitChecked(data: TrainerFormData, ids: TrainerIds, v: TrainerVerdicts)
      modifies this, db
      ensures db.users == old(db.users) + (if SetupWritesDone(v) >= 1 then [TrainerAccount(data, ids.userId)] else [])
      ensures db.organizations == old(db.organizations)
                + (if SetupWritesDone(v) >= 2 then [TrainerOrganizationRow(data, ids.organizationId, ids.userId)] else [])
      ensures db.roles == old(db.roles) + (if SetupWritesDone(v) == 3 then TrainerRoleRows(ids.organizationId, ids.roleId) else [])
      ensures db.members == old(db.members)
                + (if SetupWritesDone(v) == 3 && v.member.Accepted? then [TrainerMembership(ids)] else [])
      ensures db.profiles == old(db.profiles)
      ensures step == (if SetupWritesDone(v) == 3 && v.member.Accepted? then 2 else old(step))
      ensures step == 2 && old(step) != 2 ==> TrainerMembership(ids) in db.members
      ensures !loading
    {
      loading := true;
      var ok := CreateTrainerOrganization(data, ids, v);
      if ok {
        var rows := TrainerRoleRows(ids.organizationId, ids.roleId);
        HeadTrainerIsFirstRole(ids.organizationId, ids.roleId);
        var headTrainer := HeadTrainer(rows);
        ok := db.InsertMember(MemberRow(ids.memberId, ids.organizationId, ids.userId, Some(headTrainer.value.id), true), v.member);
      }
      if ok {
        created := Some(Created(TrainerOrganizationRow(data, ids.organizationId, ids.userId), TrainerAccount(data, ids.userId)));
        step := 2;
      }
      loading := false;
    }

    /** A click on the submit button: the handler runs only when the browser and the form rules let it through. */
    method Submit(data: TrainerFormData, inputsValid: bool, ids: TrainerIds, v: TrainerVerdicts)
      modifies this, db
      ensures !TrainerSubmits(data, inputsValid) ==>
                && unchanged(db) && step == old(step) && loading == old(loading) && created == old(created)
      ensures TrainerSubmits(data, inputsValid) ==>
                && db.users == old(db.users) + (if SetupWritesDone(v) >= 1 then [TrainerAccount(data, ids.userId)] else [])
                && db.organizations == old(db.organizations)
                     + (if SetupWritesDone(v) >= 2 then [TrainerOrganizationRow(data, ids.organizationId, ids.userId)] else [])
                && db.roles == old(db.roles) + (if SetupWritesDone(v) == 3 then TrainerRoleRows(ids.organizationId, ids.roleId) else [])
                && db.members == old(db.members)
                     + (if SetupWritesDone(v) == 3 && v.member.Accepted? then [TrainerMembership(ids)] else [])
                && db.profiles == old(db.profiles)
                && step == (if SetupWritesDone(v) == 3 then 2 else old(step))
                && created == (if SetupWritesDone(v) == 3
                               then Some(Created(TrainerOrganizationRow(data, ids.organizationId, ids.userId), TrainerAccount(data, ids.userId)))
                               else old(created))
                && !loading
    {
      if TrainerSubmits(data, inputsValid) {
        OnSubmit(data, ids, v);
      }
    }
  }

  /**
   * Success is reported without the membership: after a fresh wizard's submit in which the first
   * three writes are accepted and the membership insert is rejected, the wizard is at step 2 and the
   * trainer is a member of nothing new.
   */
  method SuccessWithoutMembership(data: TrainerFormData, ids: TrainerIds, message: string)
    returns (w: TrainerWizard)
    ensures w.step == 2
    ensures w.db.members == []
  {
    var db := new Database([], [], [], [], []);
    w := new TrainerWizard(db);
    w.OnSubmit(data, ids, TrainerVerdicts(Accepted, Accepted, Accepted, Rejected(message)));
  }
}

=== FILE: user_dropdown_selector.dfy ===
/**
 * The user dropdown of the business setup: it lists the users of GET /api/users-with-organizations,
 * one menu entry per user without organizations and one per organization of the others, and hands
 * the chosen user and organization to the page.
 */
module UserDropdownSelector {
  import opened Wrappers
  import opened Text
  import opened Lists
  import opened UsersWithOrganizationsRoute

  /** What a selection hands to `onUserSelected`. */
  datatype Selection = Selection(userId: string, organizationId: Option<string>, userEmail: string, orgName: Option<string>)

  /** A menu button: a user alone, or a user with one of its organizations. */
  datatype MenuEntry = Alone(user: UserWithOrganizations) | WithOrganization(user: UserWithOrganizations, org: UserOrganization)

  /** `user.organizations[0]?.id` and `user.organizations[0]?.name`. */
  function FirstOrganization(u: UserWithOrganizations): (r: Option<UserOrganization>)
    ensures r.Some? <==> |u.organizations| > 0
    ensures r.Some? ==> r.value == u.organizations[0]
  {
    if |u.organizations| > 0 then Some(u.organizations[0]) else None
  }

  function IdOf(o: Option<UserOrganization>): Option<string> {
    if o.Some? then Some(o.value.id) else None
  }

  function NameOf(o: Option<UserOrganization>): Option<string> {
    if o.Some? then Some(o.value.name) else None
  }

  /** `handleUserSelection`: the id and the name each come from the chosen organization, else from the user's first. */
  function SelectionFor(u: UserWithOrganizations, organization: Option<UserOrganization>): (s: Selection)
    ensures s.userId == u.id && s.userEmail == u.email
    ensures s.organizationId.None? || Truthy(s.organizationId)
    ensures s.orgName.None? || Truthy(s.orgName)
    ensures organization.Some? && organization.value.id != "" ==> s.organizationId == Some(organization.value.id)
    ensures (organization.None? || organization.value.id == "") && |u.organizations| > 0 && u.organizations[0].id != "" ==>
              s.organizationId == Some(u.organizations[0].id)
    ensures (organization.None? || organization.value.id == "") && (|u.organizations| == 0 || u.organizations[0].id == "") ==>
              s.organizationId.None?
    ensures organization.Some? && organization.value.name != "" ==> s.orgName == Some(organization.value.name)
    ensures (organization.None? || organization.value.name == "") && |u.organizations| > 0 && u.organizations[0].name != "" ==>
              s.orgName == Some(u.organizations[0].name)
    ensures (organization.None? || organization.value.name == "") && (|u.organizations| == 0 || u.organizations[0].name == "") ==>
              s.orgName.None?
  {
    var first := FirstOrganization(u);
    Selection(u.id, EitherOrNull(IdOf(organization), IdOf(first)), u.email, EitherOrNull(NameOf(organization), NameOf(first)))
  }

  /** `formatUserDisplay`. */
  function FormatUserDisplay(u: UserWithOrganizations): (r: string)
    ensures |u.organizations| == 0 ==> r == u.email + " (No organization)"
    ensures |u.organizations| == 1 ==> r == u.email + " (" + u.organizations[0].name + ")"
    ensures |u.organizations| >= 2 ==> r == u.email + " (" + NatToString(|u.organizations|) + " organizations)"
  {
    if |u.organizations| == 0 then u.email + " (No organization)"
    else if |u.organizations| == 1 then u.email + " (" + u.organizations[0].name + ")"
    else u.email + " (" + NatToString(|u.organizations|) + " organizations)"
  }

  /**
   * The display begins with the user's email, and two users of the same email with different
   * numbers (two or more) of organizations are told apart.
   */
  lemma FormatUserDisplayDistinguishesCounts(u: UserWithOrganizations, v: UserWithOrganizations)
    ensures FormatUserDisplay(u)[..|u.email|] == u.email
    ensures u.email == v.email && |u.organizations| >= 2 && |v.organizations| >= 2 && |u.organizations| != |v.organizations| ==>
              FormatUserDisplay(u) != FormatUserDisplay(v)
  {
    if u.email == v.email && |u.organizations| >= 2 && |v.organizations| >= 2 && |u.organizations| != |v.organizations| {
      if FormatUserDisplay(u) == FormatUserDisplay(v) {
        SameAffixes(u.email + " (", NatToString(|u.organizations|), NatToString(|v.organizations|), " organizations)");
        NatToStringInjective(|u.organizations|, |v.organizations|);
      }
    }
  }

  /** Strings with the same prefix and suffix are equal when their middles are. */
  lemma SameAffixes(pre: string, x: string, y: string, post: string)
    requires pre + x + post == pre + y + post
    ensures x == y
  {
    assert x == (pre + x + post)[|pre|..|pre| + |x|];
    assert y == (pre + y + post)[|pre|..|pre| + |y|];
  }

  /** `getCurrentSelection`: the label of the closed dropdown for the page's current selection. */
  function CurrentSelection(selectedUserId: Option<string>, selectedUserEmail: Option<string>, selectedOrgName: Option<string>): (r: string)
    ensures |r| > 0
    ensures !Truthy(selectedUserId) ==> r == "Select a user..."
    ensures Truthy(selectedUserId) && Truthy(selectedUserEmail) && Truthy(selectedOrgName) ==>
              r == selectedUserEmail.value + " (" + selectedOrgName.value + ")"
    ensures Truthy(selectedUserId) && !(Truthy(selectedUserEmail) && Truthy(selectedOrgName)) ==>
              r == OrElse(selectedUserEmail, "Unknown user")
  {
    if !Truthy(selectedUserId) then "Select a user..."
    else if Truthy(selectedUserEmail) && Truthy(selectedOrgName) then selectedUserEmail.value + " (" + selectedOrgName.value + ")"
    else OrElse(selectedUserEmail, "Unknown user")
  }

  /**
   * After a selection the label shows the email with the chosen organization's name, or with the
   * first organization's name when none was chosen; a user without organizations shows the email
   * alone, and one whose email is empty shows 'Unknown user'.
   */
  lemma SelectionShownInLabel(u: UserWithOrganizations, organization: Option<UserOrganization>)
    requires u.id != ""
    ensures var s := SelectionFor(u, organization);
            var shown := CurrentSelection(Some(s.userId), Some(s.userEmail), s.orgName);
            && (u.email != "" && organization.Some? && organization.value.name != "" ==> shown == u.email + " (" + organization.value.name + ")")
            && (u.email != "" && organization.None? && u.organizations == [] ==> shown == u.email)
            && (u.email != "" && organization.None? && u.organizations != [] && u.organizations[0].name != "" ==>
                  shown == u.email + " (" + u.organizations[0].name + ")")
            && (u.email == "" ==> shown == "Unknown user")
  {
  }

  /** The buttons for the users without organizations. */
  function AloneEntries(users: seq<UserWithOrganizations>): (r: seq<MenuEntry>)
    ensures |r| == |Filter(users, (u: UserWithOrganizations) => !u.hasOrganizations)|
  {
    var alone := Filter(users, (u: UserWithOrganizations) => !u.hasOrganizations);
    seq(|alone|, k requires 0 <= k < |alone| => Alone(alone[k]))
  }

  /** The buttons for the given users, one per organization, user by user. */
  function OrganizationEntries(users: seq<UserWithOrganizations>): seq<MenuEntry> {
    if users == [] then []
    else
      var u := users[0];
      seq(|u.organizations|, k requires 0 <= k < |u.organizations| => WithOrganization(u, u.organizations[k]))
      + OrganizationEntries(users[1..])
  }

  /** The number of organizations of the given users, counted user by user. */
  function TotalOrganizations(users: seq<UserWithOrganizations>): nat {
    if users == [] then 0 else |users[0].organizations| + TotalOrganizations(users[1..])
  }

  /** The open menu: the users without organizations first, then the others' organizations. */
  function MenuEntries(users: seq<UserWithOrganizations>): seq<MenuEntry> {
    AloneEntries(users) + OrganizationEntries(Filter(users, (u: UserWithOrganizations) => u.hasOrganizations))
  }

  /** A user with organizations has exactly one button per organization. */
  lemma {:induction false} OrganizationEntriesCount(users: seq<UserWithOrganizations>)
    ensures |OrganizationEntries(users)| == TotalOrganizations(users)
  {
    if users != [] {
      OrganizationEntriesCount(users[1..]);
    }
  }

  /** A user-and-organization button is there exactly for an organization of one of the users. */
  lemma {:induction false} OrganizationEntriesIff(users: seq<UserWithOrganizations>, u: UserWithOrganizations, o: UserOrganization)
    ensures WithOrganization(u, o) in OrganizationEntries(users) <==> u in users && o in u.organizations
    ensures forall e :: e in OrganizationEntries(users) ==> e.WithOrganization?
  {
    if users != [] {
      OrganizationEntriesIff(users[1..], u, o);
      var v := users[0];
      var head := seq(|v.organizations|, k requires 0 <= k < |v.organizations| => WithOrganization(v, v.organizations[k]));
      assert OrganizationEntries(users) == head + OrganizationEntries(users[1..]);
      if u == v && o in u.organizations {
        var k :| 0 <= k < |u.organizations| && u.organizations[k] == o;
        assert head[k] == WithOrganization(u, o);
      }
      assert users == [v] + users[1..];
    }
  }

  /**
   * The menu has one entry per user without organizations and one per organization of each user
   * with organizations; a user is offered alone exactly when it has none.
   */
  lemma MenuShape(users: seq<UserWithOrganizations>, u: UserWithOrganizations, o: UserOrganization)
    ensures |MenuEntries(users)| ==
              |Filter(users, (x: UserWithOrganizations) => !x.hasOrganizations)|
              + TotalOrganizations(Filter(users, (x: UserWithOrganizations) => x.hasOrganizations))
    ensures Alone(u) in MenuEntries(users) <==> u in users && !u.hasOrganizations
    ensures WithOrganization(u, o) in MenuEntries(users) <==> u in users && u.hasOrganizations && o in u.organizations
  {
    var alone := Filter(users, (x: UserWithOrganizations) => !x.hasOrganizations);
    var others := Filter(users, (x: UserWithOrganizations) => x.hasOrganizations);
    OrganizationEntriesCount(others);
    OrganizationEntriesIff(others, u, o);
    FilterIff(users, (x: UserWithOrganizations) => !x.hasOrganizations, u);
    FilterIff(users, (x: UserWithOrganizations) => x.hasOrganizations, u);
    if Alone(u) in AloneEntries(users) {
      var k :| 0 <= k < |alone| && AloneEntries(users)[k] == Alone(u);
      assert alone[k] == u;
    }
    if u in alone {
      var k :| 0 <= k < |alone| && alone[k] == u;
      assert AloneEntries(users)[k] == Alone(u);
    }
    assert Alone(u) !in OrganizationEntries(others);
    assert forall e :: e in AloneEntries(users) ==> e.Alone?;
  }

  /**
   * With the route's users, whose `has_organizations` says whether they have any, every user can be
   * chosen from the menu: alone, or with its first organization.
   */
  lemma EveryUserSelectable(users: seq<UserWithOrganizations>, u: UserWithOrganizations)
    requires u in users
    requires u.hasOrganizations <==> |u.organizations| > 0
    ensures Alone(u) in MenuEntries(users) || (|u.organizations| > 0 && WithOrganization(u, u.organizations[0]) in MenuEntries(users))
  {
    if u.hasOrganizations {
      MenuShape(users, u, u.organizations[0]);
    } else {
      MenuShape(users, u, UserOrganization("", "", "", None, "", None, ""));
    }
  }

  /** The users of a successful answer of the route say truthfully whether they have organizations. */
  lemma RouteUsersFlagOrganizations(profiles: seq<ProfileEntry>, memberships: seq<Membership>, k: nat)
    requires k < |profiles|
    ensures var r := UsersWithOrganizationsRoute.Get(profiles, None, memberships, None);
            r.Users? && (r.users[k].hasOrganizations <==> |r.users[k].organizations| > 0)
  {
  }

  /** The selection a menu button makes. */
  function EntrySelection(e: MenuEntry): (s: Selection)
    ensures s.userId == e.user.id && s.userEmail == e.user.email
    ensures e.WithOrganization? && e.org.id != "" ==> s.organizationId == Some(e.org.id)
    ensures e.WithOrganization? && e.org.name != "" ==> s.orgName == Some(e.org.name)
    ensures e.Alone? && e.user.organizations == [] ==> s.organizationId.None? && s.orgName.None?
  {
    match e
    case Alone(u) => SelectionFor(u, None)
    case WithOrganization(u, o) => SelectionFor(u, Some(o))
  }

  /** The dropdown's own state: the loaded users, whether they are loading, and whether the menu is open. */
  class Dropdown {
    var users: seq<UserWithOrganizations>
    var loading: bool
    var isOpen: bool

    /** The dropdown starts empty, loading and closed. */
    constructor ()
      ensures users == [] && loading && !isOpen
    {
      users := [];
      loading := true;
      isOpen := false;
    }

    /** `loadUsers`: an answer with users replaces the list; a failed answer keeps it. Loading ends either way. */
    method LoadUsers(response: UsersResponse)
      modifies this
      ensures response.Users? ==> users == response.users
      ensures response.Failed? ==> users == old(users)
      ensures !loading && isOpen == old(isOpen)
    {
      loading := true;
      if response.Users? {
        users := response.users;
      }
      loading := false;
    }

    /** The dropdown button opens a closed menu and closes an open one. */
    method Toggle()
      modifies this
      ensures isOpen == !old(isOpen)
      ensures users == old(users) && loading == old(loading)
    {
      isOpen := !isOpen;
    }

    /** A click outside the open menu closes it. */
    method ClickOutside()
      requires isOpen
      modifies this
      ensures !isOpen
      ensures users == old(users) && loading == old(loading)
    {
      isOpen := false;
    }

    /** A click on a menu button: the selection goes to the page and the menu closes. */
    method Choose(e: MenuEntry) returns (s: Selection)
      requires e in MenuEntries(users)
      modifies this
      ensures s == EntrySelection(e)
      ensures !isOpen
      ensures users == old(users) && loading == old(loading)
    {
      s := EntrySelection(e);
      isOpen := false;
    }
  }
}

=== FILE: user_management.dfy ===
/**
 * The user-management panel: creating a member account (three writes) and assigning an
 * existing user to an organization (update the membership if there is one, insert it if not).
 */
module UserManagement {
  import opened Wrappers
  import opened Backend
  import opened Forms

  /** The membership table after a successful assignment of `userId` to `organizationId` with `roleId`. */
  function Assigned(members: seq<MemberRow>, userId: string, organizationId: string, roleId: string, newId: string): seq<MemberRow> {
    match SingleMember(members, userId, organizationId)
    case Some(existing) => UpdatedMembers(members, existing.id, roleId)
    case None => members + [MemberRow(newId, organizationId, userId, Some(roleId), true)]
  }

  /** The pair has at most one membership row. */
  predicate AtMostOneMembership(members: seq<MemberRow>, userId: string, organizationId: string) {
    |Matching(members, userId, organizationId)| <= 1
  }

  /**
   * `assignUserToOrg`: `lookup` is the outcome of the `.single()` read (its error is ignored, so a
   * failed read counts as "no membership"), `write` that of the update or insert.
   */
  method AssignUserToOrg(db: Database, userId: string, organizationId: string, roleId: string, newId: string,
                         lookup: Verdict, write: Verdict) returns (ok: bool)
    modifies db
    ensures ok <==> write.Accepted?
    ensures lookup.Accepted? && ok ==> db.members == Assigned(old(db.members), userId, organizationId, roleId, newId)
    ensures lookup.Rejected? && ok ==> db.members == old(db.members) + [MemberRow(newId, organizationId, userId, Some(roleId), true)]
    ensures !ok ==> db.members == old(db.members)
    ensures db.users == old(db.users) && db.organizations == old(db.organizations)
    ensures db.roles == old(db.roles) && db.profiles == old(db.profiles)
  {
    var existing: Option<MemberRow> := None;
    if lookup.Accepted? {
      existing := db.SelectSingleMember(userId, organizationId);
    }
    if existing.Some? {
      ok := db.UpdateMember(existing.value.id, roleId, write);
    } else {
      ok := db.InsertMember(MemberRow(newId, organizationId, userId, Some(roleId), true), write);
    }
  }

  /** An existing membership is rewritten in place: same length, the pair's row gets the role and is active, every other row is unchanged. */
  lemma AssignedUpdatesInPlace(members: seq<MemberRow>, userId: string, organizationId: string, roleId: string, newId: string)
    requires UniqueIds(members)
    requires SingleMember(members, userId, organizationId).Some?
    ensures var r := Assigned(members, userId, organizationId, roleId, newId);
            && |r| == |members|
            && forall k :: 0 <= k < |members| ==>
                 if members[k].userId == userId && members[k].organizationId == organizationId
                 then r[k] == members[k].(roleId := Some(roleId), isActive := true)
                 else r[k] == members[k]
  {
    var e := SingleMember(members, userId, organizationId).value;
    MatchingIn(members, userId, organizationId);
    var r := Assigned(members, userId, organizationId, roleId, newId);
    forall k | 0 <= k < |members|
      ensures if members[k].userId == userId && members[k].organizationId == organizationId
              then r[k] == members[k].(roleId := Some(roleId), isActive := true)
              else r[k] == members[k]
    {
      var j :| 0 <= j < |members| && members[j] == e;
      if members[k].userId == userId && members[k].organizationId == organizationId {
        MatchingUnique(members, userId, organizationId, j, k);
      } else {
        assert k != j;
      }
    }
  }

  /** With one matching row, every matching position holds that row. */
  lemma {:induction false} MatchingUnique(members: seq<MemberRow>, userId: string, organizationId: string, j: nat, k: nat)
    requires |Matching(members, userId, organizationId)| == 1
    requires j < |members| && k < |members|
    requires members[j].userId == userId && members[j].organizationId == organizationId
    requires members[k].userId == userId && members[k].organizationId == organizationId
    ensures j == k
  {
    if j != k {
      var lo, hi := if j < k then j else k, if j < k then k else j;
      MatchingTwo(members, userId, organizationId, lo, hi);
    }
  }

  /** Two matching positions give at least two matching rows. */
  lemma {:induction false} MatchingTwo(members: seq<MemberRow>, userId: string, organizationId: string, lo: nat, hi: nat)
    requires lo < hi < |members|
    requires members[lo].userId == userId && members[lo].organizationId == organizationId
    requires members[hi].userId == userId && members[hi].organizationId == organizationId
    ensures |Matching(members, userId, organizationId)| >= 2
  {
    if lo == 0 {
      MatchingIn(members[1..], userId, organizationId);
      assert members[1..][hi - 1] == members[hi];
    } else {
      MatchingTwo(members[1..], userId, organizationId, lo - 1, hi - 1);
    }
  }

  /** With no membership yet, exactly one row is appended, with the pair, the role and `is_active`. */
  lemma AssignedInserts(members: seq<MemberRow>, userId: string, organizationId: string, roleId: string, newId: string)
    requires |Matching(members, userId, organizationId)| == 0
    ensures Assigned(members, userId, organizationId, roleId, newId)
         == members + [MemberRow(newId, organizationId, userId, Some(roleId), true)]
  {
  }

  /** Matching distributes over appending a row. */
  lemma {:induction false} MatchingAppend(members: seq<MemberRow>, row: MemberRow, userId: string, organizationId: string)
    ensures Matching(members + [row], userId, organizationId)
         == Matching(members, userId, organizationId)
          + (if row.userId == userId && row.organizationId == organizationId then [row] else [])
  {
    if members != [] {
      MatchingAppend(members[1..], row, userId, organizationId);
      assert (members + [row])[1..] == members[1..] + [row];
    }
  }

  /** Updating rows by id keeps who belongs to which organization, so it keeps the matching count. */
  lemma {:induction false} MatchingUpdated(members: seq<MemberRow>, id: string, roleId: string, userId: string, organizationId: string)
    ensures |Matching(UpdatedMembers(members, id, roleId), userId, organizationId)| == |Matching(members, userId, organizationId)|
  {
    if members != [] {
      MatchingUpdated(members[1..], id, roleId, userId, organizationId);
      assert UpdatedMembers(members, id, roleId)[1..] == UpdatedMembers(members[1..], id, roleId);
    }
  }

  /** Updating by id twice with the same role is updating once. */
  lemma UpdatedMembersIdempotent(members: seq<MemberRow>, id: string, roleId: string)
    ensures UpdatedMembers(UpdatedMembers(members, id, roleId), id, roleId) == UpdatedMembers(members, id, roleId)
  {
  }

  /** An appended row that already has the role and is active is unchanged by an update of its own id. */
  lemma UpdatedMembersAppend(members: seq<MemberRow>, row: MemberRow, roleId: string)
    requires row.roleId == Some(roleId) && row.isActive
    ensures UpdatedMembers(members + [row], row.id, roleId) == UpdatedMembers(members, row.id, roleId) + [row]
  {
  }

  /**
   * Assigning the same user, organization and role twice leaves the table as assigning once, as long
   * as the pair had at most one membership and the inserted id was not in use.
   */
  lemma AssignedIdempotent(members: seq<MemberRow>, userId: string, organizationId: string, roleId: string, newId: string, otherId: string)
    requires AtMostOneMembership(members, userId, organizationId)
    requires forall k :: 0 <= k < |members| ==> members[k].id != newId
    ensures Assigned(Assigned(members, userId, organizationId, roleId, newId), userId, organizationId, roleId, otherId)
         == Assigned(members, userId, organizationId, roleId, newId)
  {
    var once := Assigned(members, userId, organizationId, roleId, newId);
    match SingleMember(members, userId, organizationId)
    case Some(existing) =>
      MatchingUpdated(members, existing.id, roleId, userId, organizationId);
      var s := SingleMember(once, userId, organizationId).value;
      MatchingIn(once, userId, organizationId);
      var j :| 0 <= j < |once| && once[j] == s;
      assert UpdatedMembers(members, existing.id, roleId)[j] == s;
      MatchingIn(members, userId, organizationId);
      var i :| 0 <= i < |members| && members[i] == existing;
      assert members[j].userId == userId && members[j].organizationId == organizationId;
      MatchingUnique(members, userId, organizationId, i, j);
      UpdatedMembersIdempotent(members, existing.id, roleId);
    case None =>
      var row := MemberRow(newId, organizationId, userId, Some(roleId), true);
      MatchingAppend(members, row, userId, organizationId);
      assert |Matching(members, userId, organizationId)| == 0;
      assert Matching(once, userId, organizationId) == [row];
      UpdatedMembersAppend(members, row, roleId);
      assert UpdatedMembers(members, newId, roleId) == members;
  }

  /** After an assignment the pair has exactly one membership, with the role, and it is active. */
  lemma AssignedMembership(members: seq<MemberRow>, userId: string, organizationId: string, roleId: string, newId: string)
    requires AtMostOneMembership(members, userId, organizationId)
    ensures var m := SingleMember(Assigned(members, userId, organizationId, roleId, newId), userId, organizationId);
            m.Some? && m.value.roleId == Some(roleId) && m.value.isActive
  {
    var once := Assigned(members, userId, organizationId, roleId, newId);
    match SingleMember(members, userId, organizationId)
    case Some(existing) =>
      MatchingUpdated(members, existing.id, roleId, userId, organizationId);
      var s := SingleMember(once, userId, organizationId).value;
      MatchingIn(once, userId, organizationId);
      var j :| 0 <= j < |once| && once[j] == s;
      MatchingIn(members, userId, organizationId);
      var i :| 0 <= i < |members| && members[i] == existing;
      assert members[j].userId == userId && members[j].organizationId == organizationId;
      MatchingUnique(members, userId, organizationId, i, j);
    case None =>
      var row := MemberRow(newId, organizationId, userId, Some(roleId), true);
      MatchingAppend(members, row, userId, organizationId);
      assert Matching(once, userId, organizationId) == [row];
  }

  /** The `createUser` form. */
  datatype UserFormData = UserFormData(email: string, name: string, password: string, organizationId: string, roleId: string)

  /** The organizations the panel was given: their ids and names. */
  datatype OrganizationEntry = OrganizationEntry(id: string, name: string)

  /** `organizations.find(org => org.id === id)?.name`. */
  function FindOrganizationName(organizations: seq<OrganizationEntry>, id: string): (r: Option<string>)
    ensures r.Some? <==> exists k :: 0 <= k < |organizations| && organizations[k].id == id
    ensures r.Some? ==> exists k :: (0 <= k < |organizations| && organizations[k].id == id && organizations[k].name == r.value
                                     && forall p :: 0 <= p < k ==> organizations[p].id != id)
  {
    if organizations == [] then None
    else if organizations[0].id == id then Some(organizations[0].name)
    else
      var r := FindOrganizationName(organizations[1..], id);
      if r.Some? then
        var k :| 0 <= k < |organizations[1..]| && organizations[1..][k].id == id && organizations[1..][k].name == r.value
                  && forall p :: 0 <= p < k ==> organizations[1..][p].id != id;
        assert organizations[k + 1].id == id && organizations[k + 1].name == r.value;
        r
      else
        assert forall k :: 1 <= k < |organizations| ==> organizations[k] == organizations[1..][k - 1];
        r
  }

  /** The bio of a new member's profile; a missing organization prints as `undefined`. */
  function MemberBio(organizations: seq<OrganizationEntry>, organizationId: string): (bio: string)
    ensures FindOrganizationName(organizations, organizationId).Some? ==>
              bio == "Member of " + FindOrganizationName(organizations, organizationId).value
    ensures FindOrganizationName(organizations, organizationId).None? ==> bio == "Member of undefined"
  {
    "Member of " + FindOrganizationName(organizations, organizationId).GetOr("undefined")
  }

  /** The outcomes of the three writes of `createUser`, and the ids the services hand out. */
  datatype CreateVerdicts = CreateVerdicts(user: Verdict, member: Verdict, profile: Verdict)
  datatype CreateIds = CreateIds(userId: string, memberId: string, profileId: string)

  function NewAccount(data: UserFormData, ids: CreateIds): AuthUser {
    AuthUser(ids.userId, data.email, data.password, true, data.name, "user")
  }

  function NewMembership(data: UserFormData, ids: CreateIds): MemberRow {
    MemberRow(ids.memberId, data.organizationId, ids.userId, Some(data.roleId), true)
  }

  function NewProfile(data: UserFormData, ids: CreateIds, organizations: seq<OrganizationEntry>): ProfileRow {
    ProfileRow(ids.profileId, ids.userId, "organization", data.name, MemberBio(organizations, data.organizationId), true)
  }

  /** The number of `createUser` writes that take effect: they stop at the first rejected one. */
  function CreateWritesDone(v: CreateVerdicts): (n: nat)
    ensures n <= 3
    ensures n == 3 <==> v.user.Accepted? && v.member.Accepted? && v.profile.Accepted?
  {
    if v.user.Rejected? then 0 else if v.member.Rejected? then 1 else if v.profile.Rejected? then 2 else 3
  }

  /**
   * `createUser`: account, then membership, then profile. A rejected write stops the sequence and
   * nothing already written is undone; `ok` reports whether all three were written.
   */
  method CreateUser(db: Database, data: UserFormData, organizations: seq<OrganizationEntry>, ids: CreateIds, v: CreateVerdicts)
    returns (ok: bool)
    modifies db
    ensures ok <==> CreateWritesDone(v) == 3
    ensures db.users == old(db.users) + (if CreateWritesDone(v) >= 1 then [NewAccount(data, ids)] else [])
    ensures db.members == old(db.members) + (if CreateWritesDone(v) >= 2 then [NewMembership(data, ids)] else [])
    ensures db.profiles == old(db.profiles) + (if CreateWritesDone(v) >= 3 then [NewProfile(data, ids, organizations)] else [])
    ensures db.organizations == old(db.organizations) && db.roles == old(db.roles)
  {
    ok := db.CreateUser(NewAccount(data, ids), v.user);
    if ok {
      ok := db.InsertMember(NewMembership(data, ids), v.member);
    }
    if ok {
      ok := db.InsertProfile(NewProfile(data, ids, organizations), v.profile);
    }
  }

  /** The form rules of `createUser`, field by field. The e-mail pattern is given as `emailMatches`. */
  function UserFormErrors(data: UserFormData, emailMatches: bool): seq<FieldError> {
    Required("name", data.name, "Name is required")
    + RequiredThen("email", data.email, "Email is required", emailMatches, "Invalid email address")
    + RequiredThen("password", data.password, "Password is required", |data.password| >= 8,
                   "Password must be at least 8 characters")
    + Required("organizationId", data.organizationId, "Organization is required")
    + Required("roleId", data.roleId, "Role is required")
  }

  /**
   * The form lets a submit through exactly when the name, the e-mail, an organization and a role
   * are given, the e-mail matches and the password has at least 8 characters.
   */
  lemma UserFormErrorsEmptyIff(data: UserFormData, emailMatches: bool)
    ensures UserFormErrors(data, emailMatches) == [] <==>
              && |data.name| > 0 && |data.email| > 0 && emailMatches && |data.password| >= 8
              && |data.organizationId| > 0 && |data.roleId| > 0
  {
  }

  /** `handleSubmit(createUser)`: the three writes run only when no field rule is broken. */
  method SubmitCreateUser(db: Database, data: UserFormData, emailMatches: bool, organizations: seq<OrganizationEntry>,
                          ids: CreateIds, v: CreateVerdicts) returns (ok: bool)
    modifies db
    ensures UserFormErrors(data, emailMatches) != [] ==> !ok && unchanged(db)
    ensures UserFormErrors(data, emailMatches) == [] ==>
              && (ok <==> CreateWritesDone(v) == 3)
              && db.users == old(db.users) + (if CreateWritesDone(v) >= 1 then [NewAccount(data, ids)] else [])
              && db.organizations == old(db.organizations) && db.roles == old(db.roles)
              && db.members == old(db.members) + (if CreateWritesDone(v) >= 2 then [NewMembership(data, ids)] else [])
              && db.profiles == old(db.profiles) + (if CreateWritesDone(v) >= 3 then [NewProfile(data, ids, organizations)] else [])
    ensures ok ==> |data.organizationId| > 0 && |data.roleId| > 0 && NewMembership(data, ids) in db.members
  {
    ok := false;
    if UserFormErrors(data, emailMatches) == [] {
      ok := CreateUser(db, data, organizations, ids, v);
    }
  }
}

=== FILE: user_selector.dfy ===
/**
 * The user picker of the business setup: the users with the organizations of their active
 * memberships, the search box over them, the selection a click makes, and the counts above the list.
 */
module UserSelector {
  import opened Wrappers
  import opened Text
  import opened Lists

  /** A row of `user_account_profiles` with the columns the picker selects. */
  datatype Profile = Profile(
    id: string,
    email: string,
    fullName: Option<string>,
    phone: Option<string>,
    avatarUrl: Option<string>,
    accountType: string,
    createdAt: string,
    updatedAt: string)

  /** The joined `organizations(...)` record of a membership. */
  datatype OrganizationJoin = OrganizationJoin(id: string, name: Option<string>, orgType: Option<string>)

  /** The joined `roles(...)` record of a membership. */
  datatype RoleJoin = RoleJoin(id: string, name: Option<string>)

  /** A row of `organization_members` with its joins; a join is absent when nothing matched. */
  datatype MemberRecord = MemberRecord(
    userId: string,
    organizationId: string,
    isActive: bool,
    organization: Option<OrganizationJoin>,
    role: Option<RoleJoin>)

  /** One organization of a listed user. */
  datatype UserOrganization = UserOrganization(id: string, name: string, orgType: string, roleName: string, isActive: bool)

  /** A listed user: the profile columns and the organizations of its memberships. */
  datatype User = User(profile: Profile, organizations: seq<UserOrganization>)

  /** The membership rows the per-user select returns: `.eq('user_id', id).eq('is_active', true)`, in table order. */
  function MembershipQuery(table: seq<MemberRecord>, userId: string): seq<MemberRecord> {
    Filter(table, (m: MemberRecord) => m.userId == userId && m.isActive)
  }

  /** One membership as an organization of the user; missing joined data takes the "Unknown ..." defaults. */
  function OrganizationOf(m: MemberRecord): (o: UserOrganization)
    ensures o.id == m.organizationId && o.isActive == m.isActive
    ensures m.organization.None? ==> o.name == "Unknown Organization" && o.orgType == "Unknown"
    ensures m.organization.Some? ==>
              && o.name == OrElse(m.organization.value.name, "Unknown Organization")
              && o.orgType == OrElse(m.organization.value.orgType, "Unknown")
    ensures m.role.None? ==> o.roleName == "Unknown Role"
    ensures m.role.Some? ==> o.roleName == OrElse(m.role.value.name, "Unknown Role")
  {
    var org := m.organization;
    var role := m.role;
    UserOrganization(
      id := m.organizationId,
      name := JoinedOr(org.Some?, if org.Some? then org.value.name else None, "Unknown Organization"),
      orgType := JoinedOr(org.Some?, if org.Some? then org.value.orgType else None, "Unknown"),
      roleName := JoinedOr(role.Some?, if role.Some? then role.value.name else None, "Unknown Role"),
      isActive := m.isActive)
  }

  /** One loaded user: no organizations when its membership select failed, otherwise one per returned row. */
  function LoadUser(p: Profile, table: seq<MemberRecord>, membershipFailed: bool): (u: User)
    ensures u.profile == p
    ensures membershipFailed ==> u.organizations == []
    ensures !membershipFailed ==>
              && |u.organizations| == |MembershipQuery(table, p.id)|
              && forall k :: 0 <= k < |u.organizations| ==> u.organizations[k] == OrganizationOf(MembershipQuery(table, p.id)[k])
  {
    if membershipFailed then User(p, [])
    else
      var rows := MembershipQuery(table, p.id);
      User(p, seq(|rows|, k requires 0 <= k < |rows| => OrganizationOf(rows[k])))
  }

  /**
   * `loadUsers`: the list after a load. A failed profile select leaves the list as it was; the
   * membership select of the user at index `k` failed exactly when `k` is in `failedLoads`.
   */
  function LoadUsers(previous: seq<User>, profiles: seq<Profile>, profilesFailed: bool,
                     table: seq<MemberRecord>, failedLoads: set<nat>): (users: seq<User>)
    ensures profilesFailed ==> users == previous
    ensures !profilesFailed ==>
              && |users| == |profiles|
              && forall k :: 0 <= k < |profiles| ==> users[k] == LoadUser(profiles[k], table, k in failedLoads)
  {
    if profilesFailed then previous
    else seq(|profiles|, k requires 0 <= k < |profiles| => LoadUser(profiles[k], table, k in failedLoads))
  }

  /**
   * The organizations of a loaded user are exactly those of its active memberships in the table,
   * and every one of them is active.
   */
  lemma LoadedOrganizationsIff(p: Profile, table: seq<MemberRecord>, m: MemberRecord)
    ensures var u := LoadUser(p, table, false);
            && (m in table && m.userId == p.id && m.isActive ==> OrganizationOf(m) in u.organizations)
            && forall k :: 0 <= k < |u.organizations| ==> u.organizations[k].isActive
    ensures var u := LoadUser(p, table, false);
            forall k :: 0 <= k < |u.organizations| ==>
              exists r :: r in table && r.userId == p.id && r.isActive && u.organizations[k] == OrganizationOf(r)
  {
    var rows := MembershipQuery(table, p.id);
    var u := LoadUser(p, table, false);
    FilterIff(table, (x: MemberRecord) => x.userId == p.id && x.isActive, m);
    if m in table && m.userId == p.id && m.isActive {
      var i :| 0 <= i < |rows| && rows[i] == m;
      assert u.organizations[i] == OrganizationOf(m);
    }
    forall k | 0 <= k < |u.organizations|
      ensures u.organizations[k].isActive
    {
      assert u.organizations[k] == OrganizationOf(rows[k]);
    }
    forall k | 0 <= k < |u.organizations|
      ensures exists r :: r in table && r.userId == p.id && r.isActive && u.organizations[k] == OrganizationOf(r)
    {
      var r := rows[k];
      assert r in rows;
      FilterIff(table, (x: MemberRecord) => x.userId == p.id && x.isActive, r);
      assert r in table && r.userId == p.id && r.isActive && u.organizations[k] == OrganizationOf(r);
    }
  }

  /** The search test of one user: its name, its email or the name of one of its organizations. */
  predicate UserMatches(u: User, term: string) {
    var t := ToLower(term);
    || FieldContains(u.profile.fullName, t)
    || Contains(ToLower(u.profile.email), t)
    || exists k :: 0 <= k < |u.organizations| && Contains(ToLower(u.organizations[k].name), t)
  }

  /** `filteredUsers`. */
  function FilteredUsers(users: seq<User>, term: string): seq<User> {
    Filter(users, (u: User) => UserMatches(u, term))
  }

  /**
   * A user is listed exactly when the lower-cased term occurs in its lower-cased full name, email or
   * the name of one of its organizations; the list keeps the order of the loaded users.
   */
  lemma FilteredUsersIff(users: seq<User>, term: string, u: User)
    ensures u in FilteredUsers(users, term) <==>
              u in users &&
              (|| (u.profile.fullName.Some? && Contains(ToLower(u.profile.fullName.value), ToLower(term)))
               || Contains(ToLower(u.profile.email), ToLower(term))
               || exists o :: o in u.organizations && Contains(ToLower(o.name), ToLower(term)))
    ensures Subsequence(FilteredUsers(users, term), users)
  {
    FilterIff(users, (x: User) => UserMatches(x, term), u);
    FilterSubsequence(users, (x: User) => UserMatches(x, term));
    if exists o :: o in u.organizations && Contains(ToLower(o.name), ToLower(term)) {
      var o :| o in u.organizations && Contains(ToLower(o.name), ToLower(term));
      var k :| 0 <= k < |u.organizations| && u.organizations[k] == o;
      assert Contains(ToLower(u.organizations[k].name), ToLower(term));
    }
  }

  /** An empty search box lists every loaded user. */
  lemma EmptySearchKeepsAll(users: seq<User>)
    ensures FilteredUsers(users, "") == users
  {
    forall k | 0 <= k < |users|
      ensures UserMatches(users[k], "")
    {
      ContainsEmpty(ToLower(users[k].profile.email));
    }
    FilterAll(users, (x: User) => UserMatches(x, ""));
  }

  /** `user.organizations?.[0]?.id`. */
  function FirstOrganizationId(u: User): (r: Option<string>)
    ensures r.Some? <==> |u.organizations| > 0
    ensures r.Some? ==> r.value == u.organizations[0].id
  {
    if |u.organizations| > 0 then Some(u.organizations[0].id) else None
  }

  /** `handleSelectUser`: the organization handed on with the user. */
  function SelectedOrganization(u: User, organizationId: Option<string>): (r: Option<string>)
    ensures r.None? || Truthy(r)
  {
    EitherOrNull(organizationId, FirstOrganizationId(u))
  }

  /**
   * The organization selected with a user is the one clicked; without one, the user's first
   * organization; and null when neither has an id, so a user without organizations is selected alone.
   */
  lemma SelectedOrganizationFallback(u: User, organizationId: Option<string>)
    ensures Truthy(organizationId) ==> SelectedOrganization(u, organizationId) == organizationId
    ensures !Truthy(organizationId) && |u.organizations| > 0 && u.organizations[0].id != "" ==>
              SelectedOrganization(u, organizationId) == Some(u.organizations[0].id)
    ensures !Truthy(organizationId) && u.organizations == [] ==> SelectedOrganization(u, organizationId).None?
    ensures SelectedOrganization(u, organizationId).Some? && !Truthy(organizationId) ==>
              exists k :: 0 <= k < |u.organizations| && SelectedOrganization(u, organizationId).value == u.organizations[k].id
  {
    if SelectedOrganization(u, organizationId).Some? && !Truthy(organizationId) {
      assert SelectedOrganization(u, organizationId).value == u.organizations[0].id;
    }
  }

  /** "Users with Organizations": the loaded users that have at least one organization. */
  function UsersWithOrganizationsCount(users: seq<User>): (n: nat)
    ensures n <= |users|
  {
    |Filter(users, (u: User) => |u.organizations| > 0)|
  }

  /** The users the list offers a bare "Select User" button: those without organizations. */
  function UsersWithoutOrganizations(users: seq<User>): seq<User> {
    Filter(users, (u: User) => |u.organizations| == 0)
  }

  /**
   * The users with organizations and those offered a bare "Select User" button together make up
   * the total: every user is counted in exactly one of the two.
   */
  lemma CountsPartitionUsers(users: seq<User>)
    ensures UsersWithOrganizationsCount(users) + |UsersWithoutOrganizations(users)| == |users|
  {
    FilterComplement(users, (u: User) => |u.organizations| > 0, (u: User) => |u.organizations| == 0);
  }

  /** When every membership select fails, no loaded user counts as having organizations. */
  lemma FailedMembershipLoadsCountNone(previous: seq<User>, profiles: seq<Profile>, table: seq<MemberRecord>, failedLoads: set<nat>)
    requires forall k :: 0 <= k < |profiles| ==> k in failedLoads
    ensures UsersWithOrganizationsCount(LoadUsers(previous, profiles, false, table, failedLoads)) == 0
  {
    var users := LoadUsers(previous, profiles, false, table, failedLoads);
    FilterNone(users, (u: User) => |u.organizations| > 0);
  }
}

=== FILE: users_with_organizations_route.dfy ===
/**
 * GET /api/users-with-organizations: every profile's user, with the organizations of its active
 * memberships.
 */
module UsersWithOrganizationsRoute {
  import opened Wrappers
  import opened Backend
  import opened Lists

  /** The profile columns the route selects. */
  datatype ProfileEntry = ProfileEntry(userId: string, email: string, createdAt: string)

  /** The joined `organizations(...)` record of a membership. */
  datatype JoinedOrganization = JoinedOrganization(id: string, name: Option<string>, orgType: Option<string>, description: Option<string>)

  /** The joined `roles(...)` record of a membership. */
  datatype JoinedRole = JoinedRole(id: string, name: Option<string>, color: Option<string>)

  /** A row of `organization_members` with its joins; a join is absent when nothing matched. */
  datatype Membership = Membership(
    userId: string,
    organizationId: string,
    isActive: bool,
    joinedAt: string,
    organization: Option<JoinedOrganization>,
    role: Option<JoinedRole>)

  /** One organization of a user, as the route reports it. */
  datatype UserOrganization = UserOrganization(
    id: string,
    name: string,
    orgType: string,
    description: Option<string>,
    roleName: string,
    roleColor: Option<string>,
    joinedAt: string)

  datatype UserWithOrganizations = UserWithOrganizations(
    id: string,
    email: string,
    createdAt: string,
    organizations: seq<UserOrganization>,
    displayName: string,
    hasOrganizations: bool)

  datatype UsersResponse = Users(users: seq<UserWithOrganizations>) | Failed(status: nat, error: string)

  /** One membership as an organization entry; missing joined data takes the "Unknown ..." defaults. */
  function Summarise(m: Membership): (o: UserOrganization)
    ensures o.id == m.organizationId && o.joinedAt == m.joinedAt
    ensures m.organization.None? ==> o.name == "Unknown Organization" && o.orgType == "unknown" && o.description.None?
    ensures m.role.None? ==> o.roleName == "Unknown Role" && o.roleColor.None?
    ensures m.organization.Some? ==>
              && o.name == OrElse(m.organization.value.name, "Unknown Organization")
              && o.orgType == OrElse(m.organization.value.orgType, "unknown")
              && o.description == m.organization.value.description
    ensures m.role.Some? ==>
              o.roleName == OrElse(m.role.value.name, "Unknown Role") && o.roleColor == m.role.value.color
  {
    var org := m.organization;
    var role := m.role;
    UserOrganization(
      id := m.organizationId,
      name := JoinedOr(org.Some?, if org.Some? then org.value.name else None, "Unknown Organization"),
      orgType := JoinedOr(org.Some?, if org.Some? then org.value.orgType else None, "unknown"),
      description := if org.Some? then org.value.description else None,
      roleName := JoinedOr(role.Some?, if role.Some? then role.value.name else None, "Unknown Role"),
      roleColor := if role.Some? then role.value.color else None,
      joinedAt := m.joinedAt)
  }

  /** The membership rows the second select returns: `.eq('is_active', true)`, in table order. */
  function ActiveMemberships(table: seq<Membership>): seq<Membership> {
    Filter(table, (m: Membership) => m.isActive)
  }

  /** `orgMembers.filter(member => member.user_id === user.user_id)`. */
  function MembershipsOf(active: seq<Membership>, userId: string): seq<Membership> {
    Filter(active, (m: Membership) => m.userId == userId)
  }

  /** The route's result for one profile. */
  function UserEntry(p: ProfileEntry, active: seq<Membership>): (u: UserWithOrganizations)
    ensures u.id == p.userId && u.email == p.email && u.displayName == p.email && u.createdAt == p.createdAt
    ensures |u.organizations| == |MembershipsOf(active, p.userId)|
    ensures forall k :: 0 <= k < |u.organizations| ==> u.organizations[k] == Summarise(MembershipsOf(active, p.userId)[k])
    ensures u.hasOrganizations <==> |u.organizations| > 0
  {
    var mine := MembershipsOf(active, p.userId);
    var orgs := seq(|mine|, k requires 0 <= k < |mine| => Summarise(mine[k]));
    UserWithOrganizations(p.userId, p.email, p.createdAt, orgs, p.email, |orgs| > 0)
  }

  /** The handler; the two errors are the answers of the two selects (None: rows returned). */
  function Get(profiles: seq<ProfileEntry>, profilesError: Option<QueryError>,
               memberships: seq<Membership>, membershipsError: Option<QueryError>): (r: UsersResponse)
    ensures profilesError.Some? ==> r == Failed(500, ErrorMessage(profilesError.value, "Failed to fetch users"))
    ensures profilesError.None? && membershipsError.Some? ==> r == Failed(500, ErrorMessage(membershipsError.value, "Failed to fetch users"))
    ensures r.Users? ==> profilesError.None? && membershipsError.None? && |r.users| == |profiles|
    ensures r.Users? ==> forall k :: 0 <= k < |profiles| ==> r.users[k] == UserEntry(profiles[k], ActiveMemberships(memberships))
  {
    if profilesError.Some? then Failed(500, ErrorMessage(profilesError.value, "Failed to fetch users"))
    else if membershipsError.Some? then Failed(500, ErrorMessage(membershipsError.value, "Failed to fetch users"))
    else
      var active := ActiveMemberships(memberships);
      Users(seq(|profiles|, k requires 0 <= k < |profiles| => UserEntry(profiles[k], active)))
  }

  /**
   * A user's organizations come from exactly the active memberships with the user's id: each such
   * membership as often as it is stored, and no other.
   */
  lemma MembershipsOfIff(table: seq<Membership>, userId: string, m: Membership)
    ensures m in MembershipsOf(ActiveMemberships(table), userId) <==> m in table && m.isActive && m.userId == userId
    ensures m.isActive && m.userId == userId ==>
              multiset(MembershipsOf(ActiveMemberships(table), userId))[m] == multiset(table)[m]
  {
    var active := ActiveMemberships(table);
    FilterIff(table, (x: Membership) => x.isActive, m);
    FilterIff(active, (x: Membership) => x.userId == userId, m);
    FilterCounts(table, (x: Membership) => x.isActive);
    FilterCounts(active, (x: Membership) => x.userId == userId);
  }

  /** The memberships keep their table order. */
  lemma MembershipsInTableOrder(table: seq<Membership>, userId: string)
    ensures Subsequence(MembershipsOf(ActiveMemberships(table), userId), ActiveMemberships(table))
    ensures Subsequence(ActiveMemberships(table), table)
  {
    FilterSubsequence(table, (x: Membership) => x.isActive);
    FilterSubsequence(ActiveMemberships(table), (x: Membership) => x.userId == userId);
  }

  /** A user is reported as having organizations exactly when one of its memberships is active. */
  lemma HasOrganizationsIff(p: ProfileEntry, table: seq<Membership>)
    ensures UserEntry(p, ActiveMemberships(table)).hasOrganizations <==>
              exists k :: 0 <= k < |table| && table[k].isActive && table[k].userId == p.userId
  {
    var mine := MembershipsOf(ActiveMemberships(table), p.userId);
    if |mine| > 0 {
      MembershipsOfIff(table, p.userId, mine[0]);
    }
    if exists k :: 0 <= k < |table| && table[k].isActive && table[k].userId == p.userId {
      var k :| 0 <= k < |table| && table[k].isActive && table[k].userId == p.userId;
      MembershipsOfIff(table, p.userId, table[k]);
    }
  }
}

=== FILE: wrappers.dfy ===
/** Option and the JavaScript value conventions the admin app relies on. */
module Wrappers {

  /** An optional value: `None` stands for a JavaScript `undefined` (or a NaN number). */
  datatype Option<+T> = None | Some(value: T) {
    function GetOr(default: T): T {
      match this
      case Some(v) => v
      case None => default
    }
  }

  /** The truthiness of an optional string: present and not the empty string. */
  predicate Truthy(s: Option<string>) {
    s.Some? && |s.value| > 0
  }

  /** JavaScript `s || d` for an optional string and a string default. */
  function OrElse(s: Option<string>, d: string): (r: string)
    ensures Truthy(s) ==> r == s.value
    ensures !Truthy(s) ==> r == d
  {
    if Truthy(s) then s.value else d
  }

  /** JavaScript `s || null`: a falsy identifier becomes null. */
  function OrNull(s: Option<string>): (r: Option<string>)
    ensures r.None? <==> !Truthy(s)
    ensures r.Some? ==> r == s
  {
    if Truthy(s) then s else None
  }

  /** The truthiness of an optional number: present and not 0 (NaN is None). */
  predicate TruthyNumber(x: Option<real>) {
    x.Some? && x.value != 0.0
  }

  /** JavaScript `Number(x) || k`: undefined, NaN and 0 all fall back to `k`. */
  function NumberOr(x: Option<real>, k: real): (r: real)
    ensures r == k <==> !TruthyNumber(x) || x.value == k
    ensures r != k ==> x == Some(r)
  {
    if TruthyNumber(x) then x.value else k
  }

  /** JavaScript `x ? Number(x) : null`: 0, NaN and undefined become null. */
  function NumberOrNull(x: Option<real>): (r: Option<real>)
    ensures r.None? <==> (x.None? || x.value == 0.0)
    ensures r.Some? ==> r == x && r.value != 0.0
  {
    if TruthyNumber(x) then x else None
  }

  /** JavaScript `Boolean(b)` for an optional boolean. */
  function ToBool(b: Option<bool>): (r: bool)
    ensures r <==> b == Some(true)
  {
    b.GetOr(false)
  }

  /** JavaScript `(joined)?.field || default`: the field of a joined record that may be absent. */
  function JoinedOr(present: bool, field: Option<string>, default: string): (r: string)
    ensures present && Truthy(field) ==> r == field.value
    ensures !(present && Truthy(field)) ==> r == default
  {
    if present then OrElse(field, default) else default
  }

  /** JavaScript `a || b || null` over two optional strings. */
  function EitherOrNull(a: Option<string>, b: Option<string>): (r: Option<string>)
    ensures Truthy(a) ==> r == a
    ensures !Truthy(a) && Truthy(b) ==> r == b
    ensures !Truthy(a) && !Truthy(b) ==> r.None?
  {
    if Truthy(a) then a else OrNull(b)
  }
}
